=== FILE: README.md ===
# groovy.sql.Sql: named parameters, caches and resource release

This project models the core of Groovy's `groovy.sql.Sql` facade in Dafny and
proves properties of the model. The facade lets a caller run SQL against a
JDBC database without managing connections, statements or result sets. The
model covers:

- the named-parameter rewriter: `NAMED_QUERY_PATTERN`,
  `ExtractIndexAndSql.invoke` and `adaptForNamedParams`;
- the named-query cache and `preCheckForNamedParams`;
- the binder: `getUpdatedParams` and `checkForNamedParams`;
- paging: `moveCursor` and the row loop of `asList` and `eachRow`;
- the statement cache and the release policy: `createConnection`,
  `getAbstractStatement`, the four `closeResources` overloads,
  `clearStatementCache`, `close` and `setCacheStatements`;
- the scoped modes: `cacheConnection`, `withTransaction`, `cacheStatements`
  and both `withBatch` forms;
- `findWhereKeyword`, `asSql` up to `nullify`, the argument checks of
  `newInstance(Map)`, `setObject`/`setParameters`, and the out-parameter
  collection of `call(sql, params, closure)`.

Modules, one per file:

| module | file | what it holds |
|---|---|---|
| `Wrappers` | wrappers.dfy | `Option`, `Result`, and the exceptions the facade raises itself |
| `Text` | text.dfy | Java's `\d` and `\w`, quote counting, the view of SQL outside literals, ASCII lower-casing |
| `Values` | values.dfy | the arguments: plain objects, `null`, `InParameter`, `OutParameter`, `InOutParameter`, `ResultSetOutParameter`, `ExpandedVariable` |
| `NamedParams` | named_params.dfy | the pattern, coded by hand; the reference rewrite `Adapt` and reference scan `ScanSql`; the two Java loops, proved equal to them |
| `NamedQueryCache` | named_cache.dfy | the two caches keyed by the original SQL; `invoke` and the pre-check |
| `Binder` | binder.dfy | `getUpdatedParams`, `checkForNamedParams` |
| `Paging` | paging.dfy | a result set as rows plus a JDBC cursor; `moveCursor`, `asList`, `eachRow` |
| `Lifecycle` | lifecycle.dfy | the facade's state and an event log of the JDBC calls that matter for resource release |
| `Scopes` | scopes.dfy | the scoped modes; the caller's closure is an arbitrary function that may throw |
| `WhereKeyword` | where_keyword.dfy | `findWhereKeyword` |
| `GStringSql` | gstring_sql.dfy | `asSql` |
| `Parameters` | parameters.dfy | `setObject`, `setParameters`, the out-parameter loop of `call` |
| `NewInstance` | new_instance.dfy | the argument checks of `newInstance(Map)` |

JDBC objects are opaque handles. Whatever the model says about connections
and statements being opened, closed, committed or rolled back, it says
through the event log kept in `Lifecycle.Sql`. A close is logged as
attempted: the source swallows every close failure.

Three properties of the code that a reader might not expect:

- Rewriting SQL whose named placeholders were already replaced is not
  always a no-op: `:a.b` becomes `?.b`, and a second rewrite turns that
  into `?` (`NamedParams.RescanNotIdempotent`).
- The javadoc of `setCacheNamedQueries` (Sql.java:3409-3413) says that with
  caching off nothing is cached. The code still stores every successful
  scan whatever the flag; only the lookup depends on it
  (`NamedQueryCache.StoreIgnoresFlag`). The answers are unaffected
  (`NamedQueryCache.InvokeTransparent`), only the memory the javadoc
  promises to save; see "## Findings".
- A digit after `?` is one character: `?12.x` is the match `?12`, which
  binds argument 0 and property `2`, and `.x` stays as text
  (`NamedParams.QuirkTwoDigits`).

## Model

| member | source | states |
|---|---|---|
| NamedParams.WordRun | subprojects/groovy-sql/src/main/java/groovy/sql/Sql.java:193 | The `(\w*)` group takes the longest run of word characters: all of it is word characters and the next character is not one |
| NamedParams.ParseToken | subprojects/groovy-sql/src/main/java/groovy/sql/Sql.java:193 | The match at a `:` or `?` is a well-formed placeholder, is a prefix of the text, and is not followed by a word character |
| NamedParams.ParseTokenLongest | subprojects/groovy-sql/src/main/java/groovy/sql/Sql.java:193 | The match is at least as long as every well-formed placeholder that starts the text (greedy matching) |
| NamedParams.BindingOf | subprojects/groovy-sql/src/main/java/groovy/sql/Sql.java:3677-3681 | The tuple's index is 0 without a digit and d-1 for digit d, so it is -1 exactly for `?0`; the property is `<this>` exactly when the name is empty, otherwise the name |
| NamedParams.AdaptForNamedParams | subprojects/groovy-sql/src/main/java/groovy/sql/Sql.java:3671-3686 | The `matcher.find()` loop computes the reference rewrite: text between matches copied, each match replaced by one `?` and recorded in order |
| NamedParams.AdaptRestores | subprojects/groovy-sql/src/main/java/groovy/sql/Sql.java:3671-3686 | Round trip: putting each recorded match back in place of its `?` gives back the chunk |
| NamedParams.AdaptShape | subprojects/groovy-sql/src/main/java/groovy/sql/Sql.java:3671-3686 | A rewritten chunk has no `:`, one `?` per recorded match, one match per `:` or `?` of the input, the same quotes, and is never longer |
| NamedParams.AdaptIdentity | subprojects/groovy-sql/src/main/java/groovy/sql/Sql.java:3671-3686 | A chunk is left unchanged exactly when every match is a plain `?` |
| NamedParams.ScanSql | subprojects/groovy-sql/src/main/java/groovy/sql/Sql.java:3635-3664 | The reference scan records only well-formed placeholders and fails only with the unterminated-literal error |
| NamedParams.ExtractIndexAndSql | subprojects/groovy-sql/src/main/java/groovy/sql/Sql.java:3635-3664 | The character loop of `invoke` agrees with the reference scan on every SQL text: chunks outside literals rewritten, literals copied, an open literal at the end rejected |
| NamedParams.ScanFailsIffOddQuotes | subprojects/groovy-sql/src/main/java/groovy/sql/Sql.java:3642-3662 | The scan throws exactly when the SQL has an odd number of single quotes |
| NamedParams.ScanFailsIffOddCount | subprojects/groovy-sql/src/main/java/groovy/sql/Sql.java:3642-3662 | The same, stated as the count of quotes being odd |
| NamedParams.ScanRestores | subprojects/groovy-sql/src/main/java/groovy/sql/Sql.java:3635-3664 | Round trip: putting every recorded placeholder back in place of its `?` outside literals gives back the original SQL |
| NamedParams.ScanKeepsLiterals | subprojects/groovy-sql/src/main/java/groovy/sql/Sql.java:3645-3654 | The literals of the rewritten SQL are those of the input, in order and verbatim |
| NamedParams.ScanShape | subprojects/groovy-sql/src/main/java/groovy/sql/Sql.java:3635-3664 | Outside literals the rewrite has no `:` and one `?` per binding, and there is one binding per `:` or `?` outside the input's literals |
| NamedParams.ScanLength | subprojects/groovy-sql/src/main/java/groovy/sql/Sql.java:3635-3664 | The rewritten SQL is never longer than the input |
| NamedParams.ScanIdentity | subprojects/groovy-sql/src/main/java/groovy/sql/Sql.java:3635-3664 | The scan leaves the SQL unchanged exactly when every placeholder found is a plain `?` |
| NamedParams.QuirkZeroDigit | subprojects/groovy-sql/src/main/java/groovy/sql/Sql.java:3679 | `?0.x` is one placeholder binding index -1 and property `x` |
| NamedParams.QuirkTwoDigits | subprojects/groovy-sql/src/main/java/groovy/sql/Sql.java:193 | `?12.x` rewrites to `?.x` with the single binding (0, `2`) |
| NamedParams.QuirkBare | subprojects/groovy-sql/src/main/java/groovy/sql/Sql.java:3679-3681 | A plain `?` binds the whole first argument |
| NamedParams.RescanNotIdempotent | subprojects/groovy-sql/src/main/java/groovy/sql/Sql.java:3671-3686 | Rewriting `:a.b` gives `?.b`, and rewriting that again gives `?` |
| NamedQueryCache.Invoke | subprojects/groovy-sql/src/main/java/groovy/sql/Sql.java:3631-3669 | The cache is read exactly when `cacheNamedQueries` is on and the SQL is a key; a hit returns the stored pair and changes nothing; a miss returns a fresh scan and, if it succeeds, stores it in both maps; a failed scan stores nothing |
| NamedQueryCache.InvokeTransparent | subprojects/groovy-sql/src/main/java/groovy/sql/Sql.java:3631-3669 | From a cache whose entries agree with fresh scans, `invoke` answers what a fresh scan answers and keeps that agreement |
| NamedQueryCache.SecondInvokeHits | subprojects/groovy-sql/src/main/java/groovy/sql/Sql.java:3632-3634 | With caching on, a second `invoke` of the same SQL is a hit that returns the first answer and changes nothing |
| NamedQueryCache.StoreIgnoresFlag | subprojects/groovy-sql/src/main/java/groovy/sql/Sql.java:3665-3666 | With caching off the cache is not read, yet a successful scan is still stored |
| NamedQueryCache.InvokeFixed | subprojects/groovy-sql/src/main/java/groovy/sql/Sql.java:3409-3413 | Corrected `invoke`: with caching off the cache is neither read nor written and the answer is a fresh scan; with caching on it is the original |
| NamedQueryCache.InvokeFixedHonoursFlag | subprojects/groovy-sql/src/main/java/groovy/sql/Sql.java:3409-3413 | The corrected `invoke` leaves the cache alone while caching is off, answers exactly what the original answers, and keeps a coherent cache coherent |
| NamedQueryCache.StoreWhenOffExample | subprojects/groovy-sql/src/main/java/groovy/sql/Sql.java:3665-3666 | With caching off, `:a` is stored by the original `invoke` and not by the corrected one |
| NamedQueryCache.PatternFound | subprojects/groovy-sql/src/main/java/groovy/sql/Sql.java:3372 | The pattern is found in the SQL exactly when it holds a `:` or `?` anywhere, literals included |
| NamedQueryCache.PreCheck | subprojects/groovy-sql/src/main/java/groovy/sql/Sql.java:3370-3384 | The answer is null and the caches untouched when named queries are off or no marker occurs; a non-null answer always differs from the input SQL |
| NamedQueryCache.PreCheckCases | subprojects/groovy-sql/src/main/java/groovy/sql/Sql.java:3370-3384 | The answer is null exactly when named queries are off, no marker occurs, or every placeholder is a plain `?`; it throws exactly when a marker occurs and the quotes are unbalanced; a non-null answer is the fresh scan; the caches stay coherent |
| NamedQueryCache.QuickExitQuirk | subprojects/groovy-sql/src/main/java/groovy/sql/Sql.java:3372 | `it's` passes the pre-check as null, while `it's ?` throws for its unterminated literal |
| Binder.Resolve | subprojects/groovy-sql/src/main/java/groovy/sql/Sql.java:3389-3393 | An index outside the argument list is rejected with that index and the list size; `<this>` yields the argument itself, any other property its lookup, failing when the lookup fails |
| Binder.GetUpdatedParams | subprojects/groovy-sql/src/main/java/groovy/sql/Sql.java:3386-3397 | Succeeds exactly when every tuple resolves, with one value per tuple in plan order; otherwise fails with the error of the first tuple that does not resolve |
| Binder.CheckForNamedParams | subprojects/groovy-sql/src/main/java/groovy/sql/Sql.java:3357-3368 | Without named placeholders the SQL and arguments pass through unchanged; a pre-check failure is passed on; with named placeholders the call succeeds iff every tuple of the plan resolves, the SQL is then the rewritten text and value k is tuple k's resolution, one per `?` outside its literals, and otherwise the error is that of the first tuple that fails |
| Binder.BindExample | subprojects/groovy-sql/src/main/java/groovy/sql/Sql.java:3386-3397 | `:name` and `?2` bind a property of the first argument and the whole second one; index 1 of a one-argument list and index -1 are rejected |
| Paging.AdvanceClosedForm | subprojects/groovy-sql/src/main/java/groovy/sql/Sql.java:970-974 | n calls of `next()` from position p end on row p+n when it exists, answering true, and after the last row otherwise |
| Paging.StrategiesAgree | subprojects/groovy-sql/src/main/java/groovy/sql/Sql.java:968-979 | On a fresh result set, forward stepping and `absolute(offset - 1)` land on the same position and agree on whether it is a row, which happens exactly when `offset - 1` rows exist |
| Paging.MoveCursor | subprojects/groovy-sql/src/main/java/groovy/sql/Sql.java:968-979 | The Java loop performs the forward-only positioning, the scrollable branch the `absolute` positioning, and an offset of 1 or less moves nothing |
| Paging.Window | subprojects/groovy-sql/src/main/java/groovy/sql/Sql.java:2920-2927 | No rows (null) exactly when the offset lies beyond the row after the last; otherwise the consecutive rows from `offset`, `maxRows` of them or up to the end when `maxRows` is positive, all of them otherwise |
| Paging.RowLoop | subprojects/groovy-sql/src/main/java/groovy/sql/Sql.java:2920-2927 | `moveCursor` followed by the `next()` loop reads exactly the window of rows |
| Paging.AsList | subprojects/groovy-sql/src/main/java/groovy/sql/Sql.java:2912-2935 | `asList` answers null exactly when `offset - 1` exceeds the row count; otherwise the rows from `offset` on, in order, bounded by `maxRows` when positive |
| Paging.EachRow | subprojects/groovy-sql/src/main/java/groovy/sql/Sql.java:1008-1035 | The row closure sees the window of rows in order, and no row when the cursor cannot be placed |
| Paging.WindowExample | subprojects/groovy-sql/src/main/java/groovy/sql/Sql.java:2920-2927 | Offset 3 with at most 2 of five rows reads rows 3 and 4; offset 6 reads nothing; offset 7 answers null; offset 0 reads all |
| Lifecycle.OfDataSource | subprojects/groovy-sql/src/main/java/groovy/sql/Sql.java:677-679 | A data-source facade starts holding nothing, caching no statement, with named queries enabled and cached |
| Lifecycle.OfConnection | subprojects/groovy-sql/src/main/java/groovy/sql/Sql.java:691-696 | A null connection is rejected; otherwise the facade holds the caller's connection and has no data source |
| Lifecycle.CreateConnection | subprojects/groovy-sql/src/main/java/groovy/sql/Sql.java:3143-3172 | While caching, the held connection is handed out again; a data-source facade otherwise opens a new one, held from then on when caching; without a data source the caller's connection is returned |
| Lifecycle.HeldConnectionReused | subprojects/groovy-sql/src/main/java/groovy/sql/Sql.java:3143-3172 | While caching, a data-source facade opens one connection and every later call gets the same one, with nothing opened |
| Lifecycle.FreshConnectionEachCall | subprojects/groovy-sql/src/main/java/groovy/sql/Sql.java:3147-3171 | With caching off, two calls on a data-source facade get two different connections, neither of them the one held before |
| Lifecycle.GetAbstractStatement | subprojects/groovy-sql/src/main/java/groovy/sql/Sql.java:3325-3339 | With `cacheStatements` a cached statement for the SQL is returned without creating one; otherwise a new statement is created on the connection and cached only when caching is on |
| Lifecycle.StatementCreatedOnce | subprojects/groovy-sql/src/main/java/groovy/sql/Sql.java:3327-3333 | With `cacheStatements` on, a second request for the same SQL returns the same statement and changes nothing |
| Lifecycle.StatementCreatedEachTime | subprojects/groovy-sql/src/main/java/groovy/sql/Sql.java:3334-3336 | With `cacheStatements` off, each request creates a statement different from the previous one and from every cached one |
| Lifecycle.CloseConnection | subprojects/groovy-sql/src/main/java/groovy/sql/Sql.java:3232-3242 | The connection is closed exactly when `cacheConnection` is off, it is not null, and the facade has a data source; nothing else happens |
| Lifecycle.CloseStatement | subprojects/groovy-sql/src/main/java/groovy/sql/Sql.java:3201-3212 | While `cacheStatements` is on nothing is closed; otherwise the statement first, then the connection under the rule of `CloseConnection` |
| Lifecycle.CloseAll | subprojects/groovy-sql/src/main/java/groovy/sql/Sql.java:3182-3192 | The result set is always closed; statement and connection under the rule of `CloseStatement` |
| Lifecycle.CloseBatchStatement | subprojects/groovy-sql/src/main/java/groovy/sql/Sql.java:3214-3224 | The batch statement is closed exactly when `cacheStatements` is off; the connection is never touched |
| Lifecycle.CallerConnectionNeverClosed | subprojects/groovy-sql/src/main/java/groovy/sql/Sql.java:3234 | A facade without a data source never closes a connection in the per-call release |
| Lifecycle.HeldConnectionKept | subprojects/groovy-sql/src/main/java/groovy/sql/Sql.java:3182-3242 | While caching, the per-call release leaves the held connection open |
| Lifecycle.ClearStatementCache | subprojects/groovy-sql/src/main/java/groovy/sql/Sql.java:3302-3323 | The statement cache ends empty, every statement it held is closed, only those are closed, and nothing else changes |
| Lifecycle.Close | subprojects/groovy-sql/src/main/java/groovy/sql/Sql.java:2358-2370 | Both named-query caches and the statement cache end empty; every cached statement is closed and only those statements are closed; the held connection, if any, is closed last and is the only connection closed |
| Lifecycle.SetCacheStatements | subprojects/groovy-sql/src/main/java/groovy/sql/Sql.java:2466-2471 | The flag takes the new value; switching it off also closes and forgets every cached statement and closes nothing else, switching it on changes nothing else |
| Scopes.HoldConnection | subprojects/groovy-sql/src/main/java/groovy/sql/Sql.java:2489-2493 | Entering the scope sets `cacheConnection` and yields the held connection if there is one; a data-source facade then holds the connection it yields |
| Scopes.ReleaseHeld | subprojects/groovy-sql/src/main/java/groovy/sql/Sql.java:2496-2503 | The scope's `finally`: the saved flag is restored, the connection is closed exactly when statements are not cached and there is a data source, and a data-source facade drops the held connection unless the caller was caching |
| Scopes.CacheConnectionScope | subprojects/groovy-sql/src/main/java/groovy/sql/Sql.java:2488-2504 | Whether the closure returns or throws, the flag is restored; only the connection obtained is closed, and only when statements are not cached and there is a data source; a data-source facade whose caller was not caching drops the held connection; nothing else changes |
| Scopes.NestedScopeClosesHeld | subprojects/groovy-sql/src/main/java/groovy/sql/Sql.java:2496-2503 | A scope nested in another closes the connection the outer scope still holds |
| Scopes.CacheConnectionScopeFixed | subprojects/groovy-sql/src/main/java/groovy/sql/Sql.java:2488-2504 | A scope entered while already caching leaves connection and log as the closure left them; otherwise it is the original scope |
| Scopes.NestedScopeKeepsHeld | subprojects/groovy-sql/src/main/java/groovy/sql/Sql.java:2488-2504 | In the corrected scope a nested scope neither closes nor drops the outer scope's connection |
| Scopes.WithTransaction | subprojects/groovy-sql/src/main/java/groovy/sql/Sql.java:2514-2543 | Auto-commit is switched off before the closure; afterwards comes a commit if it returned or a rollback if it threw, then the saved auto-commit setting, then a close of the transaction's connection exactly when statements are not cached and there is a data source, and nothing else; the flag is restored, a data-source facade whose caller was not caching drops the held connection, and nothing else changes; without a connection the call throws and changes nothing |
| Scopes.EndTransaction | subprojects/groovy-sql/src/main/java/groovy/sql/Sql.java:2522-2541 | After the closure: commit or rollback, then the auto-commit restore, then a close of the connection exactly when statements are not cached and there is a data source; the saved flag is restored, the held connection dropped for a non-caching data-source caller, and nothing else changes |
| Scopes.TransactionCommitsOrRollsBack | subprojects/groovy-sql/src/main/java/groovy/sql/Sql.java:2514-2543 | A transaction commits exactly when the closure returns and rolls back exactly when it throws |
| Scopes.WithBatch | subprojects/groovy-sql/src/main/java/groovy/sql/Sql.java:2644-2663 | A new plain statement wraps the batch; afterwards only the statement (exactly when statements are not cached) and the connection (under the rule of `CloseConnection`) are closed, `withinBatch` is restored, and nothing else changes |
| Scopes.BatchStatementNeverClosed | subprojects/groovy-sql/src/main/java/groovy/sql/Sql.java:2644-2663 | With `cacheStatements` on, the batch's plain statement is never put in the statement cache and is never closed, while the connection is |
| Scopes.EndBatch | subprojects/groovy-sql/src/main/java/groovy/sql/Sql.java:2658-2662 | The batch's `finally` closes only the statement and the connection under their rules, restores `withinBatch`, and changes nothing else |
| Scopes.RunPreparedBatch | subprojects/groovy-sql/src/main/java/groovy/sql/Sql.java:2798-2815 | The batch statement comes from the statement cache; afterwards only closes are logged: the statement exactly when statements are not cached, the connection under the rule of `CloseConnection`; `withinBatch` is restored and nothing else changes |
| Scopes.WithBatchPrepared | subprojects/groovy-sql/src/main/java/groovy/sql/Sql.java:2784-2815 | A failing pre-check throws with only the connection's opening logged and no close, and only the named-query caches changed; otherwise the statement is prepared for the rewritten SQL (the caller's when nothing was rewritten), only closes follow the closure, the statement is closed exactly when statements are not cached, the connection under the rule of `CloseConnection`, `withinBatch` is restored, and nothing else changes |
| Scopes.AfterPreCheck | subprojects/groovy-sql/src/main/java/groovy/sql/Sql.java:2786-2815 | Once the pre-check has answered, a failure throws with only the named-query caches changed; otherwise the statement is prepared for the rewritten SQL, only closes follow the closure (the statement exactly when statements are not cached, the connection under the rule of `CloseConnection`), `withinBatch` is restored, and nothing else changes |
| Scopes.PreparedBatchLeaks | subprojects/groovy-sql/src/main/java/groovy/sql/Sql.java:2785-2787 | On a data-source facade that caches nothing, SQL with a marker and an unbalanced quote opens a connection, throws, and never closes it |
| Scopes.PreparedBatchLeaksExample | subprojects/groovy-sql/src/main/java/groovy/sql/Sql.java:2785-2787 | A fresh data-source facade running `it's ?` is left with exactly one opened, unclosed connection |
| Scopes.WithBatchPreparedFixed | subprojects/groovy-sql/src/main/java/groovy/sql/Sql.java:2784-2815 | With the pre-check first, a rejected SQL throws after only the named-query caches changed |
| Scopes.PreparedBatchFixedAgrees | subprojects/groovy-sql/src/main/java/groovy/sql/Sql.java:2784-2815 | The corrected order behaves as the original whenever the pre-check passes, and opens nothing when it fails |
| Scopes.HoldForStatements | subprojects/groovy-sql/src/main/java/groovy/sql/Sql.java:2828-2833 | Entering `cacheStatements` sets the flag, and a data-source facade then holds the connection it obtained |
| Scopes.CacheStatementsScope | subprojects/groovy-sql/src/main/java/groovy/sql/Sql.java:2827-2840 | As written: the flag is restored and the connection released under the rule of `CloseConnection`; no statement is closed, and the statement cache and the held connection stay as the closure left them |
| Scopes.CacheStatementsLeavesStale | subprojects/groovy-sql/src/main/java/groovy/sql/Sql.java:2834-2838 | After one scope on a fresh data-source facade, the closed connection is still held, the cached statement is still open, and the next scope gets the closed connection |
| Scopes.CacheStatementsScopeFixed | subprojects/groovy-sql/src/main/java/groovy/sql/Sql.java:2817-2840 | As documented: when the caller was not caching statements, every statement cached in the scope is closed and forgotten, and a data-source facade not caching connections drops the one it held; otherwise as written |
| Scopes.CacheStatementsFixedExample | subprojects/groovy-sql/src/main/java/groovy/sql/Sql.java:2817-2840 | After the corrected scope the statement and connection are closed, nothing is held or cached, and the next scope opens a new connection |
| WhereKeyword.MatchedIffSubseq | subprojects/groovy-sql/src/main/java/groovy/sql/Sql.java:3044-3058 | The never-restarting letter matcher has matched k letters exactly when the first k letters of `where` occur in order in the text |
| WhereKeyword.FindWhereKeyword | subprojects/groovy-sql/src/main/java/groovy/sql/Sql.java:3038-3060 | -1 exactly when `where` does not occur as a subsequence of the lower-cased text outside literals; otherwise the first index at which it does, which holds an `e` |
| WhereKeyword.QuotedWhereIgnored | subprojects/groovy-sql/src/main/java/groovy/sql/Sql.java:3046-3048 | `where` inside a literal is not found |
| WhereKeyword.ScatteredWhereFound | subprojects/groovy-sql/src/main/java/groovy/sql/Sql.java:3049-3053 | The letters need not be adjacent: `w-here` completes `where` |
| GStringSql.AppendSlot | subprojects/groovy-sql/src/main/java/groovy/sql/Sql.java:2954-2988 | One iteration appends the string and its value's text, keeps the value exactly when it binds, and records a null |
| GStringSql.AsSql | subprojects/groovy-sql/src/main/java/groovy/sql/Sql.java:2944-2990 | No strings is an error; otherwise the SQL is the strings each followed by its value's text, the kept values are those that bind followed by the values left over, and a null is reported exactly when one was met |
| GStringSql.PlainGString | subprojects/groovy-sql/src/main/java/groovy/sql/Sql.java:2953-2988 | With only binding values, the SQL is the strings joined by `?` and every value is kept in order |
| GStringSql.KeptAreBinding | subprojects/groovy-sql/src/main/java/groovy/sql/Sql.java:2953-2988 | The values left to bind are exactly those at the positions whose value is not null, not an `ExpandedVariable` and not between quotes, in their original order |
| GStringSql.BoundPositionsExact | subprojects/groovy-sql/src/main/java/groovy/sql/Sql.java:2958-2988 | The positions of kept values are increasing and are exactly the positions whose value is not null, not an `ExpandedVariable` and not between quotes |
| GStringSql.QuotedExample | subprojects/groovy-sql/src/main/java/groovy/sql/Sql.java:2966-2976 | A value between quotes is inlined into the SQL and leaves the value list |
| Parameters.SetObject | subprojects/groovy-sql/src/main/java/groovy/sql/Sql.java:3099-3133 | An in part is set with its type, null by `setNull`; an out part is registered on a callable statement and fails on any other; a plain value is set as is; every call is at the given position |
| Parameters.SetParameters | subprojects/groovy-sql/src/main/java/groovy/sql/Sql.java:3083-3088 | Binds positions 1, 2, ... in order; fails exactly when the statement is not callable and an out parameter occurs, at the first one, after binding everything before it |
| Parameters.OutPositions | subprojects/groovy-sql/src/main/java/groovy/sql/Sql.java:2282-2300 | The indices of the out parameters, increasing, and all of them |
| Parameters.Cursors | subprojects/groovy-sql/src/main/java/groovy/sql/Sql.java:2284-2293 | The results kept for closing are exactly the result sets among the results |
| Parameters.OutResultsPositions | subprojects/groovy-sql/src/main/java/groovy/sql/Sql.java:2282-2300 | The j-th result is that of the j-th out parameter |
| Parameters.CollectOutResults | subprojects/groovy-sql/src/main/java/groovy/sql/Sql.java:2279-2301 | One result per out parameter, in parameter order: a call result set for a result-set out parameter, otherwise the fetched value, wrapped when a result set; the result sets are kept for closing |
| Parameters.SetObjectRegisters | subprojects/groovy-sql/src/main/java/groovy/sql/Sql.java:3110-3117 | On a callable statement a value is registered once if it is an out parameter and not at all otherwise |
| Parameters.OneResultPerRegistration | subprojects/groovy-sql/src/main/java/groovy/sql/Sql.java:3083-3088 | On a callable statement the registrations number the out parameters, so the closure gets one result per registration |
| NewInstance.CheckArgs | subprojects/groovy-sql/src/main/java/groovy/sql/Sql.java:364-403 | The exact error for a missing or null url; success exactly when both driver keys are not given, properties are a `Properties` and exclude user and password, and user and password come together; the connection mode follows properties, then user, then url alone; the consumed keys are removed and the rest passed on unchanged |
| NewInstance.UrlOnlyExample | subprojects/groovy-sql/src/main/java/groovy/sql/Sql.java:399-405 | A url alone connects by url, and an unknown key is passed on to the constructor |
| NewInstance.RejectedExamples | subprojects/groovy-sql/src/main/java/groovy/sql/Sql.java:380-387 | A user without a password, and a password next to properties, are rejected |
| NewInstance.NullPropertiesExample | subprojects/groovy-sql/src/main/java/groovy/sql/Sql.java:380-398 | A null `properties` counts as absent, and a null password is passed on as null |

## Left out

- The database itself: `DriverManager`, `DataSource.getConnection`, statement execution, update counts and generated keys. Connections, statements and result sets are opaque handles, and failures of the driver are not modelled.
- `AccessController.doPrivileged` in `createConnection`: a wrapper around the driver call, with no effect on the model.
- `loadDriver` and the reflective constructor call of `newInstance(Map)`: both reach into code that is not part of this model; the model stops at the arguments handed to them.
- `InvokerHelper.getProperty` is an uninterpreted lookup parameter; a missing property is its `None`.
- Closures are arbitrary functions of the facade that may throw; `callClosurePossiblyWithConnection` and the statement-configuring closure are left out.
- `nullify` and its regular-expression replacements: only `findWhereKeyword`, which it uses, is modelled.
- `GroovyResultSet`, `toRowResult`, the meta closure, logging, `synchronized` and the lock on the statement cache: they do not change which resources are used or released.
- The internals of the batching wrappers (batch partitioning, `executeBatch`) and the per-row binding of a prepared batch; the scopes model only which statement and connection are used and released.
- The JDBC constant tables of `InParameter`/`OutParameter` types: a type is an integer.
- Failures of `close`, `commit`, `rollback` and `setAutoCommit`: closes are logged as attempted; the others are taken to succeed.
- Scopes.WithTransaction: any throw of the closure rolls back; the source only catches `SQLException`, `RuntimeException` and `Error`, so a checked exception thrown by a closure skips both commit and rollback.
- Lifecycle.OfConnection: the `NullPointerException` for a null connection is the `NoConnection` failure.
- GStringSql.AsSql: the strings are taken to be non-null; a null string is skipped by the source, and its quote check would then throw.
- Parameters.SetObject: the driver's failure of `setObject(i, null)` and its rewrapping are left out, as all driver failures are.
- Paging.AsList: the `finally` of `asList` closes the result set; result-set closes are not logged here, and the callers close it again through `closeResources`.
- WhereKeyword.FindWhereKeyword: lower-casing is ASCII only, while `toLowerCase` also maps non-ASCII upper-case letters; and the index counts characters, while `toCharArray` counts UTF-16 code units, so each character outside the Basic Multilingual Plane before `where` makes the source's index one larger.

## Findings

| source | as written | input that shows it | evidently intended | confidence | as-written member | corrected member |
|---|---|---|---|---|---|---|
| subprojects/groovy-sql/src/main/java/groovy/sql/Sql.java:2784-2798 | `withBatch(batchSize, sql, closure)` obtains the connection and runs the named-parameter pre-check before the `try` whose `finally` releases the connection | a fresh data-source facade and the SQL `it's ?`: the pre-check throws for the unterminated literal and the opened connection is never closed | run the pre-check before obtaining the connection, or inside the `try` | high (not executed) | Scopes.WithBatchPrepared, with Scopes.PreparedBatchLeaks and Scopes.PreparedBatchLeaksExample | Scopes.WithBatchPreparedFixed, with Scopes.PreparedBatchFixedAgrees |
| subprojects/groovy-sql/src/main/java/groovy/sql/Sql.java:2817-2840 | the javadoc says every cached statement is closed after the closure; the `finally` only closes the connection, leaves the statements open in the cache, and keeps holding the closed connection | two `cacheStatements { execute('select 1') }` scopes in a row on a data-source facade: the statement is never closed and the second scope is handed the closed connection | close and forget the cached statements and drop the held connection, as `cacheConnection` does | medium (not executed) | Scopes.CacheStatementsScope, with Scopes.CacheStatementsLeavesStale | Scopes.CacheStatementsScopeFixed, with Scopes.CacheStatementsFixedExample |
| subprojects/groovy-sql/src/main/java/groovy/sql/Sql.java:2496-2503 | the `finally` of `cacheConnection` clears the flag and calls `closeResources(connection, null)` even when the scope is nested in another | `cacheConnection { cacheConnection { } }` on a data-source facade not caching statements: the inner scope closes the connection the outer scope still holds and uses | a nested scope leaves the outer scope's connection open | medium (not executed) | Scopes.CacheConnectionScope, with Scopes.NestedScopeClosesHeld | Scopes.CacheConnectionScopeFixed, with Scopes.NestedScopeKeepsHeld |
| subprojects/groovy-sql/src/main/java/groovy/sql/Sql.java:3665-3666 | `invoke` stores every successful scan in both named-query caches, whatever `cacheNamedQueries` says, while the javadoc of `setCacheNamedQueries` (Sql.java:3409-3413) says nothing is cached when it is false | caching off and the SQL `:a`: afterwards `:a` is a key of the cache | with caching off, store nothing and save the memory | medium (not executed) | NamedQueryCache.Invoke, with NamedQueryCache.StoreIgnoresFlag and NamedQueryCache.StoreWhenOffExample | NamedQueryCache.InvokeFixed, with NamedQueryCache.InvokeFixedHonoursFlag |

=== FILE: binder.dfy ===
/** The binder of `groovy.sql.Sql`: `getUpdatedParams` turns a plan of
    `(index, property)` tuples and the caller's arguments into a positional
    parameter list, and `checkForNamedParams` applies it when the pre-check
    found named placeholders. */
module Binder {
  import opened Wrappers
  import opened Text
  import opened Values
  import opened NamedParams
  import opened NamedQueryCache

  /** `InvokerHelper.getProperty`, left uninterpreted: `None` when the object
      has no such property (Groovy throws). */
  type PropertyLookup = (Value, string) -> Option<Value>

  /** The value one tuple of the plan stands for. */
  function Resolve(params: seq<Value>, b: Binding, getProperty: PropertyLookup): (r: Result<Value, Failure>)
    ensures r.Err? && r.error.InvalidIndex? <==> !(0 <= b.index < |params|)
    ensures r.Err? && r.error.InvalidIndex? ==> r.error == InvalidIndex(b.index, |params|)
    ensures r.Ok? && b.prop == ThisProp ==> r.value == params[b.index]
    ensures r.Ok? && b.prop != ThisProp ==> getProperty(params[b.index], b.prop) == Some(r.value)
    ensures r.Err? && !r.error.InvalidIndex? ==> r.error == MissingProperty(b.prop)
  {
    if b.index < 0 || b.index >= |params| then Err(InvalidIndex(b.index, |params|))
    else if b.prop == ThisProp then Ok(params[b.index])
    else match getProperty(params[b.index], b.prop)
      case None => Err(MissingProperty(b.prop))
      case Some(v) => Ok(v)
  }

  /** `getUpdatedParams`: one value per tuple, in plan order; the first tuple
      that fails decides the exception. */
  method GetUpdatedParams(params: seq<Value>, plan: seq<Binding>, getProperty: PropertyLookup)
    returns (r: Result<seq<Value>, Failure>)
    ensures r.Ok? <==> forall k :: 0 <= k < |plan| ==> Resolve(params, plan[k], getProperty).Ok?
    ensures r.Ok? ==> |r.value| == |plan|
    ensures r.Ok? ==> forall k :: 0 <= k < |plan| ==> Resolve(params, plan[k], getProperty) == Ok(r.value[k])
    ensures r.Ok? ==> forall k :: 0 <= k < |plan| && plan[k].prop == ThisProp ==> r.value[k] == params[plan[k].index]
    ensures r.Err? ==> exists k :: && 0 <= k < |plan|
                                    && Resolve(params, plan[k], getProperty) == Err(r.error)
                                    && forall j :: 0 <= j < k ==> Resolve(params, plan[j], getProperty).Ok?
  {
    var updated: seq<Value> := [];
    var k := 0;
    while k < |plan|
      invariant 0 <= k <= |plan| && |updated| == k
      invariant forall j :: 0 <= j < k ==> Resolve(params, plan[j], getProperty) == Ok(updated[j])
    {
      var b := plan[k];
      if b.index < 0 || b.index >= |params| {
        return Err(InvalidIndex(b.index, |params|));
      }
      var v: Value;
      if b.prop == ThisProp {
        v := params[b.index];
      } else {
        var p := getProperty(params[b.index], b.prop);
        if p.None? {
          return Err(MissingProperty(b.prop));
        }
        v := p.value;
      }
      updated := updated + [v];
      k := k + 1;
    }
    return Ok(updated);
  }

  /** `SqlWithParams`: the SQL sent to the driver and its positional values. */
  datatype SqlWithParams = SqlWithParams(sql: string, params: seq<Value>)

  /** `checkForNamedParams`: without named placeholders the SQL and the
      arguments pass through unchanged; otherwise the rewritten SQL is paired
      with the bound values. The caches are updated by the pre-check. */
  method CheckForNamedParams(enableNamedQueries: bool, cacheNamedQueries: bool, c: Caches,
                             sql: string, params: seq<Value>, getProperty: PropertyLookup)
    returns (c': Caches, r: Result<SqlWithParams, Failure>)
    ensures c' == PreCheck(enableNamedQueries, cacheNamedQueries, c, sql).cache
    ensures PreCheck(enableNamedQueries, cacheNamedQueries, c, sql).result == Ok(None)
            ==> r == Ok(SqlWithParams(sql, params))
    ensures !enableNamedQueries ==> r == Ok(SqlWithParams(sql, params))
    ensures PreCheck(enableNamedQueries, cacheNamedQueries, c, sql).result.Err?
            ==> r == Err(PreCheck(enableNamedQueries, cacheNamedQueries, c, sql).result.error)
    ensures r.Ok? && r.value.sql != sql ==>
              && PreCheck(enableNamedQueries, cacheNamedQueries, c, sql).result.Ok?
              && PreCheck(enableNamedQueries, cacheNamedQueries, c, sql).result.value.Some?
              && |r.value.params| == |PreCheck(enableNamedQueries, cacheNamedQueries, c, sql).result.value.value.plan|
    ensures Coherent(c) && r.Ok? && r.value.sql != sql ==> |r.value.params| == Count(Unquoted(r.value.sql, false), '?')
    ensures var pc := PreCheck(enableNamedQueries, cacheNamedQueries, c, sql);
            pc.result.Ok? && pc.result.value.Some? ==>
              var plan := pc.result.value.value.plan;
              && (r.Ok? <==> forall k :: 0 <= k < |plan| ==> Resolve(params, plan[k], getProperty).Ok?)
              && (r.Ok? ==> && r.value.sql == pc.result.value.value.newSql
                            && |r.value.params| == |plan|
                            && forall k :: 0 <= k < |plan| ==> Resolve(params, plan[k], getProperty) == Ok(r.value.params[k]))
              && (r.Err? ==> exists k :: && 0 <= k < |plan|
                                         && Resolve(params, plan[k], getProperty) == Err(r.error)
                                         && forall j :: 0 <= j < k ==> Resolve(params, plan[j], getProperty).Ok?)
  {
    var pc := PreCheck(enableNamedQueries, cacheNamedQueries, c, sql);
    c' := pc.cache;
    match pc.result {
      case Err(e) =>
        r := Err(e);
      case Ok(None) =>
        r := Ok(SqlWithParams(sql, params));
      case Ok(Some(x)) =>
        var u := GetUpdatedParams(params, x.plan, getProperty);
        if u.Err? {
          r := Err(u.error);
        } else {
          r := Ok(SqlWithParams(x.newSql, u.value));
          if Coherent(c) {
            PreCheckCases(enableNamedQueries, cacheNamedQueries, c, sql);
            ScanShape(sql);
          }
        }
    }
  }

  /** A worked example: `:name` binds a property of the first argument and
      `?2` the whole second argument. */
  lemma BindExample(getProperty: PropertyLookup)
    requires getProperty(Obj(1), "name") == Some(Obj(7))
    ensures Resolve([Obj(1), Obj(2)], Binding(0, "name"), getProperty) == Ok(Obj(7))
    ensures Resolve([Obj(1), Obj(2)], Binding(1, ThisProp), getProperty) == Ok(Obj(2))
    ensures Resolve([Obj(1)], Binding(1, ThisProp), getProperty) == Err(InvalidIndex(1, 1))
    ensures Resolve([Obj(1)], Binding(-1, "x"), getProperty) == Err(InvalidIndex(-1, 1))
  {
    assert "name" != ThisProp by { assert "name"[0] != ThisProp[0]; }
  }
}

=== FILE: gstring_sql.dfy ===
/** `asSql`: turning a GString (its literal `strings` and embedded `values`)
    into SQL text and the list of values still to be bound. */
module GStringSql {
  import opened Wrappers
  import opened Values

  /** The marker a `null` value leaves in the text for `nullify`. */
  const NullMarker: string := "?'\"?"

  predicate EndsWithQuote(t: string) {
    |t| > 0 && (t[|t| - 1] == '"' || t[|t| - 1] == '\'')
  }

  predicate StartsWithQuote(t: string) {
    |t| > 0 && (t[0] == '\'' || t[0] == '"')
  }

  /** The value after `strings[i]` sits between quotes, as in `'$name'`. */
  predicate QuoteWrapped(strings: seq<string>, i: nat)
    requires i < |strings|
  {
    i < |strings| - 1 && EndsWithQuote(strings[i]) && StartsWithQuote(strings[i + 1])
  }

  /** The value after `strings[i]` becomes a `?` and stays in the value
      list: it is neither `null`, nor an `ExpandedVariable`, nor quoted. */
  predicate Binds(strings: seq<string>, i: nat, v: Value)
    requires i < |strings|
  {
    v != Null && !v.Expanded? && !QuoteWrapped(strings, i)
  }

  /** The text that stands for the value after `strings[i]`: the null
      marker, an expanded or quoted value's string form, or `?`. */
  function Fill(strings: seq<string>, i: nat, v: Value, show: Value -> string): (r: string)
    requires i < |strings|
    ensures Binds(strings, i, v) ==> r == "?"
    ensures v == Null ==> r == NullMarker
    ensures v.Expanded? ==> r == show(v.inner)
    ensures v != Null && !v.Expanded? && QuoteWrapped(strings, i) ==> r == show(v)
  {
    if v == Null then NullMarker
    else if v.Expanded? then show(v.inner)
    else if QuoteWrapped(strings, i) then show(v)
    else "?"
  }

  /** The SQL built from the first `k` strings, each followed by the text
      for its value when there is one. */
  function Built(strings: seq<string>, values: seq<Value>, show: Value -> string, k: nat): string
    requires k <= |strings|
  {
    if k == 0 then []
    else Built(strings, values, show, k - 1) + strings[k - 1]
         + (if k - 1 < |values| then Fill(strings, k - 1, values[k - 1], show) else [])
  }

  /** The values consumed among the first `k` slots that stay to be bound. */
  function KeptUpTo(strings: seq<string>, values: seq<Value>, k: nat): (r: seq<Value>)
    requires k <= |strings|
    ensures |r| <= k
  {
    if k == 0 then []
    else KeptUpTo(strings, values, k - 1)
         + (if k - 1 < |values| && Binds(strings, k - 1, values[k - 1]) then [values[k - 1]] else [])
  }

  /** What `asSql` returns before `nullify`: the text, the value list after
      the removals, and whether a `null` was met. */
  datatype Converted = Converted(sql: string, kept: seq<Value>, nulls: bool)

  function Min(a: nat, b: nat): nat {
    if a <= b then a else b
  }

  /** A `null` among the values after the first `k` strings. */
  predicate NullBefore(values: seq<Value>, k: nat) {
    exists j :: 0 <= j < k && j < |values| && values[j] == Null
  }

  /** One iteration of the loop of `asSql`: the string, then the text for
      its value when there is one. */
  method AppendSlot(strings: seq<string>, values: seq<Value>, show: Value -> string, i: nat,
                    buffer: string, kept: seq<Value>, nulls: bool)
    returns (buffer': string, kept': seq<Value>, nulls': bool)
    requires i < |strings|
    requires buffer == Built(strings, values, show, i)
    requires kept == KeptUpTo(strings, values, i)
    requires nulls <==> NullBefore(values, i)
    ensures buffer' == Built(strings, values, show, i + 1)
    ensures kept' == KeptUpTo(strings, values, i + 1)
    ensures nulls' <==> NullBefore(values, i + 1)
  {
    NullBeforeStep(values, i);
    var text := strings[i];
    buffer', kept', nulls' := buffer + text, kept, nulls;
    if i < |values| {
      var value := values[i];
      if value != Null {
        if value.Expanded? {
          buffer' := buffer' + show(value.inner);
        } else {
          var validBinding := true;
          if i < |strings| - 1 {
            var nextText := strings[i + 1];
            if EndsWithQuote(text) && StartsWithQuote(nextText) {
              buffer' := buffer' + show(value);
              validBinding := false;
            }
          }
          assert validBinding <==> Binds(strings, i, value);
          if validBinding {
            buffer' := buffer' + "?";
            kept' := kept' + [value];
          }
        }
      } else {
        nulls' := true;
        buffer' := buffer' + NullMarker;
      }
    }
  }

  lemma NullBeforeStep(values: seq<Value>, i: nat)
    ensures NullBefore(values, i + 1) <==> NullBefore(values, i) || (i < |values| && values[i] == Null)
  {
    if i < |values| && values[i] == Null {
      assert 0 <= i < i + 1 && i < |values| && values[i] == Null;
    }
  }

  /** `asSql(gstring, values)` up to `nullify`. The strings are taken to be
      non-null (a `null` string is skipped, but the quote check after it
      would then throw). */
  method AsSql(strings: seq<string>, values: seq<Value>, show: Value -> string) returns (r: Result<Converted, Failure>)
    ensures r.Err? <==> |strings| == 0
    ensures r.Err? ==> r.error == NoSqlInGString
    ensures r.Ok? ==> r.value.sql == Built(strings, values, show, |strings|)
    ensures r.Ok? ==> r.value.kept == KeptUpTo(strings, values, |strings|) + values[Min(|strings|, |values|)..]
    ensures r.Ok? ==> (r.value.nulls <==> exists i :: 0 <= i < |strings| && i < |values| && values[i] == Null)
  {
    if |strings| == 0 {
      return Err(NoSqlInGString);
    }
    var buffer := "";
    var kept: seq<Value> := [];
    var nulls := false;
    var i := 0;
    while i < |strings|
      invariant 0 <= i <= |strings|
      invariant buffer == Built(strings, values, show, i)
      invariant kept == KeptUpTo(strings, values, i)
      invariant nulls <==> NullBefore(values, i)
    {
      buffer, kept, nulls := AppendSlot(strings, values, show, i, buffer, kept, nulls);
      i := i + 1;
    }
    return Ok(Converted(buffer, kept + values[Min(|strings|, |values|)..], nulls));
  }

  /** The strings joined with a `?` between each two. */
  function Interleave(strings: seq<string>): string
    requires |strings| > 0
  {
    if |strings| == 1 then strings[0]
    else Interleave(strings[..|strings| - 1]) + "?" + strings[|strings| - 1]
  }

  /** An ordinary GString, one value between each two strings and none of
      them null, expanded or quoted, becomes its strings joined by `?` and
      keeps every value in order. */
  lemma {:induction false} PlainGString(strings: seq<string>, values: seq<Value>, show: Value -> string)
    requires |strings| == |values| + 1
    requires forall i :: 0 <= i < |values| ==> Binds(strings, i, values[i])
    ensures Built(strings, values, show, |strings|) == Interleave(strings)
    ensures KeptUpTo(strings, values, |strings|) == values
  {
    PlainPrefix(strings, values, show, |strings|);
    assert strings[..|strings|] == strings;
    assert values[..|strings| - 1] == values;
  }

  lemma {:induction false} PlainPrefix(strings: seq<string>, values: seq<Value>, show: Value -> string, k: nat)
    requires |strings| == |values| + 1
    requires forall i :: 0 <= i < |values| ==> Binds(strings, i, values[i])
    requires 1 <= k <= |strings|
    ensures Built(strings, values, show, k) == Interleave(strings[..k]) + (if k - 1 < |values| then "?" else "")
    ensures KeptUpTo(strings, values, k) == values[..k - 1] + (if k - 1 < |values| then [values[k - 1]] else [])
  {
    if k == 1 {
      assert Built(strings, values, show, 0) == [];
      assert strings[..1] == [strings[0]];
      if 0 < |values| {
        var f := Fill(strings, 0, values[0], show);
        assert f == "?";
      }
    } else {
      PlainPrefix(strings, values, show, k - 1);
      assert strings[..k][..k - 1] == strings[..k - 1];
      assert strings[..k][k - 1] == strings[k - 1];
      if k - 1 < |values| {
        var f := Fill(strings, k - 1, values[k - 1], show);
        assert f == "?";
      }
      assert values[..k - 1] == values[..k - 2] + [values[k - 2]];
    }
  }

  /** The positions, among the values after the first `k` strings, of
      those that stay to be bound. */
  function BoundPositions(strings: seq<string>, values: seq<Value>, k: nat): seq<nat>
    requires k <= |strings|
  {
    if k == 0 then []
    else BoundPositions(strings, values, k - 1)
         + (if k - 1 < |values| && Binds(strings, k - 1, values[k - 1]) then [k - 1] else [])
  }

  /** The kept values are exactly the values at the binding positions, in
      their original order: a value is kept iff it is neither null, nor
      expanded, nor quoted, and nothing else is kept. */
  lemma {:induction false} KeptAreBinding(strings: seq<string>, values: seq<Value>, k: nat)
    requires k <= |strings|
    ensures var p := BoundPositions(strings, values, k);
            && |KeptUpTo(strings, values, k)| == |p|
            && (forall j :: 0 <= j < |p| ==> p[j] < Min(k, |values|) && KeptUpTo(strings, values, k)[j] == values[p[j]])
            && (forall j, j' :: 0 <= j < j' < |p| ==> p[j] < p[j'])
            && (forall i: nat :: i in p <==> i < Min(k, |values|) && Binds(strings, i, values[i]))
  {
    if k > 0 {
      KeptAreBinding(strings, values, k - 1);
    }
    BoundPositionsExact(strings, values, k);
  }

  /** The binding positions are increasing and are exactly the positions
      whose value binds. */
  lemma {:induction false} BoundPositionsExact(strings: seq<string>, values: seq<Value>, k: nat)
    requires k <= |strings|
    ensures var p := BoundPositions(strings, values, k);
            && (forall j :: 0 <= j < |p| ==> p[j] < Min(k, |values|))
            && (forall j, j' :: 0 <= j < j' < |p| ==> p[j] < p[j'])
            && (forall i: nat :: i in p <==> i < Min(k, |values|) && Binds(strings, i, values[i]))
  {
    if k > 0 {
      BoundPositionsExact(strings, values, k - 1);
    }
  }

  /** `"select * from t where a = '$x'"`-style quoting: the value is inlined
      and leaves the list. */
  lemma QuotedExample(show: Value -> string)
    requires show(Obj(1)) == "v"
    ensures Built(["a = '", "'"], [Obj(1)], show, 2) == "a = 'v'"
    ensures KeptUpTo(["a = '", "'"], [Obj(1)], 2) == []
  {
    var strings := ["a = '", "'"];
    assert QuoteWrapped(strings, 0);
    assert !QuoteWrapped(strings, 1);
  }
}

=== FILE: lifecycle.dfy ===
/** The resource side of `groovy.sql.Sql`: where connections come from, the
    statement cache, and when connections, statements and result sets are
    closed. JDBC objects are opaque handles; every JDBC call that matters
    for the release policy is recorded in an event log. */
module Lifecycle {
  import opened Wrappers
  import opened NamedQueryCache

  /** An opaque JDBC object: a connection, a statement or a result set. */
  type Handle = nat

  datatype Event =
    | ConnOpened(conn: Handle)                                  // DataSource.getConnection()
    | ConnClosed(conn: Handle)                                  // Connection.close(), attempted
    | StmtCreated(stmt: Handle, conn: Handle, sql: Option<string>) // None: a plain Statement
    | StmtClosed(stmt: Handle)                                  // Statement.close(), attempted
    | RsClosed(rs: Handle)                                      // ResultSet.close(), attempted
    | AutoCommitSet(conn: Handle, autoCommit: bool)
    | Committed(conn: Handle)
    | RolledBack(conn: Handle)

  /** The state of one facade: `dataSource != null`, the held connection,
      the mode flags, the statement cache keyed by SQL text, the two
      named-query caches, the log, and the next unused handle. */
  datatype Sql = Sql(
    hasDataSource: bool,
    useConnection: Option<Handle>,
    cacheConnection: bool,
    cacheStatements: bool,
    withinBatch: bool,
    enableNamedQueries: bool,
    cacheNamedQueries: bool,
    statementCache: map<string, Handle>,
    named: Caches,
    log: seq<Event>,
    next: Handle)

  /** Every handle the facade holds was handed out before `next`. */
  predicate Valid(s: Sql) {
    && (forall q :: q in s.statementCache ==> s.statementCache[q] < s.next)
    && (s.useConnection.Some? ==> s.useConnection.value < s.next)
  }

  /** The events `r` added to the log of `s`. */
  function Added(s: Sql, r: Sql): seq<Event>
    requires s.log <= r.log
  {
    r.log[|s.log|..]
  }

  /** What two steps add is what the first adds followed by what the second
      adds. */
  lemma AddedSplit(s: Sql, m: Sql, r: Sql)
    requires s.log <= m.log <= r.log
    ensures Added(s, r) == Added(s, m) + Added(m, r)
  {
  }

  /** `new Sql(DataSource)`: nothing held, nothing cached, named queries
      enabled and cached. */
  function OfDataSource(): (r: Sql)
    ensures Valid(r) && r.hasDataSource && r.useConnection.None?
    ensures !r.cacheConnection && !r.cacheStatements && !r.withinBatch
    ensures r.enableNamedQueries && r.cacheNamedQueries
    ensures r.statementCache == map[] && r.named == Empty && r.log == []
  {
    Sql(true, None, false, false, false, true, true, map[], Empty, [], 0)
  }

  /** `new Sql(Connection)`: the caller's connection is held, there is no
      data source. A `null` connection is rejected. */
  function OfConnection(connection: Option<Handle>): (r: Result<Sql, Failure>)
    ensures r.Err? <==> connection.None?
    ensures r.Err? ==> r.error == NoConnection
    ensures r.Ok? ==> Valid(r.value) && !r.value.hasDataSource && r.value.useConnection == connection
    ensures r.Ok? ==> !r.value.cacheConnection && !r.value.cacheStatements && !r.value.withinBatch
    ensures r.Ok? ==> r.value.statementCache == map[] && r.value.log == []
  {
    match connection
    case None => Err(NoConnection)
    case Some(c) => Ok(Sql(false, Some(c), false, false, false, true, true, map[], Empty, [], c + 1))
  }

  /** Either caching flag is on. */
  predicate Caching(s: Sql) {
    s.cacheStatements || s.cacheConnection
  }

  /** `createConnection`: the held connection while caching, otherwise a
      fresh one from the data source (held from now on when caching), and
      without a data source the caller's connection, which may be `null`. */
  function CreateConnection(s: Sql): (r: (Sql, Option<Handle>))
    ensures Caching(s) && s.useConnection.Some? ==> r == (s, s.useConnection)
    ensures !s.hasDataSource ==> r == (s, s.useConnection)
    ensures r.1.None? <==> !s.hasDataSource && s.useConnection.None?
    ensures s.hasDataSource && !(Caching(s) && s.useConnection.Some?) ==>
              && r.1 == Some(s.next)
              && r.0 == s.(log := s.log + [ConnOpened(s.next)], next := s.next + 1,
                           useConnection := if Caching(s) then r.1 else s.useConnection)
    ensures Valid(s) ==> Valid(r.0)
    ensures s.log <= r.0.log && r.0.statementCache == s.statementCache
  {
    if Caching(s) && s.useConnection.Some? then (s, s.useConnection)
    else if s.hasDataSource then
      var c := s.next;
      (s.(log := s.log + [ConnOpened(c)], next := c + 1,
          useConnection := if Caching(s) then Some(c) else s.useConnection), Some(c))
    else (s, s.useConnection)
  }

  /** While caching is on, a data-source facade opens one connection and
      hands it out again on every later call. */
  lemma HeldConnectionReused(s: Sql)
    requires s.hasDataSource && Caching(s)
    ensures CreateConnection(CreateConnection(s).0).1 == CreateConnection(s).1
    ensures CreateConnection(CreateConnection(s).0).0 == CreateConnection(s).0
    ensures CreateConnection(s).1.Some?
  {
  }

  /** With caching off, a data-source facade opens a new connection on every
      call, distinct from any handle it held before. */
  lemma FreshConnectionEachCall(s: Sql)
    requires Valid(s) && s.hasDataSource && !Caching(s)
    ensures CreateConnection(s).1.Some? && CreateConnection(CreateConnection(s).0).1.Some?
    ensures CreateConnection(CreateConnection(s).0).1 != CreateConnection(s).1
    ensures s.useConnection.Some? ==> CreateConnection(s).1 != s.useConnection
  {
  }

  /** `getAbstractStatement`: with `cacheStatements` the statement cached for
      the SQL text, created and stored on a miss; otherwise always a new
      statement. Creating a statement on a `null` connection fails (`None`). */
  function GetAbstractStatement(s: Sql, conn: Option<Handle>, sql: string): (r: (Sql, Option<Handle>))
    ensures s.cacheStatements && sql in s.statementCache ==> r == (s, Some(s.statementCache[sql]))
    ensures !(s.cacheStatements && sql in s.statementCache) && conn.None? ==> r == (s, None)
    ensures !(s.cacheStatements && sql in s.statementCache) && conn.Some? ==>
              && r.1 == Some(s.next)
              && r.0.log == s.log + [StmtCreated(s.next, conn.value, Some(sql))]
              && r.0.next == s.next + 1
    ensures r.0.statementCache == if s.cacheStatements && r.1.Some? then s.statementCache[sql := r.1.value] else s.statementCache
    ensures r.0 == s.(log := r.0.log, next := r.0.next, statementCache := r.0.statementCache)
    ensures Valid(s) ==> Valid(r.0)
    ensures s.log <= r.0.log
  {
    if s.cacheStatements && sql in s.statementCache then (s, Some(s.statementCache[sql]))
    else if conn.None? then (s, None)
    else
      var st := s.next;
      var s' := s.(log := s.log + [StmtCreated(st, conn.value, Some(sql))], next := st + 1);
      (if s.cacheStatements then s'.(statementCache := s.statementCache[sql := st]) else s', Some(st))
  }

  /** With `cacheStatements` on, the statement for a SQL text is created at
      most once: a second request returns the same statement and logs
      nothing. */
  lemma StatementCreatedOnce(s: Sql, conn: Option<Handle>, conn2: Option<Handle>, sql: string)
    requires s.cacheStatements
    requires GetAbstractStatement(s, conn, sql).1.Some?
    ensures GetAbstractStatement(GetAbstractStatement(s, conn, sql).0, conn2, sql).1 == GetAbstractStatement(s, conn, sql).1
    ensures GetAbstractStatement(GetAbstractStatement(s, conn, sql).0, conn2, sql).0 == GetAbstractStatement(s, conn, sql).0
  {
  }

  /** With `cacheStatements` off, every request creates a new statement,
      distinct from every cached one and from the previous request's. */
  lemma StatementCreatedEachTime(s: Sql, conn: Handle, sql: string)
    requires Valid(s) && !s.cacheStatements
    ensures GetAbstractStatement(s, Some(conn), sql).1.Some?
    ensures GetAbstractStatement(GetAbstractStatement(s, Some(conn), sql).0, Some(conn), sql).1
            != GetAbstractStatement(s, Some(conn), sql).1
    ensures forall q :: q in s.statementCache ==> GetAbstractStatement(s, Some(conn), sql).1 != Some(s.statementCache[q])
  {
  }

  /** `closeResources(Connection)`: closes the connection unless it is held
      (`cacheConnection`) or was supplied by the caller (no data source). */
  function CloseConnection(s: Sql, conn: Option<Handle>): (r: Sql)
    ensures r == s.(log := r.log) && s.log <= r.log
    ensures forall e :: e in Added(s, r) ==> e.ConnClosed?
    ensures forall h: Handle :: ConnClosed(h) in Added(s, r) <==> conn == Some(h) && !s.cacheConnection && s.hasDataSource
    ensures |Added(s, r)| <= 1
  {
    if !s.cacheConnection && conn.Some? && s.hasDataSource then
      var r := s.(log := s.log + [ConnClosed(conn.value)]);
      assert Added(s, r) == [ConnClosed(conn.value)];
      r
    else
      assert Added(s, s) == [];
      s
  }

  /** `closeResources(Connection, Statement)`: nothing at all while
      `cacheStatements` is on; otherwise the statement is closed and then
      the connection as `closeResources(Connection)` decides. */
  function CloseStatement(s: Sql, conn: Option<Handle>, stmt: Option<Handle>): (r: Sql)
    ensures r == s.(log := r.log) && s.log <= r.log
    ensures forall e :: e in Added(s, r) ==> e.StmtClosed? || e.ConnClosed?
    ensures forall h: Handle :: StmtClosed(h) in Added(s, r) <==> stmt == Some(h) && !s.cacheStatements
    ensures forall h: Handle :: ConnClosed(h) in Added(s, r)
                        <==> conn == Some(h) && !s.cacheStatements && !s.cacheConnection && s.hasDataSource
    ensures stmt.Some? && !s.cacheStatements ==> Added(s, r)[0] == StmtClosed(stmt.value)
  {
    if s.cacheStatements then s
    else
      var s1 := if stmt.Some? then s.(log := s.log + [StmtClosed(stmt.value)]) else s;
      var r := CloseConnection(s1, conn);
      AddedSplit(s, s1, r);
      assert Added(s, s1) == if stmt.Some? then [StmtClosed(stmt.value)] else [];
      assert forall h: Handle :: StmtClosed(h) !in Added(s1, r);
      r
  }

  /** `closeResources(Connection, Statement, ResultSet)`: the result set is
      always closed, first; then as `closeResources(Connection, Statement)`. */
  function CloseAll(s: Sql, conn: Option<Handle>, stmt: Option<Handle>, rs: Option<Handle>): (r: Sql)
    ensures r == s.(log := r.log) && s.log <= r.log
    ensures forall e :: e in Added(s, r) ==> e.RsClosed? || e.StmtClosed? || e.ConnClosed?
    ensures forall h: Handle :: RsClosed(h) in Added(s, r) <==> rs == Some(h)
    ensures forall h: Handle :: StmtClosed(h) in Added(s, r) <==> stmt == Some(h) && !s.cacheStatements
    ensures forall h: Handle :: ConnClosed(h) in Added(s, r)
                        <==> conn == Some(h) && !s.cacheStatements && !s.cacheConnection && s.hasDataSource
  {
    var s1 := if rs.Some? then s.(log := s.log + [RsClosed(rs.value)]) else s;
    var r := CloseStatement(s1, conn, stmt);
    AddedSplit(s, s1, r);
    assert Added(s, s1) == if rs.Some? then [RsClosed(rs.value)] else [];
    assert forall h: Handle :: RsClosed(h) !in Added(s1, r);
    r
  }

  /** `closeResources(BatchingStatementWrapper)`: closes the batch statement
      unless `cacheStatements` is on; never touches the connection. */
  function CloseBatchStatement(s: Sql, stmt: Option<Handle>): (r: Sql)
    ensures r == s.(log := r.log) && s.log <= r.log
    ensures forall e :: e in Added(s, r) ==> e.StmtClosed?
    ensures forall h: Handle :: StmtClosed(h) in Added(s, r) <==> stmt == Some(h) && !s.cacheStatements
  {
    if !s.cacheStatements && stmt.Some? then
      var r := s.(log := s.log + [StmtClosed(stmt.value)]);
      assert Added(s, r) == [StmtClosed(stmt.value)];
      r
    else
      assert Added(s, s) == [];
      s
  }

  /** A connection supplied by the caller (no data source) is never closed
      by the per-call release, whatever the flags. */
  lemma CallerConnectionNeverClosed(s: Sql, conn: Option<Handle>, stmt: Option<Handle>, rs: Option<Handle>)
    requires !s.hasDataSource
    ensures forall e :: e in Added(s, CloseAll(s, conn, stmt, rs)) ==> !e.ConnClosed?
    ensures forall e :: e in Added(s, CloseConnection(s, conn)) ==> !e.ConnClosed?
  {
  }

  /** While a connection is held for caching, the per-call release leaves it
      open. */
  lemma HeldConnectionKept(s: Sql, stmt: Option<Handle>, rs: Option<Handle>)
    requires Caching(s) && s.useConnection.Some?
    ensures ConnClosed(s.useConnection.value) !in Added(s, CloseAll(s, s.useConnection, stmt, rs))
    ensures s.cacheConnection ==> ConnClosed(s.useConnection.value) !in Added(s, CloseConnection(s, s.useConnection))
  {
  }

  /** `clearStatementCache`: empties the cache first, then attempts `close`
      on every statement it held; a failing close does not stop the rest. */
  method ClearStatementCache(s: Sql) returns (r: Sql)
    ensures r == s.(statementCache := map[], log := r.log) && s.log <= r.log
    ensures forall e :: e in Added(s, r) ==> e.StmtClosed? && e.stmt in s.statementCache.Values
    ensures forall q :: q in s.statementCache ==> StmtClosed(s.statementCache[q]) in Added(s, r)
    ensures s.statementCache == map[] ==> r.log == s.log
  {
    r := s.(statementCache := map[]);
    if s.statementCache == map[] {
      return;
    }
    var remaining := s.statementCache;
    while remaining != map[]
      invariant r == s.(statementCache := map[], log := r.log) && s.log <= r.log
      invariant remaining.Keys <= s.statementCache.Keys
      invariant forall q :: q in remaining ==> remaining[q] == s.statementCache[q]
      invariant forall e :: e in Added(s, r) ==> e.StmtClosed? && e.stmt in s.statementCache.Values
      invariant forall q :: q in s.statementCache && q !in remaining ==> StmtClosed(s.statementCache[q]) in Added(s, r)
      decreases |remaining.Keys|
    {
      var q :| q in remaining;
      var before := r;
      r := r.(log := r.log + [StmtClosed(remaining[q])]);
      AddedSplit(s, before, r);
      remaining := remaining - {q};
    }
  }

  /** `close()`: clears both named-query caches and the statement cache, and
      closes the held connection if there is one. The field keeps pointing
      at the closed connection. */
  method Close(s: Sql) returns (r: Sql)
    ensures r == s.(named := Empty, statementCache := map[], log := r.log) && s.log <= r.log
    ensures forall q :: q in s.statementCache ==> StmtClosed(s.statementCache[q]) in Added(s, r)
    ensures forall h: Handle :: ConnClosed(h) in Added(s, r) <==> s.useConnection == Some(h)
    ensures s.useConnection.Some? ==> r.log[|r.log| - 1] == ConnClosed(s.useConnection.value)
    ensures forall e :: e in Added(s, r) ==> e.StmtClosed? || e.ConnClosed?
    ensures forall e :: e in Added(s, r) && e.StmtClosed? ==> e.stmt in s.statementCache.Values
  {
    var s1 := ClearStatementCache(s);
    r := CloseHeldConnection(s1.(named := Empty), s.useConnection);
    CloseSteps(s, s1, r);
  }

  /** Statement closes followed by at most the close of the held connection:
      the connection is the only one closed, last, and every statement close
      is kept. */
  lemma CloseSteps(s: Sql, s1: Sql, r: Sql)
    requires s.log <= s1.log <= r.log
    requires forall e :: e in Added(s, s1) ==> e.StmtClosed? && e.stmt in s.statementCache.Values
    requires Added(s1, r) == if s.useConnection.Some? then [ConnClosed(s.useConnection.value)] else []
    ensures forall e :: e in Added(s, s1) ==> e in Added(s, r)
    ensures forall h: Handle :: ConnClosed(h) in Added(s, r) <==> s.useConnection == Some(h)
    ensures s.useConnection.Some? ==> r.log[|r.log| - 1] == ConnClosed(s.useConnection.value)
    ensures forall e :: e in Added(s, r) ==> e.StmtClosed? || e.ConnClosed?
    ensures forall e :: e in Added(s, r) && e.StmtClosed? ==> e.stmt in s.statementCache.Values
  {
    AddedSplit(s, s1, r);
  }

  /** The last step of `close()`: the held connection, if any, is closed
      whatever the flags and whether or not it came from a data source. */
  function CloseHeldConnection(s: Sql, held: Option<Handle>): (r: Sql)
    ensures r == s.(log := r.log) && s.log <= r.log
    ensures Added(s, r) == if held.Some? then [ConnClosed(held.value)] else []
  {
    if held.Some? then s.(log := s.log + [ConnClosed(held.value)]) else s
  }

  /** `setCacheStatements`: switching caching off closes and forgets every
      cached statement; switching it on changes nothing else. */
  method SetCacheStatements(s: Sql, cacheStatements: bool) returns (r: Sql)
    ensures r.cacheStatements == cacheStatements
    ensures cacheStatements ==> r == s.(cacheStatements := true)
    ensures !cacheStatements ==> r == s.(cacheStatements := false, statementCache := map[], log := r.log)
    ensures !cacheStatements ==> s.log <= r.log
                                 && (forall q :: q in s.statementCache ==> StmtClosed(s.statementCache[q]) in Added(s, r))
                                 && (forall e :: e in Added(s, r) ==> e.StmtClosed? && e.stmt in s.statementCache.Values)
  {
    r := s.(cacheStatements := cacheStatements);
    if !cacheStatements {
      r := ClearStatementCache(r);
    }
  }
}

=== FILE: named_cache.dfy ===
/** The named-query cache of `groovy.sql.Sql` (`namedParamSqlCache` and
    `namedParamIndexPropCache`, both keyed by the original SQL), the cached
    entry point `ExtractIndexAndSql.invoke`, and `preCheckForNamedParams`. */
module NamedQueryCache {
  import opened Wrappers
  import opened Text
  import opened NamedParams

  /** What `invoke` yields: the rewritten SQL and its `(index, property)` plan. */
  datatype Extracted = Extracted(newSql: string, plan: seq<Binding>)

  /** A fresh scan of `sql`, as a rewritten SQL and a plan. */
  function Extract(sql: string): (r: Result<Extracted, Failure>)
    ensures r.Ok? <==> ScanSql(sql).Ok?
    ensures r.Ok? ==> (r.value.newSql == ScanSql(sql).value.text && r.value.plan == Plan(ScanSql(sql).value.tokens))
    ensures r.Err? ==> r.error == UnterminatedLiteral
  {
    match ScanSql(sql)
    case Err(e) => Err(e)
    case Ok(a) => Ok(Extracted(a.text, Plan(a.tokens)))
  }

  datatype NamedCache = NamedCache(sqlCache: map<string, string>, planCache: map<string, seq<Binding>>)

  /** The two maps are private and only ever written together, so they hold
      the same keys. */
  type Caches = c: NamedCache | c.sqlCache.Keys == c.planCache.Keys
    witness NamedCache(map[], map[])

  const Empty: Caches := NamedCache(map[], map[])

  /** Every entry agrees with a fresh scan of its key. */
  predicate Coherent(c: Caches) {
    forall k :: k in c.sqlCache ==> Extract(k) == Ok(Extracted(c.sqlCache[k], c.planCache[k]))
  }

  /** Outcome of `invoke`: the caches afterwards, the result, and whether it
      came from the cache (no scan took place). */
  datatype Invoked = Invoked(cache: Caches, result: Result<Extracted, Failure>, hit: bool)

  /** `ExtractIndexAndSql.invoke`: the lookup is gated by `cacheNamedQueries`,
      but every successful fresh scan is stored, whatever the flag. A scan
      that throws stores nothing. */
  function Invoke(cacheNamedQueries: bool, c: Caches, sql: string): (r: Invoked)
    ensures r.hit <==> cacheNamedQueries && sql in c.sqlCache
    ensures r.hit ==> r.cache == c && r.result == Ok(Extracted(c.sqlCache[sql], c.planCache[sql]))
    ensures !r.hit ==> r.result == Extract(sql)
    ensures !r.hit && r.result.Ok? ==>
              && r.cache.sqlCache == c.sqlCache[sql := r.result.value.newSql]
              && r.cache.planCache == c.planCache[sql := r.result.value.plan]
    ensures r.result.Err? ==> r.cache == c
  {
    if cacheNamedQueries && sql in c.sqlCache then
      Invoked(c, Ok(Extracted(c.sqlCache[sql], c.planCache[sql])), true)
    else
      match Extract(sql)
      case Err(e) => Invoked(c, Err(e), false)
      case Ok(x) => Invoked(NamedCache(c.sqlCache[sql := x.newSql], c.planCache[sql := x.plan]), Ok(x), false)
  }

  /** The cache is transparent: from a coherent cache, `invoke` answers what a
      fresh scan answers and leaves the cache coherent. */
  lemma InvokeTransparent(cacheNamedQueries: bool, c: Caches, sql: string)
    requires Coherent(c)
    ensures Invoke(cacheNamedQueries, c, sql).result == Extract(sql)
    ensures Coherent(Invoke(cacheNamedQueries, c, sql).cache)
  {
    var r := Invoke(cacheNamedQueries, c, sql);
    if !r.hit && r.result.Ok? {
      forall k | k in r.cache.sqlCache
        ensures Extract(k) == Ok(Extracted(r.cache.sqlCache[k], r.cache.planCache[k]))
      {
        if k != sql {
          assert k in c.sqlCache;
        }
      }
    }
  }

  /** With `cacheNamedQueries` on, a second `invoke` on the same SQL is
      answered from the cache, returns the stored pair and changes nothing. */
  lemma SecondInvokeHits(c: Caches, sql: string)
    requires Invoke(true, c, sql).result.Ok?
    ensures Invoke(true, Invoke(true, c, sql).cache, sql).hit
    ensures Invoke(true, Invoke(true, c, sql).cache, sql).cache == Invoke(true, c, sql).cache
    ensures Invoke(true, Invoke(true, c, sql).cache, sql).result == Invoke(true, c, sql).result
  {
  }

  /** With `cacheNamedQueries` off the cache is never read, yet every
      successful scan is still written to both maps. */
  lemma StoreIgnoresFlag(c: Caches, sql: string)
    requires ScanSql(sql).Ok?
    ensures !Invoke(false, c, sql).hit
    ensures sql in Invoke(false, c, sql).cache.sqlCache
    ensures sql in Invoke(false, c, sql).cache.planCache
    ensures Invoke(false, c, sql).cache.sqlCache[sql] == ScanSql(sql).value.text
  {
  }

  /** `invoke` as the javadoc of `setCacheNamedQueries` describes it: with
      caching off nothing is stored. */
  function InvokeFixed(cacheNamedQueries: bool, c: Caches, sql: string): (r: Invoked)
    ensures !cacheNamedQueries ==> r == Invoked(c, Extract(sql), false)
    ensures cacheNamedQueries ==> r == Invoke(true, c, sql)
  {
    if cacheNamedQueries then Invoke(true, c, sql)
    else Invoked(c, Extract(sql), false)
  }

  /** The corrected `invoke` keeps the cache untouched while caching is off,
      answers exactly what the original answers in every case, and keeps a
      coherent cache coherent. */
  lemma InvokeFixedHonoursFlag(cacheNamedQueries: bool, c: Caches, sql: string)
    ensures !cacheNamedQueries ==> InvokeFixed(cacheNamedQueries, c, sql).cache == c
    ensures InvokeFixed(cacheNamedQueries, c, sql).result == Invoke(cacheNamedQueries, c, sql).result
    ensures InvokeFixed(cacheNamedQueries, c, sql).hit == Invoke(cacheNamedQueries, c, sql).hit
    ensures Coherent(c) ==> Coherent(InvokeFixed(cacheNamedQueries, c, sql).cache)
  {
  }

  /** With caching off the original `invoke` grows the cache: a fresh
      scannable SQL ends up stored, where the corrected one stores nothing. */
  lemma StoreWhenOffExample()
    ensures ":a" in Invoke(false, Empty, ":a").cache.sqlCache
    ensures InvokeFixed(false, Empty, ":a").cache == Empty
  {
  }

  /** `NAMED_QUERY_PATTERN.matcher(sql).find()`: every match starts at a
      marker and a marker alone is a match, so the pattern is found exactly
      when the SQL holds a `:` or a `?`, inside a literal or not. */
  function PatternFound(sql: string): (b: bool)
    ensures b <==> exists k :: 0 <= k < |sql| && IsMarker(sql[k])
  {
    FindMarker(sql, 0) < |sql|
  }

  /** Outcome of `preCheckForNamedParams`: the caches afterwards and either
      the rewritten SQL with its plan or `None` (the Java `null`). */
  datatype PreChecked = PreChecked(cache: Caches, result: Result<Option<Extracted>, Failure>)

  function PreCheck(enableNamedQueries: bool, cacheNamedQueries: bool, c: Caches, sql: string): (r: PreChecked)
    ensures !enableNamedQueries || !PatternFound(sql) ==> r == PreChecked(c, Ok(None))
    ensures r.result.Ok? && r.result.value.Some? ==> r.result.value.value.newSql != sql
  {
    if !enableNamedQueries || !PatternFound(sql) then PreChecked(c, Ok(None))
    else
      var inv := Invoke(cacheNamedQueries, c, sql);
      match inv.result
      case Err(e) => PreChecked(inv.cache, Err(e))
      case Ok(x) => PreChecked(inv.cache, Ok(if x.newSql == sql then None else Some(x)))
  }

  /** `preCheckForNamedParams` answers null exactly in its three cases: named
      queries are disabled, the pattern is not found, or the rewrite is the
      input, which happens exactly when every placeholder is a plain `?`. It
      throws exactly when there is a marker and the quotes are unbalanced. */
  lemma PreCheckCases(enableNamedQueries: bool, cacheNamedQueries: bool, c: Caches, sql: string)
    requires Coherent(c)
    ensures PreCheck(enableNamedQueries, cacheNamedQueries, c, sql).result == Ok(None)
        <==> (|| !enableNamedQueries
              || !PatternFound(sql)
              || (ScanSql(sql).Ok? && AllBare(ScanSql(sql).value.tokens)))
    ensures PreCheck(enableNamedQueries, cacheNamedQueries, c, sql).result.Err?
        <==> enableNamedQueries && PatternFound(sql) && OddQuotes(sql)
    ensures PreCheck(enableNamedQueries, cacheNamedQueries, c, sql).result.Ok?
        && PreCheck(enableNamedQueries, cacheNamedQueries, c, sql).result.value.Some?
        ==> Ok(PreCheck(enableNamedQueries, cacheNamedQueries, c, sql).result.value.value) == Extract(sql)
    ensures Coherent(PreCheck(enableNamedQueries, cacheNamedQueries, c, sql).cache)
  {
    if enableNamedQueries && PatternFound(sql) {
      InvokeTransparent(cacheNamedQueries, c, sql);
      ScanFailsIffOddQuotes(sql);
      if ScanSql(sql).Ok? {
        ScanIdentity(sql);
      }
    }
  }

  /** The quick exit looks at the whole SQL, not only the text outside
      literals: an unbalanced quote goes unnoticed when the SQL holds no
      marker at all, and is reported as soon as it holds one, even inside a
      literal. */
  lemma QuickExitQuirk()
    ensures PreCheck(true, true, Empty, "it's").result == Ok(None)
    ensures PreCheck(true, true, Empty, "it's ?").result == Err(UnterminatedLiteral)
  {
    assert !PatternFound("it's") by {
      assert forall k :: 0 <= k < |"it's"| ==> !IsMarker("it's"[k]);
    }
    var s := "it's ?";
    assert PatternFound(s) by {
      assert IsMarker(s[5]);
    }
    assert OddQuotes(s) by {
      assert s == "it" + [Quote] + "s ?";
      OddQuotesAppend("it" + [Quote], "s ?");
      OddQuotesAppend("it", [Quote]);
      assert "it"[1..] == "t";
      assert "t"[1..] == [];
      assert "s ?"[1..] == " ?";
      assert " ?"[1..] == "?";
      assert "?"[1..] == [];
      assert [Quote][1..] == [];
    }
    ScanFailsIffOddQuotes(s);
  }
}

=== FILE: named_params.dfy ===
/** The named-parameter rewriter of `groovy.sql.Sql`: `NAMED_QUERY_PATTERN`,
    `ExtractIndexAndSql.adaptForNamedParams` and the quote-aware character loop
    of `ExtractIndexAndSql.invoke` (without its cache, see NamedQueryCache).

    Outside single-quoted literals every match of `(?::|\?(\d?)\.?)(\w*)`
    becomes one positional `?` and contributes one `(index, property)`
    binding; literals are copied verbatim. */
module NamedParams {
  import opened Wrappers
  import opened Text

  /** Property name meaning "the whole argument". */
  const ThisProp: string := "<this>"

  /** One match of the pattern: the marker `:` or `?`, the optional digit and
      dot (only after `?`), and the trailing word characters. */
  datatype Token = Token(marker: char, digit: Option<char>, dot: bool, name: string)

  predicate WellFormed(t: Token) {
    && IsMarker(t.marker)
    && (t.marker == ':' ==> t.digit.None? && !t.dot)
    && (t.digit.Some? ==> IsDigit(t.digit.value))
    && AllWordChars(t.name)
  }

  predicate AllWellFormed(ts: seq<Token>) {
    forall k :: 0 <= k < |ts| ==> WellFormed(ts[k])
  }

  /** The text a token was matched from. */
  function Render(t: Token): string {
    [t.marker] + (if t.digit.Some? then [t.digit.value] else []) + (if t.dot then "." else "") + t.name
  }

  /** A plain `?` with nothing after it. */
  const Bare: Token := Token('?', None, false, "")

  // ---------------------------------------------------------------------------
  // The pattern, hand-coded

  /** Length of the longest run of word characters at the start of `s`. */
  function WordRun(s: string): (n: nat)
    ensures n <= |s| && AllWordChars(s[..n])
    ensures n == |s| || !IsWordChar(s[n])
  {
    if |s| > 0 && IsWordChar(s[0]) then
      var n := 1 + WordRun(s[1..]);
      assert s[..n] == [s[0]] + s[1..][..n - 1];
      n
    else 0
  }

  /** The match of the pattern at the start of `s` (Java's greedy semantics:
      take a digit if there is one, then a dot if there is one, then every
      word character). */
  function ParseToken(s: string): (t: Token)
    requires |s| > 0 && IsMarker(s[0])
    ensures WellFormed(t) && t.marker == s[0]
    ensures |Render(t)| <= |s| && Render(t) == s[..|Render(t)|]
    ensures |Render(t)| == |s| || !IsWordChar(s[|Render(t)|])
  {
    if s[0] == ':' then
      var n := WordRun(s[1..]);
      var t := Token(':', None, false, s[1..][..n]);
      assert Render(t) == s[..1 + n];
      t
    else
      var d := if |s| > 1 && IsDigit(s[1]) then Some(s[1]) else None;
      var i := if d.Some? then 2 else 1;
      var dot := i < |s| && s[i] == '.';
      var j := if dot then i + 1 else i;
      var n := WordRun(s[j..]);
      var t := Token('?', d, dot, s[j..][..n]);
      RenderQuestion(s, d, dot, j, n);
      t
  }

  /** The text of a `?` token is the prefix of `s` it was read from. */
  lemma RenderQuestion(s: string, d: Option<char>, dot: bool, j: nat, n: nat)
    requires 0 < |s| && s[0] == '?'
    requires d.Some? ==> |s| > 1 && s[1] == d.value
    requires j == (if d.Some? then 2 else 1) + (if dot then 1 else 0)
    requires dot ==> j <= |s| && s[j - 1] == '.'
    requires j + n <= |s|
    ensures Render(Token('?', d, dot, s[j..][..n])) == s[..j + n]
  {
    var prefix := ['?'] + (if d.Some? then [d.value] else []) + (if dot then "." else "");
    assert prefix == s[..j];
    assert s[..j + n] == s[..j] + s[j..][..n];
  }

  /** After its marker, a token holds word characters and at most one dot,
      which sits right after the marker and the optional digit. */
  lemma RenderTail(t: Token, k: nat)
    requires WellFormed(t) && 1 <= k < |Render(t)|
    ensures IsWordChar(Render(t)[k])
         || (Render(t)[k] == '.' && t.dot && k == 1 + (if t.digit.Some? then 1 else 0))
  {
    var r := Render(t);
    var d := if t.digit.Some? then 1 else 0;
    var p := if t.dot then 1 else 0;
    if k >= 1 + d + p {
      assert r[k] == t.name[k - 1 - d - p];
    }
  }

  /** The match taken is the longest well-formed token that starts `s`. */
  lemma ParseTokenLongest(s: string, t: Token)
    requires |s| > 0 && IsMarker(s[0])
    requires WellFormed(t) && |Render(t)| <= |s| && Render(t) == s[..|Render(t)|]
    ensures |Render(t)| <= |Render(ParseToken(s))|
  {
    var r := ParseToken(s);
    var m := |Render(t)|;
    var j := |Render(r)| - |r.name|;
    forall k | j <= k < m
      ensures IsWordChar(s[k])
    {
      assert s[k] == Render(t)[k];
      RenderTail(t, k);
    }
  }

  // ---------------------------------------------------------------------------
  // Bindings

  /** The `(index, property)` tuple recorded for a placeholder. */
  datatype Binding = Binding(index: int, prop: string)

  function DigitValue(c: char): int
    requires IsDigit(c)
  {
    c as int - '0' as int
  }

  /** Index is 0 without a digit and d-1 for digit d (so `?0` gives -1);
      an empty name binds the whole argument. */
  function BindingOf(t: Token): (b: Binding)
    requires WellFormed(t)
    ensures -1 <= b.index <= 8
    ensures b.index == -1 <==> t.digit == Some('0')
    ensures t.digit.None? ==> b.index == 0
    ensures t.digit.Some? ==> b.index == t.digit.value as int - '0' as int - 1
    ensures b.prop == ThisProp <==> t.name == []
    ensures t.name != [] ==> b.prop == t.name
  {
    var prop := if t.name == [] then ThisProp else t.name;
    assert ThisProp[0] == '<';
    Binding(if t.digit.Some? then DigitValue(t.digit.value) - 1 else 0, prop)
  }

  function Plan(ts: seq<Token>): (p: seq<Binding>)
    requires AllWellFormed(ts)
    ensures |p| == |ts|
    ensures forall k :: 0 <= k < |p| ==> p[k] == BindingOf(ts[k])
  {
    seq(|ts|, k requires 0 <= k < |ts| => BindingOf(ts[k]))
  }

  // ---------------------------------------------------------------------------
  // adaptForNamedParams

  /** Rewritten text together with the tokens that were replaced, in order. */
  datatype Adapted = Adapted(text: string, tokens: seq<Token>)

  function Prepend(text: string, tokens: seq<Token>, a: Adapted): Adapted {
    Adapted(text + a.text, tokens + a.tokens)
  }

  /** Rewriting of text that lies outside any literal: every match becomes `?`. */
  function Adapt(s: string): (a: Adapted)
    ensures AllWellFormed(a.tokens)
    decreases |s|, 1
  {
    if |s| == 0 then Adapted([], [])
    else if IsMarker(s[0]) then AdaptMarker(s)
    else Prepend([s[0]], [], Adapt(s[1..]))
  }

  /** The rewrite of text starting with a match: `?`, then the rest. */
  function AdaptMarker(s: string): (a: Adapted)
    requires |s| > 0 && IsMarker(s[0])
    ensures AllWellFormed(a.tokens)
    decreases |s|, 0
  {
    var t := ParseToken(s);
    Prepend("?", [t], Adapt(s[|Render(t)|..]))
  }

  /** Puts every token back in place of the `?` it became. */
  function Restore(text: string, tokens: seq<Token>): string
  {
    if |text| == 0 then []
    else if text[0] == '?' && |tokens| > 0 then Render(tokens[0]) + Restore(text[1..], tokens[1..])
    else [text[0]] + Restore(text[1..], tokens)
  }

  function Markers(s: string): nat {
    Count(s, ':') + Count(s, '?')
  }

  /** Only the first character of a token is a marker, and none is a quote. */
  lemma RenderCounts(t: Token)
    requires WellFormed(t)
    ensures Markers(Render(t)) == 1
    ensures Count(Render(t), Quote) == 0
  {
    var r := Render(t);
    var tail := r[1..];
    forall k | 0 <= k < |tail|
      ensures !IsMarker(tail[k]) && tail[k] != Quote
    {
      RenderTail(t, k + 1);
    }
    assert r == [r[0]] + tail;
    CountAppend([r[0]], tail, ':');
    CountAppend([r[0]], tail, '?');
    CountAppend([r[0]], tail, Quote);
    CountAbsent(tail, ':');
    CountAbsent(tail, '?');
    CountAbsent(tail, Quote);
  }

  /** Restoring the tokens of a rewrite gives back the original text. */
  lemma {:induction false} AdaptRestores(s: string)
    ensures Restore(Adapt(s).text, Adapt(s).tokens) == s
    decreases |s|
  {
    if |s| > 0 {
      var a := Adapt(s);
      if IsMarker(s[0]) {
        var t := ParseToken(s);
        var rest := Adapt(s[|Render(t)|..]);
        AdaptRestores(s[|Render(t)|..]);
        AdaptMarkerUnfold(s);
        assert a.text == "?" + rest.text;
        assert a.text[1..] == rest.text;
        assert a.tokens[0] == t && a.tokens[1..] == rest.tokens;
        assert s == Render(t) + s[|Render(t)|..];
      } else {
        var rest := Adapt(s[1..]);
        AdaptRestores(s[1..]);
        assert a.text == [s[0]] + rest.text;
        assert a.text[1..] == rest.text;
        assert a.tokens == rest.tokens;
        assert s == [s[0]] + s[1..];
      }
    }
  }

  /** The rewrite has no `:`, exactly one `?` per token, one token per marker
      of the input, and the same quotes as the input. */
  lemma {:induction false} AdaptShape(s: string)
    ensures Count(Adapt(s).text, ':') == 0
    ensures Count(Adapt(s).text, '?') == |Adapt(s).tokens|
    ensures |Adapt(s).tokens| == Markers(s)
    ensures Count(Adapt(s).text, Quote) == Count(s, Quote)
    ensures |Adapt(s).text| <= |s|
    decreases |s|
  {
    if |s| > 0 {
      var a := Adapt(s);
      if IsMarker(s[0]) {
        var t := ParseToken(s);
        var tail := s[|Render(t)|..];
        AdaptShape(tail);
        AdaptMarkerUnfold(s);
        RenderCounts(t);
        assert s == Render(t) + tail;
        CountAppend(Render(t), tail, ':');
        CountAppend(Render(t), tail, '?');
        CountAppend(Render(t), tail, Quote);
        CountAppend("?", Adapt(tail).text, ':');
        CountAppend("?", Adapt(tail).text, '?');
        CountAppend("?", Adapt(tail).text, Quote);
      } else {
        AdaptShape(s[1..]);
        assert s == [s[0]] + s[1..];
        CountAppend([s[0]], s[1..], ':');
        CountAppend([s[0]], s[1..], '?');
        CountAppend([s[0]], s[1..], Quote);
        CountAppend([s[0]], Adapt(s[1..]).text, ':');
        CountAppend([s[0]], Adapt(s[1..]).text, '?');
        CountAppend([s[0]], Adapt(s[1..]).text, Quote);
      }
    }
  }

  lemma AdaptQuoteFree(s: string)
    requires QuoteFree(s)
    ensures QuoteFree(Adapt(s).text)
  {
    AdaptShape(s);
    CountAbsent(s, Quote);
    CountAbsent(Adapt(s).text, Quote);
  }

  /** The rewrite leaves the text unchanged exactly when every match is a
      plain `?` with nothing after it. */
  lemma {:induction false} AdaptIdentity(s: string)
    ensures Adapt(s).text == s <==> forall k :: 0 <= k < |Adapt(s).tokens| ==> Adapt(s).tokens[k] == Bare
    decreases |s|
  {
    if |s| > 0 {
      if IsMarker(s[0]) {
        var t := ParseToken(s);
        var n := |Render(t)|;
        assert 0 < n by { RenderShape(t); }
        AdaptIdentity(s[n..]);
        AdaptShape(s[n..]);
        assert Adapt(s) == Prepend("?", [t], Adapt(s[n..])) by { AdaptMarkerUnfold(s); }
        IdentityMarkerStep(s, t, n, Adapt(s[n..]), Adapt(s));
      } else {
        AdaptIdentity(s[1..]);
        assert Adapt(s) == Prepend([s[0]], [], Adapt(s[1..])) by { AdaptPlainAt(s, 0); assert s[0..] == s; }
        IdentityPlainStep(s, Adapt(s[1..]), Adapt(s));
      }
    }
  }

  /** `AdaptIdentity` across a match `t` of length `n` at the start of `s`. */
  lemma IdentityMarkerStep(s: string, t: Token, n: nat, rest: Adapted, a: Adapted)
    requires 0 < n <= |s| && n == |Render(t)| && Render(t) == s[..n] && WellFormed(t)
    requires |rest.text| <= |s| - n
    requires rest.text == s[n..] <==> forall k :: 0 <= k < |rest.tokens| ==> rest.tokens[k] == Bare
    requires a == Prepend("?", [t], rest)
    ensures a.text == s <==> forall k :: 0 <= k < |a.tokens| ==> a.tokens[k] == Bare
  {
    assert a.tokens[0] == t;
    assert a.tokens[1..] == rest.tokens;
    assert s[0] == Render(t)[0] == t.marker;
    if t == Bare {
      assert s == "?" + s[1..];
      assert a.text == "?" + rest.text;
    } else if n == 1 {
      assert t.marker == ':';
      assert a.text[0] != s[0];
    } else {
      assert |a.text| < |s|;
    }
  }

  /** `AdaptIdentity` across a copied character at the start of `s`. */
  lemma IdentityPlainStep(s: string, rest: Adapted, a: Adapted)
    requires 0 < |s|
    requires rest.text == s[1..] <==> forall k :: 0 <= k < |rest.tokens| ==> rest.tokens[k] == Bare
    requires a == Prepend([s[0]], [], rest)
    ensures a.text == s <==> forall k :: 0 <= k < |a.tokens| ==> a.tokens[k] == Bare
  {
    assert s == [s[0]] + s[1..];
    assert a.tokens == rest.tokens;
  }

  /** First index at or after `from` holding a marker, or `|s|`. */
  function FindMarker(s: string, from: nat): (m: nat)
    requires from <= |s|
    ensures from <= m <= |s|
    ensures forall k :: from <= k < m ==> !IsMarker(s[k])
    ensures m < |s| ==> IsMarker(s[m])
    decreases |s| - from
  {
    if from == |s| then from
    else if IsMarker(s[from]) then from
    else FindMarker(s, from + 1)
  }

  /** Text without markers is copied unchanged. */
  lemma {:induction false} AdaptSkip(s: string, from: nat, m: nat)
    requires from <= m <= |s|
    requires forall k :: from <= k < m ==> !IsMarker(s[k])
    ensures Adapt(s[from..]) == Prepend(s[from..m], [], Adapt(s[m..]))
    decreases m - from
  {
    if from < m {
      var x := Adapt(s[m..]);
      var y := Adapt(s[from + 1..]);
      AdaptSkip(s, from + 1, m);
      AdaptPlainAt(s, from);
      SliceCons(s, from, m);
      PrependChain(Adapt(s[from..]), [s[from]], [], y, s[from + 1..m], [], x, s[from..m], []);
    }
  }

  /** A character that is not a marker is copied. */
  lemma AdaptPlainAt(s: string, from: nat)
    requires from < |s| && !IsMarker(s[from])
    ensures Adapt(s[from..]) == Prepend([s[from]], [], Adapt(s[from + 1..]))
  {
    assert s[from..][1..] == s[from + 1..];
  }

  lemma SliceCons(s: string, from: nat, m: nat)
    requires from < m <= |s|
    ensures s[from..m] == [s[from]] + s[from + 1..m]
  {
  }

  /** From one match to the next: the text before the match is copied and
      the match `t`, of length `n`, becomes `?`. */
  lemma AdaptFindStep(s: string, from: nat, start: nat, t: Token, next: nat)
    requires from <= start < |s|
    requires start == FindMarker(s, from)
    requires t == ParseToken(s[start..]) && next == start + |Render(t)|
    ensures start < next <= |s|
    ensures Adapt(s[from..]) == Prepend(s[from..start] + "?", [t], Adapt(s[next..]))
  {
    var x := Adapt(s[from..]);
    var y := Adapt(s[start..]);
    var rest := Adapt(s[next..]);
    AdaptSkip(s, from, start);
    AdaptMarkerAt(s, start, t, next);
    EmptyAppend([t]);
    PrependChain(x, s[from..start], [], y, "?", [t], rest, s[from..start] + "?", [t]);
  }

  /** A marker at `start` becomes `?` and its token, and the rewrite goes on
      after the token's text. */
  lemma AdaptMarkerAt(s: string, start: nat, t: Token, next: nat)
    requires start < |s| && IsMarker(s[start])
    requires t == ParseToken(s[start..]) && next == start + |Render(t)|
    ensures start < next <= |s|
    ensures Adapt(s[start..]) == Prepend("?", [t], Adapt(s[next..]))
  {
    var u := s[start..];
    var n := next - start;
    assert 0 < n <= |u| by { RenderShape(t); }
    assert Adapt(u) == Prepend("?", [t], Adapt(u[n..])) by { AdaptMarkerUnfold(u); }
    assert u[n..] == s[next..] by { DropDrop(s, start, next); }
  }

  lemma RenderShape(t: Token)
    ensures |Render(t)| >= 1 && Render(t)[0] == t.marker
  {
  }

  lemma EmptyAppend<T>(a: seq<T>)
    ensures [] + a == a
  {
  }

  lemma DropDrop(s: string, a: nat, b: nat)
    requires a <= b <= |s|
    ensures s[a..][b - a..] == s[b..]
  {
  }

  lemma AdaptMarkerUnfold(u: string)
    requires |u| > 0 && IsMarker(u[0])
    ensures Adapt(u) == Prepend("?", [ParseToken(u)], Adapt(u[|Render(ParseToken(u))|..]))
  {
  }

  /** Two prepends in a row are one. */
  lemma PrependChain(whole: Adapted, text: string, tokens: seq<Token>, x: Adapted,
                     mid: string, found: seq<Token>, y: Adapted, text': string, tokens': seq<Token>)
    requires whole == Prepend(text, tokens, x) && x == Prepend(mid, found, y)
    requires text' == text + mid && tokens' == tokens + found
    ensures whole == Prepend(text', tokens', y)
  {
    PrependAssoc(text, tokens, mid, found, y);
  }

  lemma PrependAssoc(t1: string, k1: seq<Token>, t2: string, k2: seq<Token>, a: Adapted)
    ensures Prepend(t1, k1, Prepend(t2, k2, a)) == Prepend(t1 + t2, k1 + k2, a)
  {
    assert t1 + (t2 + a.text) == (t1 + t2) + a.text;
    assert k1 + (k2 + a.tokens) == (k1 + k2) + a.tokens;
  }

  /** One iteration of the `find` loop keeps the rewrite of the whole text
      split into what is done and what remains. */
  lemma AdaptLoopStep(s: string, text: string, tokens: seq<Token>, from: nat, start: nat,
                      text': string, tokens': seq<Token>, next: nat)
    requires from <= start < |s| && start == FindMarker(s, from)
    requires Adapt(s) == Prepend(text, tokens, Adapt(s[from..]))
    requires text' == text + (s[from..start] + "?") && tokens' == tokens + [ParseToken(s[start..])]
    requires next == start + |Render(ParseToken(s[start..]))|
    ensures start < next <= |s|
    ensures Adapt(s) == Prepend(text', tokens', Adapt(s[next..]))
  {
    var t := ParseToken(s[start..]);
    AdaptFindStep(s, from, start, t, next);
    PrependChain(Adapt(s), text, tokens, Adapt(s[from..]), s[from..start] + "?", [t], Adapt(s[next..]), text', tokens');
  }

  /** One iteration of the `find` loop: the text before the match is
      appended, then `?` for the match, and the next match is searched. */
  method ReplaceMatch(s: string, text: string, tokens: seq<Token>, txtIndex: nat, start: nat)
    returns (text': string, tokens': seq<Token>, txtIndex': nat, start': nat)
    requires txtIndex <= start < |s| && start == FindMarker(s, txtIndex)
    requires Adapt(s) == Prepend(text, tokens, Adapt(s[txtIndex..]))
    ensures start < txtIndex' <= start' <= |s| && start' == FindMarker(s, txtIndex')
    ensures Adapt(s) == Prepend(text', tokens', Adapt(s[txtIndex'..]))
  {
    var t := ParseToken(s[start..]);
    text' := text + (s[txtIndex..start] + "?");
    tokens' := tokens + [t];
    txtIndex' := start + |Render(t)|;
    AdaptLoopStep(s, text, tokens, txtIndex, start, text', tokens', txtIndex');
    start' := FindMarker(s, txtIndex');
  }

  /** Once no match is left, the rest of the text is copied. */
  lemma AdaptLoopEnd(s: string, text: string, tokens: seq<Token>, from: nat)
    requires from <= |s| && FindMarker(s, from) == |s|
    requires Adapt(s) == Prepend(text, tokens, Adapt(s[from..]))
    ensures Adapt(s) == Adapted(text + s[from..], tokens)
  {
    var tail := s[from..];
    assert Adapt(tail) == Adapted(tail, []) by {
      AdaptSkip(s, from, |s|);
      assert s[|s|..] == [];
      assert tail + [] == tail;
    }
  }

  /** The `while (matcher.find())` loop of `adaptForNamedParams`. */
  method AdaptForNamedParams(s: string) returns (text: string, tokens: seq<Token>)
    ensures Adapted(text, tokens) == Adapt(s)
  {
    text := [];
    tokens := [];
    var txtIndex := 0;
    var start := FindMarker(s, 0);
    assert s[0..] == s;
    while start < |s|
      invariant txtIndex <= start <= |s|
      invariant start == FindMarker(s, txtIndex)
      invariant Adapt(s) == Prepend(text, tokens, Adapt(s[txtIndex..]))
      decreases |s| - txtIndex
    {
      text, tokens, txtIndex, start := ReplaceMatch(s, text, tokens, txtIndex, start);
    }
    AdaptLoopEnd(s, text, tokens, txtIndex);
    text := text + s[txtIndex..];
  }

  // ---------------------------------------------------------------------------
  // The quote-aware scan of ExtractIndexAndSql.invoke

  function PrependResult(text: string, tokens: seq<Token>, r: Result<Adapted, Failure>): Result<Adapted, Failure> {
    match r
    case Err(e) => Err(e)
    case Ok(a) => Ok(Prepend(text, tokens, a))
  }

  /** Reference definition of the scan: the text up to the first quote is
      rewritten, the literal up to the closing quote is copied, and the scan
      resumes after it; an opening quote without a closing one fails. */
  function ScanSql(s: string): (r: Result<Adapted, Failure>)
    ensures r.Ok? ==> AllWellFormed(r.value.tokens)
    ensures r.Err? ==> r.error == UnterminatedLiteral
    decreases |s|, 1
  {
    var q := QuoteIndex(s);
    if q == |s| then Ok(Adapt(s[..q]))
    else
      var c := QuoteIndex(s[q + 1..]);
      if c == |s[q + 1..]| then Err(UnterminatedLiteral)
      else ScanLit(s, q, c)
  }

  /** The scan of SQL whose first literal spans `s[q..q + c + 2]`. */
  function ScanLit(s: string, q: nat, c: nat): (r: Result<Adapted, Failure>)
    requires q + c + 1 < |s|
    ensures r.Ok? ==> AllWellFormed(r.value.tokens)
    ensures r.Err? ==> r.error == UnterminatedLiteral
    decreases |s|, 0
  {
    var head := Adapt(s[..q]);
    PrependResult(head.text + s[q..q + c + 2], head.tokens, ScanSql(s[q + 1..][c + 1..]))
  }

  /** The literals of `s`, in order, without their quotes; an unterminated
      last literal runs to the end. */
  function Literals(s: string): seq<string>
    decreases |s|
  {
    var q := QuoteIndex(s);
    if q == |s| then []
    else
      var rest := s[q + 1..];
      var c := QuoteIndex(rest);
      if c == |rest| then [rest] else [rest[..c]] + Literals(rest[c + 1..])
  }

  /** Puts the tokens back in place of the `?` outside literals. */
  function RestoreSql(text: string, tokens: seq<Token>, inLiteral: bool): string
  {
    if |text| == 0 then []
    else if text[0] == Quote then [Quote] + RestoreSql(text[1..], tokens, !inLiteral)
    else if !inLiteral && text[0] == '?' && |tokens| > 0 then
      Render(tokens[0]) + RestoreSql(text[1..], tokens[1..], inLiteral)
    else [text[0]] + RestoreSql(text[1..], tokens, inLiteral)
  }

  /** How `s` splits at its first literal. */
  lemma SplitAtLiteral(s: string, q: nat, c: nat)
    requires q == QuoteIndex(s) < |s|
    requires c == QuoteIndex(s[q + 1..]) < |s[q + 1..]|
    ensures s[q..q + c + 2] == [Quote] + s[q + 1..][..c] + [Quote]
    ensures s == s[..q] + s[q..q + c + 2] + s[q + 1..][c + 1..]
    ensures QuoteFree(s[..q]) && QuoteFree(s[q + 1..][..c])
  {
    SplitAt(s, q, c);
  }

  lemma SplitAt(s: string, q: nat, c: nat)
    requires q + c + 1 < |s| && s[q] == Quote && s[q + 1..][c] == Quote
    ensures s[q..q + c + 2] == [Quote] + s[q + 1..][..c] + [Quote]
    ensures s == s[..q] + s[q..q + c + 2] + s[q + 1..][c + 1..]
  {
    var rest := s[q + 1..];
    assert s[q..q + c + 2] == [s[q]] + rest[..c] + [rest[c]];
    assert s[q + 1..][c + 1..] == s[q + c + 2..];
  }

  /** One step of the scan over SQL that holds a complete literal. */
  lemma ScanLiteralStep(s: string, q: nat, c: nat)
    requires q == QuoteIndex(s) < |s|
    requires c == QuoteIndex(s[q + 1..]) < |s[q + 1..]|
    ensures ScanSql(s) == PrependResult(Adapt(s[..q]).text + ([Quote] + s[q + 1..][..c] + [Quote]),
                                        Adapt(s[..q]).tokens, ScanSql(s[q + 1..][c + 1..]))
  {
    ScanUnfold(s);
    ScanLitUnfold(s, q, c);
    assert s[q..q + c + 2] == [Quote] + s[q + 1..][..c] + [Quote] by {
      SplitAtLiteral(s, q, c);
    }
  }

  lemma ScanUnfold(s: string)
    requires QuoteIndex(s) < |s| && QuoteIndex(s[QuoteIndex(s) + 1..]) < |s[QuoteIndex(s) + 1..]|
    ensures ScanSql(s) == ScanLit(s, QuoteIndex(s), QuoteIndex(s[QuoteIndex(s) + 1..]))
  {
  }

  lemma ScanLitUnfold(s: string, q: nat, c: nat)
    requires q + c + 1 < |s|
    ensures ScanLit(s, q, c) == PrependResult(Adapt(s[..q]).text + s[q..q + c + 2], Adapt(s[..q]).tokens, ScanSql(s[q + 1..][c + 1..]))
  {
  }

  /** An opening quote without a closing one fails the scan. */
  lemma ScanUnclosedStep(s: string, q: nat)
    requires q == QuoteIndex(s) < |s|
    requires QuoteIndex(s[q + 1..]) == |s[q + 1..]|
    ensures ScanSql(s) == Err(UnterminatedLiteral)
  {
  }

  /** The scan of SQL without quotes is the plain rewrite. */
  lemma ScanNoLiteral(s: string)
    requires QuoteIndex(s) == |s|
    ensures ScanSql(s) == Ok(Adapt(s))
  {
    assert s[..|s|] == s;
  }

  lemma QuoteIndexAfter(x: string, y: string)
    requires QuoteFree(x)
    ensures QuoteIndex(x + [Quote] + y) == |x|
  {
    if |x| > 0 {
      assert (x + [Quote] + y)[1..] == x[1..] + [Quote] + y;
      QuoteIndexAfter(x[1..], y);
    }
  }

  lemma QuoteIndexAll(x: string)
    requires QuoteFree(x)
    ensures QuoteIndex(x) == |x|
  {
    if |x| > 0 {
      QuoteIndexAll(x[1..]);
    }
  }

  lemma PrependResultAssoc(t1: string, k1: seq<Token>, t2: string, k2: seq<Token>, r: Result<Adapted, Failure>)
    ensures PrependResult(t1, k1, PrependResult(t2, k2, r)) == PrependResult(t1 + t2, k1 + k2, r)
  {
    match r
    case Err(_) =>
    case Ok(a) =>
      assert t1 + (t2 + a.text) == (t1 + t2) + a.text;
      assert k1 + (k2 + a.tokens) == (k1 + k2) + a.tokens;
  }

  lemma SplitAtQuote(rest: string, c: nat)
    requires c < |rest| && rest[c] == Quote
    ensures [Quote] + rest == [Quote] + rest[..c] + [Quote] + rest[c + 1..]
  {
    assert rest == rest[..c] + [Quote] + rest[c + 1..];
  }

  /** Two prepends in a row are one, for scan results. */
  lemma PrependResultChain(whole: Result<Adapted, Failure>, text: string, tokens: seq<Token>, x: Result<Adapted, Failure>,
                           mid: string, found: seq<Token>, y: Result<Adapted, Failure>, text': string, tokens': seq<Token>)
    requires whole == PrependResult(text', tokens', y) && x == PrependResult(mid, found, y)
    requires text' == text + mid && tokens' == tokens + found
    ensures whole == PrependResult(text, tokens, x)
  {
    PrependResultAssoc(text, tokens, mid, found, y);
  }

  /** Reaching an opening quote: the pending chunk is rewritten. */
  lemma ScanOpenQuote(chunk: string, rest: string)
    requires QuoteFree(chunk)
    ensures ScanSql(chunk + [Quote] + rest)
         == PrependResult(Adapt(chunk).text, Adapt(chunk).tokens, ScanSql([Quote] + rest))
  {
    var c := QuoteIndex(rest);
    if c < |rest| {
      ScanOpenClosed(chunk, rest, c);
    } else {
      ScanOpenUnclosed(chunk, rest);
    }
  }

  lemma ScanOpenClosed(chunk: string, rest: string, c: nat)
    requires QuoteFree(chunk)
    requires c == QuoteIndex(rest) < |rest|
    ensures ScanSql(chunk + [Quote] + rest)
         == PrependResult(Adapt(chunk).text, Adapt(chunk).tokens, ScanSql([Quote] + rest))
  {
    var s := chunk + [Quote] + rest;
    var a := Adapt(chunk);
    var lit := [Quote] + rest[..c] + [Quote];
    var x := ScanSql(rest[c + 1..]);
    assert ScanSql(s) == PrependResult(a.text + lit, a.tokens, x) by {
      var q := |chunk|;
      QuoteIndexAfter(chunk, rest);
      assert s[..q] == chunk;
      assert s[q + 1..] == rest;
      ScanLiteralStep(s, q, c);
    }
    assert ScanSql([Quote] + rest) == PrependResult(lit, [], x) by {
      SplitAtQuote(rest, c);
      ScanCloseQuote(rest[..c], rest[c + 1..]);
    }
    assert a.tokens + [] == a.tokens;
    PrependResultChain(ScanSql(s), a.text, a.tokens, ScanSql([Quote] + rest), lit, [], x, a.text + lit, a.tokens);
  }

  lemma ScanOpenUnclosed(chunk: string, rest: string)
    requires QuoteFree(chunk)
    requires QuoteIndex(rest) == |rest|
    ensures ScanSql(chunk + [Quote] + rest).Err?
    ensures ScanSql([Quote] + rest).Err?
  {
    var s := chunk + [Quote] + rest;
    var u := [Quote] + rest;
    QuoteIndexAfter(chunk, rest);
    assert s[|chunk| + 1..] == rest;
    assert u[1..] == rest;
    assert QuoteIndex(u) == 0;
  }

  /** Reaching the closing quote: the literal is copied verbatim. */
  lemma ScanCloseQuote(body: string, rest: string)
    requires QuoteFree(body)
    ensures ScanSql([Quote] + body + [Quote] + rest)
         == PrependResult([Quote] + body + [Quote], [], ScanSql(rest))
  {
    var s := [Quote] + body + [Quote] + rest;
    var lit := [Quote] + body + [Quote];
    CloseQuoteSplit(body, rest);
    ScanLiteralStep(s, 0, |body|);
    assert Adapt([]) == Adapted([], []);
    assert [] + lit == lit;
  }

  lemma CloseQuoteSplit(body: string, rest: string)
    requires QuoteFree(body)
    ensures QuoteIndex([Quote] + body + [Quote] + rest) == 0
    ensures ([Quote] + body + [Quote] + rest)[..0] == []
    ensures ([Quote] + body + [Quote] + rest)[1..] == body + [Quote] + rest
    ensures QuoteIndex(body + [Quote] + rest) == |body|
    ensures (body + [Quote] + rest)[..|body|] == body
    ensures (body + [Quote] + rest)[|body| + 1..] == rest
  {
    QuoteIndexAfter(body, rest);
  }

  lemma ScanNoQuote(chunk: string)
    requires QuoteFree(chunk)
    ensures ScanSql(chunk) == Ok(Adapt(chunk))
  {
    QuoteIndexAll(chunk);
    assert chunk[..|chunk|] == chunk;
  }

  lemma ScanOpenEnd(body: string)
    requires QuoteFree(body)
    ensures ScanSql([Quote] + body) == Err(UnterminatedLiteral)
  {
    var s := [Quote] + body;
    assert QuoteIndex(s) == 0;
    assert s[1..] == body;
    QuoteIndexAll(body);
  }

  lemma ScanStepOpen(sb: string, tokens: seq<Token>, chunk: string, rest: string, text: string, found: seq<Token>)
    requires QuoteFree(chunk) && Adapted(text, found) == Adapt(chunk)
    ensures PrependResult(sb, tokens, ScanSql(chunk + ([Quote] + rest)))
         == PrependResult(sb + text, tokens + found, ScanSql([Quote] + rest))
  {
    var x := ScanSql([Quote] + rest);
    assert ScanSql(chunk + ([Quote] + rest)) == PrependResult(text, found, x) by {
      assert chunk + ([Quote] + rest) == chunk + [Quote] + rest;
      ScanOpenQuote(chunk, rest);
    }
    PrependResultAssoc(sb, tokens, text, found, x);
  }

  lemma ScanStepClose(sb: string, tokens: seq<Token>, chunk: string, rest: string)
    requires |chunk| > 0 && chunk[0] == Quote && QuoteFree(chunk[1..])
    ensures PrependResult(sb, tokens, ScanSql(chunk + ([Quote] + rest)))
         == PrependResult(sb + (chunk + [Quote]), tokens, ScanSql(rest))
  {
    var x := ScanSql(chunk + ([Quote] + rest));
    var y := ScanSql(rest);
    assert x == PrependResult(chunk + [Quote], [], y) by {
      CloseSplit(chunk, rest);
      ScanCloseQuote(chunk[1..], rest);
    }
    assert tokens + [] == tokens;
    PrependResultChain(PrependResult(sb + (chunk + [Quote]), tokens, y), sb, tokens, x,
                       chunk + [Quote], [], y, sb + (chunk + [Quote]), tokens);
  }

  lemma CloseSplit(chunk: string, rest: string)
    requires |chunk| > 0 && chunk[0] == Quote
    ensures chunk + ([Quote] + rest) == [Quote] + chunk[1..] + [Quote] + rest
    ensures [Quote] + chunk[1..] + [Quote] == chunk + [Quote]
  {
    assert chunk == [Quote] + chunk[1..];
  }

  lemma PrependResultEmpty(r: Result<Adapted, Failure>)
    ensures PrependResult([], [], r) == r
  {
    match r
    case Err(_) =>
    case Ok(a) =>
      assert [] + a.text == a.text;
      assert [] + a.tokens == a.tokens;
  }

  /** What the character loop knows about its pending chunk: outside a
      literal it holds no quote, inside one it is the opening quote followed
      by quote-free text. */
  predicate ChunkOk(chunk: string, inString: bool) {
    if inString then |chunk| > 0 && chunk[0] == Quote && QuoteFree(chunk[1..]) else QuoteFree(chunk)
  }

  /** One iteration of the character loop of `ExtractIndexAndSql.invoke`. */
  method ScanChar(sb: string, tokens: seq<Token>, chunk: string, inString: bool, c: char, ghost rest: string)
    returns (sb': string, tokens': seq<Token>, chunk': string, inString': bool)
    requires ChunkOk(chunk, inString)
    ensures ChunkOk(chunk', inString')
    ensures inString' == (inString != (c == Quote))
    ensures PrependResult(sb, tokens, ScanSql(chunk + ([c] + rest)))
         == PrependResult(sb', tokens', ScanSql(chunk' + rest))
  {
    sb', tokens', chunk', inString' := sb, tokens, chunk, inString;
    if c == Quote {
      inString' := !inString;
      if inString' {
        var text, found := AdaptForNamedParams(chunk);
        ScanStepOpen(sb, tokens, chunk, rest, text, found);
        sb' := sb + text;
        tokens' := tokens + found;
        chunk' := [Quote];
      } else {
        ScanStepClose(sb, tokens, chunk, rest);
        sb' := sb + (chunk + [Quote]);
        chunk' := [];
        assert chunk' + rest == rest;
      }
    } else {
      if inString {
        assert (chunk + [c])[1..] == chunk[1..] + [c];
      }
      assert chunk + ([c] + rest) == (chunk + [c]) + rest;
      chunk' := chunk + [c];
    }
  }

  /** The character loop of `ExtractIndexAndSql.invoke` (the branch that
      scans): it toggles the in-literal flag on every quote, rewrites each
      chunk outside literals and copies each literal. */
  method ExtractIndexAndSql(sql: string) returns (r: Result<Adapted, Failure>)
    ensures r == ScanSql(sql)
  {
    var sb: string := [];
    var tokens: seq<Token> := [];
    var chunk: string := [];
    var inString := false;
    var i := 0;
    assert chunk + sql[0..] == sql;
    PrependResultEmpty(ScanSql(sql));
    while i < |sql|
      invariant 0 <= i <= |sql|
      invariant ChunkOk(chunk, inString)
      invariant ScanSql(sql) == PrependResult(sb, tokens, ScanSql(chunk + sql[i..]))
    {
      SplitNext(chunk, sql, i);
      sb, tokens, chunk, inString := ScanChar(sb, tokens, chunk, inString, sql[i], sql[i + 1..]);
      i := i + 1;
    }
    assert chunk + sql[i..] == chunk;
    r := FinishScan(sb, tokens, chunk, inString);
  }

  lemma SplitNext(chunk: string, sql: string, i: nat)
    requires i < |sql|
    ensures chunk + sql[i..] == chunk + ([sql[i]] + sql[i + 1..])
  {
    assert sql[i..] == [sql[i]] + sql[i + 1..];
  }

  /** After the last character: a literal still open fails the scan,
      otherwise the pending chunk is rewritten. */
  method FinishScan(sb: string, tokens: seq<Token>, chunk: string, inString: bool) returns (r: Result<Adapted, Failure>)
    requires ChunkOk(chunk, inString)
    ensures r == PrependResult(sb, tokens, ScanSql(chunk))
  {
    if inString {
      assert chunk == [Quote] + chunk[1..];
      ScanOpenEnd(chunk[1..]);
      return Err(UnterminatedLiteral);
    }
    ScanNoQuote(chunk);
    var text, found := AdaptForNamedParams(chunk);
    r := Ok(Adapted(sb + text, tokens + found));
  }

  // ---------------------------------------------------------------------------
  // Properties of the scan

  lemma OddQuotesLiteral(x: string, body: string, y: string)
    requires QuoteFree(x) && QuoteFree(body)
    ensures OddQuotes(x + ([Quote] + body + [Quote]) + y) == OddQuotes(y)
  {
    var lit := [Quote] + body + [Quote];
    OddQuotesAppend(x + lit, y);
    OddQuotesAppend(x, lit);
    OddQuotesQuoteFree(x);
    OddQuotesAppend([Quote] + body, [Quote]);
    OddQuotesAppend([Quote], body);
    OddQuotesQuoteFree(body);
    assert [Quote][1..] == [];
  }

  lemma OddQuotesUnclosed(x: string, body: string)
    requires QuoteFree(x) && QuoteFree(body)
    ensures OddQuotes(x + [Quote] + body)
  {
    OddQuotesAppend(x + [Quote], body);
    OddQuotesAppend(x, [Quote]);
    OddQuotesQuoteFree(x);
    OddQuotesQuoteFree(body);
    assert [Quote][1..] == [];
  }

  /** The scan fails exactly when the SQL has an odd number of quotes. */
  lemma {:induction false} ScanFailsIffOddQuotes(s: string)
    ensures ScanSql(s).Err? <==> OddQuotes(s)
    decreases |s|
  {
    var q := QuoteIndex(s);
    if q == |s| {
      ScanNoLiteral(s);
      assert s[..q] == s;
      OddQuotesQuoteFree(s);
    } else {
      var rest := s[q + 1..];
      var c := QuoteIndex(rest);
      if c == |rest| {
        ScanUnclosedStep(s, q);
        assert rest[..c] == rest;
        assert s == s[..q] + [Quote] + rest;
        OddQuotesUnclosed(s[..q], rest);
      } else {
        SplitAtLiteral(s, q, c);
        ScanLiteralStep(s, q, c);
        ScanFailsIffOddQuotes(rest[c + 1..]);
        OddQuotesLiteral(s[..q], rest[..c], rest[c + 1..]);
      }
    }
  }

  /** The same in terms of the number of quotes. */
  lemma ScanFailsIffOddCount(s: string)
    ensures ScanSql(s).Err? <==> Count(s, Quote) % 2 == 1
  {
    ScanFailsIffOddQuotes(s);
    OddQuotesCount(s);
  }

  lemma {:induction false} RestoreSqlPlain(x: string, z: string, t1: seq<Token>, t2: seq<Token>)
    requires QuoteFree(x) && Count(x, '?') == |t1|
    ensures RestoreSql(x + z, t1 + t2, false) == Restore(x, t1) + RestoreSql(z, t2, false)
  {
    if |x| == 0 {
      assert x + z == z;
      assert t1 + t2 == t2;
    } else {
      assert (x + z)[1..] == x[1..] + z;
      assert x == [x[0]] + x[1..];
      CountAppend([x[0]], x[1..], '?');
      if x[0] == '?' {
        assert (t1 + t2)[1..] == t1[1..] + t2;
        RestoreSqlPlain(x[1..], z, t1[1..], t2);
      } else {
        RestoreSqlPlain(x[1..], z, t1, t2);
      }
    }
  }

  lemma {:induction false} RestoreSqlInLiteral(body: string, z: string, t: seq<Token>)
    requires QuoteFree(body)
    ensures RestoreSql(body + [Quote] + z, t, true) == body + [Quote] + RestoreSql(z, t, false)
  {
    if |body| == 0 {
      assert body + [Quote] + z == [Quote] + z;
      assert ([Quote] + z)[1..] == z;
    } else {
      assert (body + [Quote] + z)[1..] == body[1..] + [Quote] + z;
      RestoreSqlInLiteral(body[1..], z, t);
    }
  }

  lemma RestoreSqlLiteral(body: string, z: string, t: seq<Token>)
    requires QuoteFree(body)
    ensures RestoreSql([Quote] + body + [Quote] + z, t, false) == [Quote] + body + [Quote] + RestoreSql(z, t, false)
  {
    assert ([Quote] + body + [Quote] + z)[1..] == body + [Quote] + z;
    RestoreSqlInLiteral(body, z, t);
  }

  /** The round trip across one rewritten chunk followed by one literal. */
  lemma RestoreChunkLiteral(x: string, body: string, a: Adapted, tail: string)
    requires QuoteFree(x) && QuoteFree(body)
    requires RestoreSql(a.text, a.tokens, false) == tail
    ensures RestoreSql(Adapt(x).text + ([Quote] + body + [Quote]) + a.text, Adapt(x).tokens + a.tokens, false)
         == x + ([Quote] + body + [Quote]) + tail
  {
    var head := Adapt(x);
    var lit := [Quote] + body + [Quote];
    AdaptShape(x);
    AdaptRestores(x);
    AdaptQuoteFree(x);
    assert head.text + lit + a.text == head.text + (lit + a.text);
    RestoreSqlPlain(head.text, lit + a.text, head.tokens, a.tokens);
    assert lit + a.text == [Quote] + body + [Quote] + a.text;
    RestoreSqlLiteral(body, a.text, a.tokens);
    assert x + (lit + tail) == x + lit + tail;
  }

  /** The round trip for a chunk with no literal. */
  lemma RestoreChunk(x: string)
    requires QuoteFree(x)
    ensures RestoreSql(Adapt(x).text, Adapt(x).tokens, false) == x
  {
    var head := Adapt(x);
    AdaptShape(x);
    AdaptRestores(x);
    AdaptQuoteFree(x);
    RestoreSqlPlain(head.text, [], head.tokens, []);
    assert head.text + [] == head.text;
    assert head.tokens + [] == head.tokens;
  }

  /** Round trip: putting every recorded token back in place of its `?`
      (outside literals) gives back the original SQL; so literals are copied
      verbatim and nothing else changes. */
  lemma {:induction false} ScanRestores(s: string)
    requires ScanSql(s).Ok?
    ensures RestoreSql(ScanSql(s).value.text, ScanSql(s).value.tokens, false) == s
    decreases |s|
  {
    var q := QuoteIndex(s);
    if q == |s| {
      ScanNoLiteral(s);
      RestoreChunk(s);
    } else {
      var rest := s[q + 1..];
      var c := QuoteIndex(rest);
      SplitAtLiteral(s, q, c);
      ScanLiteralStep(s, q, c);
      ScanRestores(rest[c + 1..]);
      RestorePrepended(ScanSql(s), s[..q], rest[..c], ScanSql(rest[c + 1..]), rest[c + 1..]);
    }
  }

  /** `RestoreChunkLiteral` for a scan result. */
  lemma RestorePrepended(whole: Result<Adapted, Failure>, x: string, body: string,
                         inner: Result<Adapted, Failure>, tail: string)
    requires QuoteFree(x) && QuoteFree(body)
    requires inner.Ok? && RestoreSql(inner.value.text, inner.value.tokens, false) == tail
    requires whole == PrependResult(Adapt(x).text + ([Quote] + body + [Quote]), Adapt(x).tokens, inner)
    ensures whole.Ok?
    ensures RestoreSql(whole.value.text, whole.value.tokens, false) == x + ([Quote] + body + [Quote]) + tail
  {
    RestoreChunkLiteral(x, body, inner.value, tail);
  }

  /** The literals of a chunk followed by one literal. */
  lemma LiteralsStep(x: string, body: string, y: string)
    requires QuoteFree(x) && QuoteFree(body)
    ensures Literals(x + ([Quote] + body + [Quote]) + y) == [body] + Literals(y)
  {
    var s := x + ([Quote] + body + [Quote]) + y;
    assert s == x + [Quote] + (body + [Quote] + y);
    QuoteIndexAfter(x, body + [Quote] + y);
    var rest := s[|x| + 1..];
    assert rest == body + [Quote] + y;
    QuoteIndexAfter(body, y);
    assert rest[..|body|] == body;
    assert rest[|body| + 1..] == y;
  }

  /** Literals are copied verbatim and in order. */
  lemma {:induction false} ScanKeepsLiterals(s: string)
    requires ScanSql(s).Ok?
    ensures Literals(ScanSql(s).value.text) == Literals(s)
    decreases |s|
  {
    var q := QuoteIndex(s);
    AdaptQuoteFree(s[..q]);
    if q == |s| {
      ScanNoLiteral(s);
      QuoteIndexAll(Adapt(s).text);
    } else {
      var rest := s[q + 1..];
      var c := QuoteIndex(rest);
      SplitAtLiteral(s, q, c);
      ScanLiteralStep(s, q, c);
      var tail := rest[c + 1..];
      ScanKeepsLiterals(tail);
      LiteralsStep(s[..q], rest[..c], tail);
      LiteralsStep(Adapt(s[..q]).text, rest[..c], ScanSql(tail).value.text);
    }
  }

  lemma UnquotedLiteral(x: string, body: string, y: string)
    requires QuoteFree(x) && QuoteFree(body)
    ensures Unquoted(x + ([Quote] + body + [Quote]) + y, false) == x + Unquoted(y, false)
  {
    var lit := [Quote] + body + [Quote];
    UnquotedAppend(x, lit + y, false);
    OddQuotesQuoteFree(x);
    UnquotedQuoteFree(x, false);
    assert x + (lit + y) == x + lit + y;
    UnquotedSkipLiteral(body, y);
  }

  lemma UnquotedSkipLiteral(body: string, y: string)
    requires QuoteFree(body)
    ensures Unquoted([Quote] + body + [Quote] + y, false) == Unquoted(y, false)
  {
    assert ([Quote] + body + [Quote] + y)[1..] == body + ([Quote] + y);
    UnquotedAppend(body, [Quote] + y, true);
    UnquotedQuoteFree(body, true);
    OddQuotesQuoteFree(body);
    assert ([Quote] + y)[1..] == y;
  }

  /** The outside-literal view of a rewrite: no `:` and one `?` per token. */
  predicate ShapeOk(text: string, tokens: seq<Token>, source: string) {
    && Count(Unquoted(text, false), ':') == 0
    && Count(Unquoted(text, false), '?') == |tokens|
    && |tokens| == Markers(Unquoted(source, false))
  }

  lemma ShapeChunk(x: string)
    requires QuoteFree(x)
    ensures ShapeOk(Adapt(x).text, Adapt(x).tokens, x)
  {
    AdaptShape(x);
    AdaptQuoteFree(x);
    UnquotedQuoteFree(x, false);
    UnquotedQuoteFree(Adapt(x).text, false);
  }

  lemma ShapeChunkLiteral(x: string, body: string, a: Adapted, tail: string)
    requires QuoteFree(x) && QuoteFree(body)
    requires ShapeOk(a.text, a.tokens, tail)
    ensures ShapeOk(Adapt(x).text + ([Quote] + body + [Quote]) + a.text, Adapt(x).tokens + a.tokens,
                    x + ([Quote] + body + [Quote]) + tail)
  {
    var head := Adapt(x);
    AdaptShape(x);
    AdaptQuoteFree(x);
    UnquotedLiteral(head.text, body, a.text);
    UnquotedLiteral(x, body, tail);
    var ut := Unquoted(a.text, false);
    var us := Unquoted(tail, false);
    CountAppend(head.text, ut, ':');
    CountAppend(head.text, ut, '?');
    CountAppend(x, us, ':');
    CountAppend(x, us, '?');
  }

  /** Outside literals the rewrite holds no `:` and exactly one `?` per
      binding, and there is one binding per `:` or `?` outside the literals of
      the input (so literals contribute no bindings). */
  lemma {:induction false} ScanShape(s: string)
    requires ScanSql(s).Ok?
    ensures Count(Unquoted(ScanSql(s).value.text, false), ':') == 0
    ensures Count(Unquoted(ScanSql(s).value.text, false), '?') == |ScanSql(s).value.tokens|
    ensures |ScanSql(s).value.tokens| == Markers(Unquoted(s, false))
    decreases |s|
  {
    var q := QuoteIndex(s);
    if q == |s| {
      ScanNoLiteral(s);
      ShapeChunk(s);
    } else {
      var rest := s[q + 1..];
      var c := QuoteIndex(rest);
      SplitAtLiteral(s, q, c);
      ScanLiteralStep(s, q, c);
      var tail := rest[c + 1..];
      ScanShape(tail);
      ShapeChunkLiteral(s[..q], rest[..c], ScanSql(tail).value, tail);
    }
  }

  predicate AllBare(ts: seq<Token>) {
    forall k :: 0 <= k < |ts| ==> ts[k] == Bare
  }

  lemma AllBareAppend(a: seq<Token>, b: seq<Token>)
    ensures AllBare(a + b) <==> AllBare(a) && AllBare(b)
  {
    if AllBare(a) && AllBare(b) {
      forall k | 0 <= k < |a + b|
        ensures (a + b)[k] == Bare
      {
        if k >= |a| {
          assert (a + b)[k] == b[k - |a|];
        }
      }
    }
    if AllBare(a + b) {
      forall k | 0 <= k < |a|
        ensures a[k] == Bare
      {
        assert (a + b)[k] == a[k];
      }
      forall k | 0 <= k < |b|
        ensures b[k] == Bare
      {
        assert (a + b)[|a| + k] == b[k];
      }
    }
  }

  /** The rewrite is never longer than the input. */
  lemma {:induction false} ScanLength(s: string)
    requires ScanSql(s).Ok?
    ensures |ScanSql(s).value.text| <= |s|
    decreases |s|
  {
    var q := QuoteIndex(s);
    if q == |s| {
      ScanNoLiteral(s);
      AdaptShape(s);
    } else {
      var rest := s[q + 1..];
      var c := QuoteIndex(rest);
      SplitAtLiteral(s, q, c);
      ScanLiteralStep(s, q, c);
      ScanLength(rest[c + 1..]);
      AdaptShape(s[..q]);
    }
  }

  /** Two concatenations whose outer parts can only shrink agree exactly
      when the parts agree. */
  lemma EqualParts(h: string, x: string, lit: string, a: string, tail: string)
    requires |h| <= |x| && |a| <= |tail|
    ensures h + lit + a == x + lit + tail <==> h == x && a == tail
  {
    if h + lit + a == x + lit + tail {
      assert |h| == |x|;
      assert h == (h + lit + a)[..|h|];
      assert x == (x + lit + tail)[..|x|];
      assert a == (h + lit + a)[|h| + |lit|..];
      assert tail == (x + lit + tail)[|x| + |lit|..];
    }
  }

  lemma IdentityStep(x: string, body: string, a: Adapted, tail: string)
    requires QuoteFree(x)
    requires |a.text| <= |tail|
    requires a.text == tail <==> AllBare(a.tokens)
    ensures Adapt(x).text + ([Quote] + body + [Quote]) + a.text == x + ([Quote] + body + [Quote]) + tail
        <==> AllBare(Adapt(x).tokens + a.tokens)
  {
    AdaptShape(x);
    AdaptIdentity(x);
    AllBareAppend(Adapt(x).tokens, a.tokens);
    EqualParts(Adapt(x).text, x, [Quote] + body + [Quote], a.text, tail);
  }

  /** The scan leaves the SQL unchanged exactly when every placeholder it
      found is a plain `?` with nothing after it. */
  lemma {:induction false} ScanIdentity(s: string)
    requires ScanSql(s).Ok?
    ensures ScanSql(s).value.text == s <==> AllBare(ScanSql(s).value.tokens)
    decreases |s|
  {
    var q := QuoteIndex(s);
    if q == |s| {
      ScanNoLiteral(s);
      AdaptIdentity(s);
    } else {
      var rest := s[q + 1..];
      var c := QuoteIndex(rest);
      SplitAtLiteral(s, q, c);
      ScanLiteralStep(s, q, c);
      var tail := rest[c + 1..];
      ScanIdentity(tail);
      ScanLength(tail);
      IdentityStep(s[..q], rest[..c], ScanSql(tail).value, tail);
    }
  }

  // ---------------------------------------------------------------------------
  // Worked examples of the pattern's edge cases

  /** `?0.x` is one match binding index -1 and property `x`. */
  lemma QuirkZeroDigit()
    ensures Adapt("?0.x") == Adapted("?", [Token('?', Some('0'), true, "x")])
    ensures BindingOf(Token('?', Some('0'), true, "x")) == Binding(-1, "x")
  {
    var s := "?0.x";
    assert ParseToken(s) == Token('?', Some('0'), true, "x") by {
      assert s[3..] == "x";
      assert WordRun("x") == 1 by { assert "x"[1..] == []; }
    }
    assert s[4..] == [];
  }

  lemma ParseTwoDigits()
    ensures ParseToken("?12.x") == Token('?', Some('1'), false, "2")
  {
    var u := "?12.x";
    assert u[2..] == "2.x";
    assert WordRun("2.x") == 1 by { assert "2.x"[1..] == ".x"; }
  }

  lemma AdaptDotX()
    ensures Adapt(".x") == Adapted(".x", [])
  {
    assert ".x"[1..] == "x";
    assert "x"[1..] == [];
  }

  /** `?12.x` matches `?12` only, binding index 0 and property `2`; `.x`
      stays as text. */
  lemma QuirkTwoDigits()
    ensures Adapt("?12.x") == Adapted("?.x", [Token('?', Some('1'), false, "2")])
    ensures BindingOf(Token('?', Some('1'), false, "2")) == Binding(0, "2")
  {
    ParseTwoDigits();
    AdaptDotX();
    assert "?12.x"[3..] == ".x";
  }

  /** A plain `?` binds the whole first argument. */
  lemma QuirkBare()
    ensures Adapt("?") == Adapted("?", [Bare])
    ensures BindingOf(Bare) == Binding(0, ThisProp)
  {
    assert ParseToken("?") == Bare;
    assert "?"[1..] == [];
  }

  lemma AdaptColonName()
    ensures Adapt(":a.b").text == "?.b"
  {
    var s := ":a.b";
    assert ParseToken(s) == Token(':', None, false, "a") by {
      assert s[1..] == "a.b";
      assert WordRun("a.b") == 1 by { assert "a.b"[1..] == ".b"; }
    }
    assert s[2..] == ".b";
    assert Adapt(".b") == Adapted(".b", []) by {
      assert ".b"[1..] == "b";
      assert "b"[1..] == [];
    }
  }

  lemma AdaptDotName()
    ensures Adapt("?.b").text == "?"
  {
    var u := "?.b";
    assert ParseToken(u) == Token('?', None, true, "b") by {
      assert u[2..] == "b";
      assert WordRun("b") == 1 by { assert "b"[1..] == []; }
    }
    assert u[3..] == [];
  }

  /** Rescanning a rewrite is not always a no-op: `:a.b` becomes `?.b`,
      which a second scan turns into `?`. */
  lemma RescanNotIdempotent()
    ensures Adapt(":a.b").text == "?.b"
    ensures Adapt(Adapt(":a.b").text).text == "?"
  {
    AdaptColonName();
    AdaptDotName();
  }
}

=== FILE: new_instance.dfy ===
/** The argument checks of `Sql.newInstance(Map)`: which keys must, may and
    must not appear together, and how the connection is then requested. The
    driver loading, the connection itself and the reflective constructor
    call on the remaining arguments are outside the model. */
module NewInstance {
  import opened Wrappers

  /** An argument value, as far as the checks look at it. */
  datatype Arg = NullArg | Str(s: string) | Props(id: nat) | OtherArg(id: nat)

  /** How `DriverManager.getConnection` is called. */
  datatype Mode =
    | UrlOnly                                       // getConnection(url)
    | WithProperties(props: Arg)                    // getConnection(url, new Properties(props))
    | WithUser(user: Option<Arg>, password: Option<Arg>) // getConnection(url, user, password), null passed as null

  /** What the checks hand on: the URL, the driver class to load if any,
      the connection mode, and the arguments left for the constructor. */
  datatype Connect = Connect(url: Arg, driver: Option<Arg>, mode: Mode, rest: map<string, Arg>)

  /** The keys the checks consume. */
  const Consumed: set<string> := {"url", "driverClassName", "driver", "properties", "user", "password"}

  /** `map.remove(key)`: the value, or null when absent. */
  function Get(args: map<string, Arg>, key: string): Arg {
    if key in args then args[key] else NullArg
  }

  /** A non-null `properties` argument was given. */
  predicate HasProps(args: map<string, Arg>) {
    Get(args, "properties") != NullArg
  }

  /** `newInstance(Map)` up to the connection request. */
  function CheckArgs(args: map<string, Arg>): (r: Result<Connect, Failure>)
    ensures "url" !in args ==> r == Err(InvalidArgument("Argument 'url' is required"))
    ensures "url" in args && args["url"] == NullArg ==> r == Err(InvalidArgument("Argument 'url' must not be null"))
    ensures r.Ok? <==> && "url" in args && args["url"] != NullArg
                       && !("driverClassName" in args && "driver" in args)
                       && (HasProps(args) ==> Get(args, "properties").Props?)
                       && (HasProps(args) ==> "user" !in args && "password" !in args)
                       && (("user" in args) <==> ("password" in args))
    ensures r.Ok? ==> r.value.url == args["url"]
    ensures r.Ok? ==> r.value.rest.Keys == args.Keys - Consumed
    ensures r.Ok? ==> forall k :: k in r.value.rest ==> r.value.rest[k] == args[k]
    ensures r.Ok? ==> (r.value.mode.WithProperties? <==> HasProps(args))
    ensures r.Ok? ==> (r.value.mode.WithUser? <==> "user" in args)
    ensures r.Ok? && r.value.mode.WithUser? ==> r.value.mode == WithUser(Some(args["user"]), Some(args["password"]))
    ensures r.Ok? ==> (r.value.driver.Some? <==> Get(args, "driverClassName") != NullArg || Get(args, "driver") != NullArg)
  {
    if "url" !in args then Err(InvalidArgument("Argument 'url' is required"))
    else if args["url"] == NullArg then Err(InvalidArgument("Argument 'url' must not be null"))
    else if "driverClassName" in args && "driver" in args then
      Err(InvalidArgument("Only one of 'driverClassName' and 'driver' should be provided"))
    else
      var sqlArgs := args;
      var driverClassName := Get(sqlArgs, "driverClassName");
      var sqlArgs := sqlArgs - {"driverClassName"};
      var driverClassName := if driverClassName == NullArg then Get(sqlArgs, "driver") else driverClassName;
      var sqlArgs := if Get(args, "driverClassName") == NullArg then sqlArgs - {"driver"} else sqlArgs;
      var props := Get(sqlArgs, "properties");
      var sqlArgs := sqlArgs - {"properties"};
      if props != NullArg && !props.Props? then Err(NotProperties)
      else if props != NullArg && "user" in sqlArgs then
        Err(InvalidArgument("Only one of 'properties' and 'user' should be supplied"))
      else if props != NullArg && "password" in sqlArgs then
        Err(InvalidArgument("Only one of 'properties' and 'password' should be supplied"))
      else if ("user" in sqlArgs) != ("password" in sqlArgs) then
        Err(InvalidArgument("Found one but not both of 'user' and 'password'"))
      else
        var url := sqlArgs["url"];
        var sqlArgs := sqlArgs - {"url"};
        var driver := if driverClassName == NullArg then None else Some(driverClassName);
        if props != NullArg then Ok(Connect(url, driver, WithProperties(props), sqlArgs))
        else if "user" in sqlArgs then
          Ok(Connect(url, driver, WithUser(Some(sqlArgs["user"]), Some(sqlArgs["password"])),
                     sqlArgs - {"user", "password"}))
        else Ok(Connect(url, driver, UrlOnly, sqlArgs))
  }

  /** A URL alone is enough, and unknown keys pass through to the
      constructor. */
  lemma UrlOnlyExample()
    ensures CheckArgs(map["url" := Str("u"), "cacheStatements" := OtherArg(1)]).Ok?
    ensures CheckArgs(map["url" := Str("u"), "cacheStatements" := OtherArg(1)]).value.rest == map["cacheStatements" := OtherArg(1)]
    ensures CheckArgs(map["url" := Str("u"), "cacheStatements" := OtherArg(1)]).value.mode == UrlOnly
  {
    var args := map["url" := Str("u"), "cacheStatements" := OtherArg(1)];
    assert !HasProps(args);
    assert args.Keys - Consumed == {"cacheStatements"};
  }

  /** A user without a password is rejected, and so is a password next to
      properties. */
  lemma RejectedExamples()
    ensures CheckArgs(map["url" := Str("u"), "user" := Str("sa")]).Err?
    ensures CheckArgs(map["url" := Str("u"), "properties" := Props(1), "password" := Str("p")]).Err?
  {
  }

  /** A null `properties` counts as absent, and a null password is passed on
      as null. */
  lemma NullPropertiesExample()
    ensures CheckArgs(map["url" := Str("u"), "properties" := NullArg, "user" := Str("sa"), "password" := NullArg]).Ok?
    ensures CheckArgs(map["url" := Str("u"), "properties" := NullArg, "user" := Str("sa"), "password" := NullArg]).value.mode
            == WithUser(Some(Str("sa")), Some(NullArg))
  {
    var args := map["url" := Str("u"), "properties" := NullArg, "user" := Str("sa"), "password" := NullArg];
    assert !HasProps(args);
  }
}

=== FILE: paging.dfy ===
/** Paging in `groovy.sql.Sql`: `moveCursor` and the row loop shared by
    `asList` and `eachRow`, over a result set modelled as a sequence of rows
    with a JDBC cursor. */
module Paging {
  import opened Wrappers

  /** A result set over `rows`. The cursor `pos` is 0 before the first row,
      k when on row k (1-based), and `|rows| + 1` after the last row.
      `forwardOnly` is `getType() == TYPE_FORWARD_ONLY`. */
  datatype ResultSet<R> = ResultSet(rows: seq<R>, pos: nat, forwardOnly: bool)

  /** `ResultSet.next()`: moves one row forward; past the last row the cursor
      stays after the last row and the answer is false. */
  function Next<R>(rs: ResultSet<R>): (r: (ResultSet<R>, bool))
    ensures r.0.rows == rs.rows && r.0.forwardOnly == rs.forwardOnly
    ensures r.1 <==> rs.pos < |rs.rows|
    ensures r.1 ==> r.0.pos == rs.pos + 1
    ensures !r.1 ==> r.0.pos == |rs.rows| + 1
  {
    if rs.pos < |rs.rows| then (rs.(pos := rs.pos + 1), true)
    else (rs.(pos := |rs.rows| + 1), false)
  }

  /** `ResultSet.absolute(row)`: a positive row counts from the start, a
      negative one from the end; a row outside the set leaves the cursor
      after the last (or before the first) row and answers false. */
  function Absolute<R>(rs: ResultSet<R>, row: int): (r: (ResultSet<R>, bool))
    ensures r.0.rows == rs.rows && r.0.forwardOnly == rs.forwardOnly
    ensures r.1 ==> 1 <= r.0.pos <= |rs.rows|
    ensures row > 0 ==> (r.1 <==> row <= |rs.rows|)
  {
    if row > 0 then
      if row <= |rs.rows| then (rs.(pos := row), true) else (rs.(pos := |rs.rows| + 1), false)
    else if row == 0 then (rs.(pos := 0), false)
    else if -row <= |rs.rows| then (rs.(pos := |rs.rows| + 1 + row), true)
    else (rs.(pos := 0), false)
  }

  /** `n` calls of `next()`, stopping at the first that answers false. */
  function Advance<R>(rs: ResultSet<R>, n: nat): (ResultSet<R>, bool)
    decreases n
  {
    if n == 0 then (rs, true)
    else
      var (r1, ok) := Next(rs);
      if !ok then (r1, false) else Advance(r1, n - 1)
  }

  /** Number of rows `moveCursor` skips: `offset - 1`, or none for an offset
      of 1 or less. */
  function Skip(offset: int): nat {
    if offset > 1 then offset - 1 else 0
  }

  /** Forward-only positioning: repeated `next()`. */
  function ForwardMove<R>(rs: ResultSet<R>, offset: int): (ResultSet<R>, bool) {
    Advance(rs, Skip(offset))
  }

  /** Scrollable positioning: one `absolute(offset - 1)`. */
  function ScrollMove<R>(rs: ResultSet<R>, offset: int): (ResultSet<R>, bool) {
    if offset > 1 then Absolute(rs, offset - 1) else (rs, true)
  }

  /** Where `n` calls of `next()` leave the cursor. */
  lemma {:induction false} AdvanceClosedForm<R>(rs: ResultSet<R>, n: nat)
    requires n > 0
    ensures Advance(rs, n).1 <==> rs.pos + n <= |rs.rows|
    ensures Advance(rs, n).0 == rs.(pos := if rs.pos + n <= |rs.rows| then rs.pos + n else |rs.rows| + 1)
    decreases n
  {
    var (r1, ok) := Next(rs);
    if ok && n > 1 {
      AdvanceClosedForm(r1, n - 1);
    }
  }

  /** On a fresh result set both positioning strategies land on the same row
      and agree on whether there is one: on row `offset - 1` when the set
      has that many rows, after the last row otherwise. */
  lemma StrategiesAgree<R>(rows: seq<R>, offset: int)
    ensures ForwardMove(ResultSet(rows, 0, true), offset).1 == ScrollMove(ResultSet(rows, 0, false), offset).1
    ensures ForwardMove(ResultSet(rows, 0, true), offset).0.pos == ScrollMove(ResultSet(rows, 0, false), offset).0.pos
    ensures ForwardMove(ResultSet(rows, 0, true), offset).1 <==> Skip(offset) <= |rows|
    ensures ForwardMove(ResultSet(rows, 0, true), offset).1 ==> ForwardMove(ResultSet(rows, 0, true), offset).0.pos == Skip(offset)
  {
    if offset > 1 {
      AdvanceClosedForm(ResultSet(rows, 0, true), offset - 1);
    }
  }

  /** `moveCursor`: the forward-only branch is the Java loop
      `while (i++ < offset && cursorAtRow) cursorAtRow = results.next();`. */
  method MoveCursor<R>(rs: ResultSet<R>, offset: int) returns (rs': ResultSet<R>, atRow: bool)
    ensures rs.forwardOnly ==> (rs', atRow) == ForwardMove(rs, offset)
    ensures !rs.forwardOnly ==> (rs', atRow) == ScrollMove(rs, offset)
    ensures offset <= 1 ==> rs' == rs && atRow
    ensures rs'.rows == rs.rows && rs'.forwardOnly == rs.forwardOnly
  {
    rs' := rs;
    atRow := true;
    if rs.forwardOnly {
      var i := 1;
      while i < offset && atRow
        invariant 1 <= i && (offset > 1 ==> i <= offset) && (offset <= 1 ==> i == 1)
        invariant rs'.rows == rs.rows && rs'.forwardOnly == rs.forwardOnly
        invariant atRow ==> Advance(rs, Skip(offset)) == Advance(rs', Skip(offset) - (i - 1))
        invariant !atRow ==> Advance(rs, Skip(offset)) == (rs', false)
        decreases offset - i
      {
        i := i + 1;
        rs', atRow := Next(rs').0, Next(rs').1;
      }
    } else if offset > 1 {
      rs', atRow := Absolute(rs, offset - 1).0, Absolute(rs, offset - 1).1;
    }
  }

  /** The rows `asList` returns and `eachRow` visits: none (`null`) when the
      offset lies beyond the row after the last one, otherwise the rows from
      `offset` on, at most `maxRows` of them when `maxRows` is positive. */
  function Window<R>(rows: seq<R>, offset: int, maxRows: int): (r: Option<seq<R>>)
    ensures r.None? <==> Skip(offset) > |rows|
    ensures r.Some? ==> Skip(offset) + |r.value| <= |rows|
    ensures r.Some? ==> forall k :: 0 <= k < |r.value| ==> r.value[k] == rows[Skip(offset) + k]
    ensures r.Some? && maxRows > 0 ==> |r.value| == if Skip(offset) + maxRows < |rows| then maxRows else |rows| - Skip(offset)
    ensures r.Some? && maxRows <= 0 ==> |r.value| == |rows| - Skip(offset)
  {
    var start := Skip(offset);
    if start > |rows| then None
    else
      var end := if maxRows > 0 && start + maxRows < |rows| then start + maxRows else |rows|;
      Some(rows[start..end])
  }

  /** `moveCursor` followed by the loop
      `while (rs.next() && (maxRows <= 0 || i++ < maxRows))` over the result
      set fresh from the driver, as `asList` and `eachRow` run it. */
  method RowLoop<R>(rows: seq<R>, forwardOnly: bool, offset: int, maxRows: int) returns (r: Option<seq<R>>)
    ensures r == Window(rows, offset, maxRows)
  {
    var c, atRow := MoveCursor(ResultSet(rows, 0, forwardOnly), offset);
    StrategiesAgree(rows, offset);
    if !atRow {
      return None;
    }
    var start := c.pos;
    assert start == Skip(offset) <= |rows|;
    var results: seq<R> := [];
    var i := 0;
    while true
      invariant c.rows == rows && start <= c.pos <= |rows|
      invariant results == rows[start..c.pos]
      invariant maxRows > 0 ==> i == |results| <= maxRows
      decreases |rows| - c.pos
    {
      var next, has := Next(c).0, Next(c).1;
      if !has {
        return Some(results);
      }
      if maxRows > 0 {
        if !(i < maxRows) {
          return Some(results);
        }
        i := i + 1;
      }
      results := results + [rows[next.pos - 1]];
      c := next;
    }
  }

  /** `asList(sql, rs, offset, maxRows, metaClosure)`: `null` when the cursor
      cannot be placed, otherwise the rows read. */
  method AsList<R>(rows: seq<R>, forwardOnly: bool, offset: int, maxRows: int) returns (r: Option<seq<R>>)
    ensures r.None? <==> offset - 1 > |rows|
    ensures r.Some? ==> Skip(offset) + |r.value| <= |rows| && r.value == rows[Skip(offset)..Skip(offset) + |r.value|]
    ensures r.Some? && maxRows > 0 ==> |r.value| == if Skip(offset) + maxRows < |rows| then maxRows else |rows| - Skip(offset)
    ensures r.Some? && maxRows <= 0 ==> |r.value| == |rows| - Skip(offset)
  {
    r := RowLoop(rows, forwardOnly, offset, maxRows);
  }

  /** `eachRow(sql, metaClosure, offset, maxRows, rowClosure)`: the rows
      handed to the row closure, in order; none when the cursor cannot be
      placed. */
  method EachRow<R>(rows: seq<R>, forwardOnly: bool, offset: int, maxRows: int) returns (visited: seq<R>)
    ensures offset - 1 > |rows| ==> visited == []
    ensures offset - 1 <= |rows| ==> Window(rows, offset, maxRows) == Some(visited)
    ensures forall k :: 0 <= k < |visited| ==> visited[k] == rows[Skip(offset) + k]
  {
    var r := RowLoop(rows, forwardOnly, offset, maxRows);
    visited := if r.Some? then r.value else [];
  }

  /** Offset 3 and at most 2 rows over five rows read rows 3 and 4; an offset
      one past the last row reads nothing, and one further answers `null`. */
  lemma WindowExample()
    ensures Window([10, 20, 30, 40, 50], 3, 2) == Some([30, 40])
    ensures Window([10, 20, 30, 40, 50], 6, 0) == Some([])
    ensures Window([10, 20, 30, 40, 50], 7, 0) == None
    ensures Window([10, 20, 30, 40, 50], 0, 0) == Some([10, 20, 30, 40, 50])
  {
    var rows := [10, 20, 30, 40, 50];
    assert rows[2..4] == [30, 40];
    assert rows[5..5] == [];
    assert rows[0..5] == rows;
  }
}

=== FILE: parameters.dfy ===
/** Binding positional values to a JDBC statement (`setObject`,
    `setParameters`) and collecting the out parameters after a stored
    procedure call (the loop in `call(sql, params, closure)`). The driver
    calls are recorded as actions. */
module Parameters {
  import opened Wrappers
  import opened Values

  /** One call on the statement, at a 1-based parameter position. */
  datatype BindAction =
    | SetNull(pos: nat, sqlType: SqlType)                   // setNull(i, type)
    | SetTyped(pos: nat, value: Value, sqlType: SqlType)    // setObject(i, value, type)
    | SetPlain(pos: nat, value: Value)                      // setObject(i, value)
    | RegisterOut(pos: nat, sqlType: SqlType)               // registerOutParameter(i, type)

  /** The calls made and the exception that ended the binding, if any. */
  datatype Bound = Bound(actions: seq<BindAction>, failure: Option<Failure>)

  /** `setObject(statement, i, value)` on a statement that is a
      `CallableStatement` iff `callable`. An in parameter is set with its
      type (`setNull` for a null value); an out parameter is registered, and
      on a plain prepared statement that fails after any in part was set. */
  function SetObject(callable: bool, i: nat, value: Value): (r: Bound)
    ensures r.failure.Some? <==> IsOut(value) && !callable
    ensures r.failure.Some? ==> r.failure.value == CannotRegisterOutParameter(i)
    ensures forall a :: a in r.actions ==> a.pos == i
    ensures |r.actions| == (if IsIn(value) then 1 else 0) + (if IsOut(value) && callable then 1 else 0)
                           + (if IsIn(value) || IsOut(value) then 0 else 1)
    ensures IsIn(value) ==> r.actions[0] == (if value.inner == Null then SetNull(i, value.sqlType)
                                             else SetTyped(i, value.inner, value.sqlType))
    ensures IsOut(value) && callable ==> r.actions[|r.actions| - 1] == RegisterOut(i, value.sqlType)
    ensures !IsIn(value) && !IsOut(value) ==> r.actions == [SetPlain(i, value)]
  {
    if IsIn(value) || IsOut(value) then
      var setIn := if IsIn(value) then
                     [if value.inner == Null then SetNull(i, value.sqlType) else SetTyped(i, value.inner, value.sqlType)]
                   else [];
      if IsOut(value) then
        if callable then Bound(setIn + [RegisterOut(i, value.sqlType)], None)
        else Bound(setIn, Some(CannotRegisterOutParameter(i)))
      else Bound(setIn, None)
    else Bound([SetPlain(i, value)], None)
  }

  /** The calls `setObject` makes for the first `k` values, at positions
      1 to `k`, when none of them fails. */
  function ActionsUpTo(callable: bool, params: seq<Value>, k: nat): seq<BindAction>
    requires k <= |params|
  {
    if k == 0 then [] else ActionsUpTo(callable, params, k - 1) + SetObject(callable, k, params[k - 1]).actions
  }

  /** `setParameters(params, statement)`: `setObject` at positions 1, 2, ...
      in order, stopping at the first out parameter on a statement that is
      not callable. */
  method SetParameters(callable: bool, params: seq<Value>) returns (r: Bound)
    ensures r.failure.None? <==> callable || forall k :: 0 <= k < |params| ==> !IsOut(params[k])
    ensures r.failure.None? ==> r.actions == ActionsUpTo(callable, params, |params|)
    ensures r.failure.Some? ==> exists k :: && 0 <= k < |params| && IsOut(params[k])
                                            && (forall j :: 0 <= j < k ==> !IsOut(params[j]))
                                            && r.failure == Some(CannotRegisterOutParameter(k + 1))
                                            && r.actions == ActionsUpTo(callable, params, k) + SetObject(callable, k + 1, params[k]).actions
  {
    var actions: seq<BindAction> := [];
    var k := 0;
    while k < |params|
      invariant 0 <= k <= |params|
      invariant actions == ActionsUpTo(callable, params, k)
      invariant callable || forall j :: 0 <= j < k ==> !IsOut(params[j])
    {
      var b := SetObject(callable, k + 1, params[k]);
      if b.failure.Some? {
        return Bound(actions + b.actions, b.failure);
      }
      actions := actions + b.actions;
      k := k + 1;
    }
    return Bound(actions, None);
  }

  /** What the driver returns for an out parameter: a value, or a cursor. */
  datatype DriverValue = Plain(v: Value) | DriverCursor(rs: nat)

  /** One entry of the array handed to the closure of `call`. */
  datatype OutResult =
    | Scalar(v: Value)        // getObject(i) was not a result set
    | CallCursor(index: nat)  // a ResultSetOutParameter: CallResultSet over the 0-based index
    | Cursor(rs: nat)         // getObject(i) was a result set, wrapped

  predicate IsCursor(o: OutResult) {
    o.CallCursor? || o.Cursor?
  }

  /** The result for the out parameter `value` at 0-based index `indx`;
      `fetch(i)` is `statement.getObject(i)` after the call. */
  function OutResultAt(value: Value, indx: nat, fetch: nat -> DriverValue): OutResult
    requires IsOut(value)
  {
    if value.ResultSetOut? then CallCursor(indx)
    else match fetch(indx + 1)
      case Plain(v) => Scalar(v)
      case DriverCursor(rs) => Cursor(rs)
  }

  /** The 0-based indices of the out parameters among the first `k`, in
      increasing order. */
  function OutPositions(params: seq<Value>, k: nat): (r: seq<nat>)
    requires k <= |params|
    ensures forall j :: 0 <= j < |r| ==> r[j] < k && IsOut(params[r[j]])
    ensures forall j, j' :: 0 <= j < j' < |r| ==> r[j] < r[j']
    ensures forall i :: 0 <= i < k && IsOut(params[i]) ==> i in r
  {
    if k == 0 then []
    else OutPositions(params, k - 1) + (if IsOut(params[k - 1]) then [k - 1] else [])
  }

  /** The result sets among the results: the resources closed afterwards. */
  function Cursors(results: seq<OutResult>): (r: seq<OutResult>)
    ensures forall o :: o in r <==> o in results && IsCursor(o)
  {
    if |results| == 0 then []
    else Cursors(results[..|results| - 1])
         + (if IsCursor(results[|results| - 1]) then [results[|results| - 1]] else [])
  }

  /** The results for the out parameters among the first `k`. */
  function OutResults(params: seq<Value>, fetch: nat -> DriverValue, k: nat): seq<OutResult>
    requires k <= |params|
  {
    if k == 0 then []
    else OutResults(params, fetch, k - 1)
         + (if IsOut(params[k - 1]) then [OutResultAt(params[k - 1], k - 1, fetch)] else [])
  }

  /** The j-th result belongs to the j-th out parameter. */
  lemma {:induction false} OutResultsPositions(params: seq<Value>, fetch: nat -> DriverValue, k: nat)
    requires k <= |params|
    ensures |OutResults(params, fetch, k)| == |OutPositions(params, k)|
    ensures forall j :: 0 <= j < |OutResults(params, fetch, k)| ==>
              OutResults(params, fetch, k)[j] == OutResultAt(params[OutPositions(params, k)[j]], OutPositions(params, k)[j], fetch)
  {
    if k > 0 {
      OutResultsPositions(params, fetch, k - 1);
    }
  }

  /** The loop of `call(sql, params, closure)` after `execute()`: one result
      per out parameter, in parameter order, and the result sets among them
      kept for closing. */
  method CollectOutResults(params: seq<Value>, fetch: nat -> DriverValue) returns (results: seq<OutResult>, resources: seq<OutResult>)
    ensures |results| == |OutPositions(params, |params|)|
    ensures forall j :: 0 <= j < |results| ==>
              results[j] == OutResultAt(params[OutPositions(params, |params|)[j]], OutPositions(params, |params|)[j], fetch)
    ensures resources == Cursors(results)
  {
    results := [];
    resources := [];
    var indx := 0;
    while indx < |params|
      invariant 0 <= indx <= |params|
      invariant results == OutResults(params, fetch, indx)
      invariant resources == Cursors(results)
    {
      var value := params[indx];
      if IsOut(value) {
        var o := OutResultAt(value, indx, fetch);
        assert (results + [o])[..|results|] == results;
        results := results + [o];
        if IsCursor(o) {
          resources := resources + [o];
        }
      }
      indx := indx + 1;
    }
    OutResultsPositions(params, fetch, |params|);
  }

  /** Number of out registrations among the calls. */
  function Registrations(actions: seq<BindAction>): nat {
    if |actions| == 0 then 0
    else Registrations(actions[..|actions| - 1]) + (if actions[|actions| - 1].RegisterOut? then 1 else 0)
  }

  lemma {:induction false} RegistrationsAppend(a: seq<BindAction>, b: seq<BindAction>)
    ensures Registrations(a + b) == Registrations(a) + Registrations(b)
    decreases |b|
  {
    if |b| == 0 {
      assert a + b == a;
    } else {
      assert (a + b)[..|a + b| - 1] == a + b[..|b| - 1];
      RegistrationsAppend(a, b[..|b| - 1]);
    }
  }

  /** `setObject` on a callable statement registers a value exactly when it
      is an out parameter. */
  lemma SetObjectRegisters(i: nat, value: Value)
    ensures Registrations(SetObject(true, i, value).actions) == if IsOut(value) then 1 else 0
  {
    var b := SetObject(true, i, value).actions;
    if |b| == 2 {
      assert b == [b[0]] + [b[1]];
      RegistrationsAppend([b[0]], [b[1]]);
      assert [b[0]][..0] == [];
      assert [b[1]][..0] == [];
    } else if |b| == 1 {
      assert b[..0] == [];
    }
  }

  /** On a callable statement every out parameter is registered exactly
      once, so `call` hands its closure one result per registration. */
  lemma {:induction false} OneResultPerRegistration(params: seq<Value>, k: nat)
    requires k <= |params|
    ensures Registrations(ActionsUpTo(true, params, k)) == |OutPositions(params, k)|
  {
    if k > 0 {
      OneResultPerRegistration(params, k - 1);
      RegistrationsAppend(ActionsUpTo(true, params, k - 1), SetObject(true, k, params[k - 1]).actions);
      SetObjectRegisters(k, params[k - 1]);
    }
  }
}

=== FILE: scopes.dfy ===
/** The scoped modes of `groovy.sql.Sql`: `cacheConnection`,
    `withTransaction`, `cacheStatements` and the two `withBatch` forms. Each
    sets a flag, runs the caller's closure, releases resources and restores
    the flag in `finally`. The closure is any transformation of the facade
    that may throw. */
module Scopes {
  import opened Wrappers
  import opened Text
  import opened NamedParams
  import opened NamedQueryCache
  import opened Lifecycle

  /** The facade after a closure or a scope, and whether it threw. */
  datatype Outcome = Outcome(sql: Sql, threw: bool)

  /** A caller's closure: it sees the facade and the connection (or, for a
      batch, the statement) it is handed. */
  type Body = (Sql, Option<Handle>) -> Outcome

  /** Entering `cacheConnection` or `withTransaction`: the flag is set and a
      connection obtained, the held one if there is one. */
  function HoldConnection(s: Sql): (r: (Sql, Option<Handle>))
    ensures r.0.cacheConnection
    ensures s.useConnection.Some? ==> r.1 == s.useConnection
    ensures s.hasDataSource ==> r.1.Some? && r.0.useConnection == r.1
  {
    CreateConnection(s.(cacheConnection := true))
  }

  /** The `finally` shared by `cacheConnection` and `withTransaction`: with
      `cacheConnection` cleared, `closeResources(connection, null)`; then the
      saved flag is restored and, for a data-source facade whose caller was
      not caching, the held connection is dropped. */
  function ReleaseHeld(saved: bool, t: Sql, conn: Option<Handle>, threw: bool): (r: Outcome)
    ensures r.threw == threw && r.sql.cacheConnection == saved
    ensures t.log <= r.sql.log
    ensures forall e :: e in Added(t, r.sql) ==> e.ConnClosed?
    ensures forall h: Handle :: ConnClosed(h) in Added(t, r.sql) <==> conn == Some(h) && !t.cacheStatements && t.hasDataSource
    ensures r.sql.useConnection == if t.hasDataSource && !saved then None else t.useConnection
    ensures r.sql == t.(log := r.sql.log, cacheConnection := saved, useConnection := r.sql.useConnection)
  {
    var t1 := CloseStatement(t.(cacheConnection := false), conn, None);
    var t2 := t1.(cacheConnection := saved);
    Outcome(if t2.hasDataSource && !saved then t2.(useConnection := None) else t2, threw)
  }

  /** `cacheConnection(closure)`. */
  function CacheConnectionScope(s: Sql, body: Body): (r: Outcome)
    ensures r.sql.cacheConnection == s.cacheConnection
    ensures var (t, conn) := HoldConnection(s);
            var o := body(t, conn);
            && r.threw == o.threw
            && o.sql.log <= r.sql.log
            && (forall e :: e in Added(o.sql, r.sql) ==> e.ConnClosed?)
            && (forall h: Handle :: ConnClosed(h) in Added(o.sql, r.sql)
                                    <==> conn == Some(h) && !o.sql.cacheStatements && o.sql.hasDataSource)
            && r.sql.useConnection == (if o.sql.hasDataSource && !s.cacheConnection then None else o.sql.useConnection)
            && r.sql == o.sql.(log := r.sql.log, cacheConnection := s.cacheConnection, useConnection := r.sql.useConnection)
  {
    var (s1, conn) := HoldConnection(s);
    var o := body(s1, conn);
    ReleaseHeld(s.cacheConnection, o.sql, conn, o.threw)
  }

  /** A `cacheConnection` scope nested in another, on a data-source facade
      not caching statements, closes the connection the outer scope holds
      and leaves the outer scope holding it. */
  lemma NestedScopeClosesHeld(c: Handle)
    ensures var s := Sql(true, Some(c), true, false, false, true, true, map[], Empty, [], c + 1);
            var r := CacheConnectionScope(s, (t, k) => Outcome(t, false));
            && r.sql.cacheConnection
            && r.sql.useConnection == Some(c)
            && r.sql.log == [ConnClosed(c)]
  {
  }

  /** `cacheConnection(closure)` with the release step made conditional on
      the caller not already holding a connection. */
  function CacheConnectionScopeFixed(s: Sql, body: Body): (r: Outcome)
    ensures r.sql.cacheConnection == s.cacheConnection
    ensures s.cacheConnection ==>
              var o := body(HoldConnection(s).0, HoldConnection(s).1);
              r == Outcome(o.sql.(cacheConnection := true), o.threw)
    ensures !s.cacheConnection ==> r == CacheConnectionScope(s, body)
  {
    var (s1, conn) := HoldConnection(s);
    var o := body(s1, conn);
    if s.cacheConnection then Outcome(o.sql.(cacheConnection := true), o.threw)
    else ReleaseHeld(false, o.sql, conn, o.threw)
  }

  /** In the corrected scope an inner scope neither closes nor drops the
      connection the outer one holds, provided the closure leaves the flag
      and the held connection alone. */
  lemma NestedScopeKeepsHeld(s: Sql, body: Body)
    requires s.cacheConnection && s.useConnection.Some?
    requires body(s, s.useConnection).sql.cacheConnection
    requires body(s, s.useConnection).sql.useConnection == s.useConnection
    ensures CacheConnectionScopeFixed(s, body).sql.useConnection == s.useConnection
    ensures CacheConnectionScopeFixed(s, body).sql.log == body(s, s.useConnection).sql.log
  {
    assert HoldConnection(s) == (s, s.useConnection);
  }

  /** `withTransaction(closure)`: on the held (or a fresh) connection with
      auto-commit off, commit if the closure returns and roll back if it
      throws, then restore the driver's auto-commit setting `autoCommit`
      before the release of `cacheConnection`. Without any connection the
      first call on it throws. */
  function WithTransaction(s: Sql, autoCommit: bool, body: Body): (r: Outcome)
    ensures r.sql.cacheConnection == s.cacheConnection
    ensures HoldConnection(s).1.None? ==> r == Outcome(s, true)
    ensures HoldConnection(s).1.Some? ==>
              var c := HoldConnection(s).1.value;
              var t := HoldConnection(s).0;
              var o := body(t.(log := t.log + [AutoCommitSet(c, false)]), Some(c));
              && r.threw == o.threw
              && o.sql.log <= r.sql.log
              && |Added(o.sql, r.sql)| >= 2
              && Added(o.sql, r.sql)[0] == (if o.threw then RolledBack(c) else Committed(c))
              && Added(o.sql, r.sql)[1] == AutoCommitSet(c, autoCommit)
              && (forall e :: e in Added(o.sql, r.sql)[2..] ==> e.ConnClosed?)
              && (forall h: Handle :: ConnClosed(h) in Added(o.sql, r.sql)[2..]
                                      <==> h == c && !o.sql.cacheStatements && o.sql.hasDataSource)
              && r.sql.useConnection == (if o.sql.hasDataSource && !s.cacheConnection then None else o.sql.useConnection)
              && r.sql == o.sql.(log := r.sql.log, cacheConnection := s.cacheConnection, useConnection := r.sql.useConnection)
  {
    var (s1, conn) := HoldConnection(s);
    if conn.None? then ReleaseHeld(s.cacheConnection, s1, conn, true)
    else
      var c := conn.value;
      var o := body(s1.(log := s1.log + [AutoCommitSet(c, false)]), conn);
      EndTransaction(s.cacheConnection, o, c, autoCommit)
  }

  /** The end of `withTransaction` after the closure `o`: commit or
      rollback, the auto-commit flag restored, then the release. */
  function EndTransaction(saved: bool, o: Outcome, c: Handle, autoCommit: bool): (r: Outcome)
    ensures r.sql.cacheConnection == saved && r.threw == o.threw
    ensures o.sql.log <= r.sql.log
    ensures |Added(o.sql, r.sql)| >= 2
    ensures Added(o.sql, r.sql)[0] == (if o.threw then RolledBack(c) else Committed(c))
    ensures Added(o.sql, r.sql)[1] == AutoCommitSet(c, autoCommit)
    ensures forall e :: e in Added(o.sql, r.sql)[2..] ==> e.ConnClosed?
    ensures forall h: Handle :: ConnClosed(h) in Added(o.sql, r.sql)[2..]
                                <==> h == c && !o.sql.cacheStatements && o.sql.hasDataSource
    ensures r.sql.useConnection == if o.sql.hasDataSource && !saved then None else o.sql.useConnection
    ensures r.sql == o.sql.(log := r.sql.log, cacheConnection := saved, useConnection := r.sql.useConnection)
  {
    var x := if o.threw then RolledBack(c) else Committed(c);
    ReleaseAfterTwo(saved, o.sql, x, AutoCommitSet(c, autoCommit), c, o.threw);
    ReleaseHeld(saved, o.sql.(log := o.sql.log + [x, AutoCommitSet(c, autoCommit)]), Some(c), o.threw)
  }

  /** `ReleaseHeld` on a facade whose log was first extended by the events
      `x` and `y`, stated against the facade before them. */
  lemma ReleaseAfterTwo(saved: bool, a: Sql, x: Event, y: Event, c: Handle, threw: bool)
    ensures var r := ReleaseHeld(saved, a.(log := a.log + [x, y]), Some(c), threw).sql;
            && a.log <= r.log && |Added(a, r)| >= 2
            && Added(a, r)[0] == x && Added(a, r)[1] == y
            && (forall e :: e in Added(a, r)[2..] ==> e.ConnClosed?)
            && (forall h: Handle :: ConnClosed(h) in Added(a, r)[2..] <==> h == c && !a.cacheStatements && a.hasDataSource)
            && r.useConnection == (if a.hasDataSource && !saved then None else a.useConnection)
            && r == a.(log := r.log, cacheConnection := saved, useConnection := r.useConnection)
  {
    var t := a.(log := a.log + [x, y]);
    var r := ReleaseHeld(saved, t, Some(c), threw).sql;
    TwoThenCloses(a.log, t.log, r.log);
  }

  /** A log extended by two events and then by more. */
  lemma TwoThenCloses(a: seq<Event>, b: seq<Event>, c: seq<Event>)
    requires |b| == |a| + 2 && a <= b <= c
    ensures |c[|a|..]| >= 2 && c[|a|..][0] == b[|a|] && c[|a|..][1] == b[|a| + 1]
    ensures c[|a|..][2..] == c[|b|..]
  {
  }

  /** A transaction ends in exactly one of commit and rollback: commit when
      the closure returns, rollback when it throws. */
  lemma TransactionCommitsOrRollsBack(s: Sql, autoCommit: bool, body: Body, c: Handle)
    requires HoldConnection(s).1 == Some(c)
    ensures var t := HoldConnection(s).0;
            var o := body(t.(log := t.log + [AutoCommitSet(c, false)]), Some(c));
            var r := WithTransaction(s, autoCommit, body);
            && (Committed(c) in Added(o.sql, r.sql) <==> !r.threw)
            && (RolledBack(c) in Added(o.sql, r.sql) <==> r.threw)
  {
    var t := HoldConnection(s).0;
    var o := body(t.(log := t.log + [AutoCommitSet(c, false)]), Some(c));
    var r := WithTransaction(s, autoCommit, body);
    EndsOnce(Added(o.sql, r.sql), c, autoCommit, r.threw);
  }

  /** A log tail made of the transaction's end, the auto-commit restore and
      connection closes holds a commit exactly when it ends in one. */
  lemma EndsOnce(added: seq<Event>, c: Handle, autoCommit: bool, threw: bool)
    requires |added| >= 2
    requires added[0] == (if threw then RolledBack(c) else Committed(c))
    requires added[1] == AutoCommitSet(c, autoCommit)
    requires forall e :: e in added[2..] ==> e.ConnClosed?
    ensures Committed(c) in added <==> !threw
    ensures RolledBack(c) in added <==> threw
  {
    assert forall k :: 2 <= k < |added| ==> added[k] in added[2..];
  }

  /** What the `finally` of a batch adds to the log after the closure
      left the facade `o`: only closes; the batch statement `st` exactly
      when statements are not cached; a connection exactly when it is `conn`
      and `closeResources(Connection)` releases it, that is, when the
      connection is not cached and there is a data source. Apart from the
      log and the restored `withinBatch`, nothing changes. */
  ghost predicate BatchReleased(o: Sql, r: Sql, st: Handle, conn: Option<Handle>) {
    && o.log <= r.log
    && r == o.(log := r.log, withinBatch := r.withinBatch)
    && (forall e :: e in Added(o, r) ==> e.StmtClosed? || e.ConnClosed?)
    && (StmtClosed(st) in Added(o, r) <==> !o.cacheStatements)
    && (forall h: Handle :: ConnClosed(h) in Added(o, r) <==> conn == Some(h) && !o.cacheConnection && o.hasDataSource)
  }

  /** `withBatch(batchSize, closure)`: a plain statement, never cached, wraps
      the batch; afterwards the statement is closed unless `cacheStatements`
      is on and the connection as `closeResources(Connection)` decides.
      Since `createStatement` never puts the plain statement in the cache,
      while `cacheStatements` is on it is closed neither here nor by a later
      `clearStatementCache` (see `BatchStatementNeverClosed`). */
  function WithBatch(s: Sql, body: Body): (r: Outcome)
    ensures r.sql.withinBatch == s.withinBatch
    ensures CreateConnection(s).1.None? ==> r == Outcome(CreateConnection(s).0, true)
    ensures CreateConnection(s).1.Some? ==>
              var (t, conn) := CreateConnection(s);
              var st := t.next;
              var o := body(t.(withinBatch := true, log := t.log + [StmtCreated(st, conn.value, None)], next := st + 1), Some(st));
              && r.threw == o.threw
              && BatchReleased(o.sql, r.sql, st, conn)
  {
    var (s1, conn) := CreateConnection(s);
    if conn.None? then Outcome(s1, true)
    else
      var st := s1.next;
      var s2 := s1.(withinBatch := true, log := s1.log + [StmtCreated(st, conn.value, None)], next := st + 1);
      var o := body(s2, Some(st));
      EndBatch(o, st, conn, s1.withinBatch)
  }

  /** With `cacheStatements` on, a data-source facade and a closure that
      does nothing: the batch statement is created, is not in the statement
      cache, and is never closed, while the connection is. */
  lemma BatchStatementNeverClosed()
    ensures var r := WithBatch(OfDataSource().(cacheStatements := true), (t, k) => Outcome(t, false)).sql;
            && r.log == [ConnOpened(0), StmtCreated(1, 0, None), ConnClosed(0)]
            && r.statementCache == map[]
  {
  }

  /** The `finally` of `withBatch(batchSize, closure)` after the closure
      `o`: the batch statement, then the connection, then the flag. */
  function EndBatch(o: Outcome, st: Handle, conn: Option<Handle>, within: bool): (r: Outcome)
    ensures r.sql.withinBatch == within && r.threw == o.threw
    ensures BatchReleased(o.sql, r.sql, st, conn)
  {
    var t2 := CloseConnection(CloseBatchStatement(o.sql, Some(st)), conn);
    BatchReleaseSteps(o.sql, st, conn);
    Outcome(t2.(withinBatch := within), o.threw)
  }

  /** Closing the batch statement and then the connection is a batch
      release. */
  lemma BatchReleaseSteps(o: Sql, st: Handle, conn: Option<Handle>)
    ensures BatchReleased(o, CloseConnection(CloseBatchStatement(o, Some(st)), conn), st, conn)
  {
    var t1 := CloseBatchStatement(o, Some(st));
    AddedSplit(o, t1, CloseConnection(t1, conn));
  }

  /** The SQL a prepared batch runs: the rewritten text when the pre-check
      found named placeholders, the caller's text otherwise. */
  function BatchSql(sql: string, pc: Result<Option<Extracted>, Failure>): (r: string)
    requires pc.Ok?
    ensures pc.value.None? ==> r == sql
    ensures pc.value.Some? ==> r == pc.value.value.newSql
  {
    if pc.value.Some? then pc.value.value.newSql else sql
  }

  /** The part of `withBatch(batchSize, sql, closure)` inside `try`: the
      statement comes from `getAbstractStatement`; the `finally` closes it
      and the connection as `closeResources` decides and restores
      `withinBatch`. */
  function RunPreparedBatch(t: Sql, conn: Option<Handle>, text: string, body: Body): (r: Outcome)
    ensures r.sql.withinBatch == t.withinBatch
    ensures GetAbstractStatement(t.(withinBatch := true), conn, text).1.None? ==> r.threw
    ensures GetAbstractStatement(t.(withinBatch := true), conn, text).1.Some? ==>
              var (u, st) := GetAbstractStatement(t.(withinBatch := true), conn, text);
              var o := body(u, st);
              && r.threw == o.threw
              && BatchReleased(o.sql, r.sql, st.value, conn)
  {
    var (u, st) := GetAbstractStatement(t.(withinBatch := true), conn, text);
    if st.None? then Outcome(CloseConnection(u, conn).(withinBatch := t.withinBatch), true)
    else
      var o := body(u, st);
      BatchReleaseSteps(o.sql, st.value, conn);
      Outcome(CloseConnection(CloseBatchStatement(o.sql, st), conn).(withinBatch := t.withinBatch), o.threw)
  }

  /** `withBatch(batchSize, sql, closure)` as written: the connection is
      obtained, then the named-parameter pre-check runs, both before the
      `try` whose `finally` releases the connection. */
  function WithBatchPrepared(s: Sql, sql: string, body: Body): (r: Outcome)
    ensures r.sql.withinBatch == s.withinBatch
    ensures var (t, conn) := CreateConnection(s);
            var pc := PreCheck(t.enableNamedQueries, t.cacheNamedQueries, t.named, sql);
            pc.result.Err? ==>
              && r.threw
              && r.sql == t.(named := pc.cache)
              && s.log <= r.sql.log
              && (forall e :: e in Added(s, r.sql) ==> e.ConnOpened?)
    ensures var (t, conn) := CreateConnection(s);
            var pc := PreCheck(t.enableNamedQueries, t.cacheNamedQueries, t.named, sql);
            pc.result.Ok? ==>
              var (u, st) := GetAbstractStatement(t.(named := pc.cache).(withinBatch := true), conn, BatchSql(sql, pc.result));
              && (st.None? ==> r.threw)
              && (st.Some? ==>
                    var o := body(u, st);
                    && r.threw == o.threw
                    && BatchReleased(o.sql, r.sql, st.value, conn))
  {
    var (s1, conn) := CreateConnection(s);
    var pc := PreCheck(s1.enableNamedQueries, s1.cacheNamedQueries, s1.named, sql);
    CreateOnlyOpens(s, pc.cache);
    AfterPreCheck(s1, conn, pc, sql, body)
  }

  /** The rest of `withBatch(batchSize, sql, closure)` once the connection
      `conn` is obtained and the pre-check has answered `pc`. */
  function AfterPreCheck(t: Sql, conn: Option<Handle>, pc: PreChecked, sql: string, body: Body): (r: Outcome)
    ensures r.sql.withinBatch == t.withinBatch
    ensures pc.result.Err? ==> r.threw && r.sql == t.(named := pc.cache)
    ensures pc.result.Ok? ==>
              var (u, st) := GetAbstractStatement(t.(named := pc.cache).(withinBatch := true), conn, BatchSql(sql, pc.result));
              && (st.None? ==> r.threw)
              && (st.Some? ==>
                    var o := body(u, st);
                    && r.threw == o.threw
                    && BatchReleased(o.sql, r.sql, st.value, conn))
  {
    if pc.result.Err? then Outcome(t.(named := pc.cache), true)
    else RunPreparedBatch(t.(named := pc.cache), conn, BatchSql(sql, pc.result), body)
  }

  /** Obtaining a connection logs at most its opening and leaves
      `withinBatch` alone. */
  lemma CreateOnlyOpens(s: Sql, named: Caches)
    ensures CreateConnection(s).0.withinBatch == s.withinBatch
    ensures s.log <= CreateConnection(s).0.(named := named).log
    ensures forall e :: e in Added(s, CreateConnection(s).0.(named := named)) ==> e.ConnOpened?
  {
  }

  /** On a data-source facade that caches nothing, a batch SQL with a marker
      and an unterminated literal opens a connection and never closes it. */
  lemma PreparedBatchLeaks(s: Sql, sql: string, body: Body)
    requires s.hasDataSource && !Caching(s) && Coherent(s.named)
    requires s.enableNamedQueries && PatternFound(sql) && OddQuotes(sql)
    ensures WithBatchPrepared(s, sql, body).threw
    ensures s.log <= WithBatchPrepared(s, sql, body).sql.log
    ensures Added(s, WithBatchPrepared(s, sql, body).sql) == [ConnOpened(s.next)]
  {
    var (s1, conn) := CreateConnection(s);
    PreCheckCases(s1.enableNamedQueries, s1.cacheNamedQueries, s1.named, sql);
  }

  /** A concrete instance: a fresh data-source facade and `it's ?`. */
  lemma PreparedBatchLeaksExample(body: Body)
    ensures WithBatchPrepared(OfDataSource(), "it's ?", body).sql.log == [ConnOpened(0)]
  {
    QuickExitQuirk();
  }

  /** `withBatch(batchSize, sql, closure)` with the pre-check moved before
      the connection is obtained, so a rejected SQL acquires nothing. */
  function WithBatchPreparedFixed(s: Sql, sql: string, body: Body): (r: Outcome)
    ensures PreCheck(s.enableNamedQueries, s.cacheNamedQueries, s.named, sql).result.Err? ==>
              r == Outcome(s.(named := PreCheck(s.enableNamedQueries, s.cacheNamedQueries, s.named, sql).cache), true)
  {
    var pc := PreCheck(s.enableNamedQueries, s.cacheNamedQueries, s.named, sql);
    var s1 := s.(named := pc.cache);
    if pc.result.Err? then Outcome(s1, true)
    else
      var (s2, conn) := CreateConnection(s1);
      RunPreparedBatch(s2, conn, BatchSql(sql, pc.result), body)
  }

  /** The corrected order changes nothing when the pre-check passes, and
      when it fails nothing is opened. */
  lemma PreparedBatchFixedAgrees(s: Sql, sql: string, body: Body)
    ensures PreCheck(s.enableNamedQueries, s.cacheNamedQueries, s.named, sql).result.Ok? ==>
              WithBatchPreparedFixed(s, sql, body) == WithBatchPrepared(s, sql, body)
    ensures PreCheck(s.enableNamedQueries, s.cacheNamedQueries, s.named, sql).result.Err? ==>
              WithBatchPreparedFixed(s, sql, body).sql.log == s.log
  {
    var pc := PreCheck(s.enableNamedQueries, s.cacheNamedQueries, s.named, sql);
    CreateIgnoresNamed(s, pc.cache);
    var (s1, conn) := CreateConnection(s);
    assert PreCheck(s1.enableNamedQueries, s1.cacheNamedQueries, s1.named, sql) == pc;
  }

  /** Obtaining a connection neither reads nor writes the named-query
      caches. */
  lemma CreateIgnoresNamed(s: Sql, named: Caches)
    ensures CreateConnection(s.(named := named)) == (CreateConnection(s).0.(named := named), CreateConnection(s).1)
    ensures CreateConnection(s).0.named == s.named
    ensures CreateConnection(s).0.enableNamedQueries == s.enableNamedQueries
    ensures CreateConnection(s).0.cacheNamedQueries == s.cacheNamedQueries
  {
  }

  /** Entering `cacheStatements`: the flag is set and a connection obtained,
      which a data-source facade now holds. */
  function HoldForStatements(s: Sql): (r: (Sql, Option<Handle>))
    ensures r.0.cacheStatements
    ensures s.hasDataSource ==> r.1.Some? && r.0.useConnection == r.1
  {
    CreateConnection(s.(cacheStatements := true))
  }

  /** `cacheStatements(closure)` as written: the `finally` clears the flag,
      calls `closeResources(connection, null)` and restores the flag. The
      statement cache is left as the closure left it, and the facade keeps
      holding the connection it may just have closed. */
  function CacheStatementsScope(s: Sql, body: Body): (r: Outcome)
    ensures r.sql.cacheStatements == s.cacheStatements
    ensures var o := body(HoldForStatements(s).0, HoldForStatements(s).1);
            && r.threw == o.threw
            && r.sql == o.sql.(cacheStatements := s.cacheStatements, log := r.sql.log)
            && o.sql.log <= r.sql.log
            && (forall e :: e in Added(o.sql, r.sql) ==> e.ConnClosed?)
            && forall h: Handle :: ConnClosed(h) in Added(o.sql, r.sql)
                                   <==> HoldForStatements(s).1 == Some(h) && !o.sql.cacheConnection && o.sql.hasDataSource
  {
    var (s1, conn) := HoldForStatements(s);
    var o := body(s1, conn);
    var t := CloseStatement(o.sql.(cacheStatements := false), conn, None);
    Outcome(t.(cacheStatements := s.cacheStatements), o.threw)
  }

  /** The closure `{ sql.execute('select 1') }`: one prepared statement
      through the cache. */
  function PrepareOne(t: Sql, k: Option<Handle>): Outcome {
    Outcome(GetAbstractStatement(t, k, "select 1").0, false)
  }

  /** Two `cacheStatements` scopes in a row on a fresh data-source facade:
      the first closes its connection but keeps holding it, keeps the
      statement it cached open in the cache, and the second scope is handed
      the closed connection. */
  lemma CacheStatementsLeavesStale()
    ensures var r := CacheStatementsScope(OfDataSource(), PrepareOne).sql;
            && r.useConnection == Some(0)
            && ConnClosed(0) in r.log
            && "select 1" in r.statementCache
            && StmtClosed(r.statementCache["select 1"]) !in r.log
            && HoldForStatements(r).1 == Some(0)
  {
    var s1 := HoldForStatements(OfDataSource()).0;
    assert s1.log == [ConnOpened(0)];
    var r := CacheStatementsScope(OfDataSource(), PrepareOne).sql;
    assert r.log == [ConnOpened(0), StmtCreated(1, 0, Some("select 1")), ConnClosed(0)];
  }

  /** `cacheStatements(closure)` as documented: when the caller was not
      caching statements, every statement cached during the scope is closed
      and forgotten before the connection is released, and a data-source
      facade that is not otherwise caching drops the connection it held. */
  method CacheStatementsScopeFixed(s: Sql, body: Body) returns (r: Outcome)
    ensures r.sql.cacheStatements == s.cacheStatements
    ensures var o := body(HoldForStatements(s).0, HoldForStatements(s).1);
            && r.threw == o.threw
            && o.sql.log <= r.sql.log
            && (!s.cacheStatements ==> r.sql.statementCache == map[])
            && (!s.cacheStatements ==> forall q :: q in o.sql.statementCache ==> StmtClosed(o.sql.statementCache[q]) in Added(o.sql, r.sql))
            && (!s.cacheStatements && o.sql.hasDataSource && !o.sql.cacheConnection ==> r.sql.useConnection.None?)
            && r.sql == o.sql.(cacheStatements := s.cacheStatements, statementCache := r.sql.statementCache,
                               log := r.sql.log, useConnection := r.sql.useConnection)
            && (forall h: Handle :: ConnClosed(h) in Added(o.sql, r.sql)
                                    <==> HoldForStatements(s).1 == Some(h) && !o.sql.cacheConnection && o.sql.hasDataSource)
            && (s.cacheStatements ==> r == CacheStatementsScope(s, body))
  {
    var (s1, conn) := HoldForStatements(s);
    var o := body(s1, conn);
    var t := o.sql.(cacheStatements := false);
    if s.cacheStatements {
      t := CloseStatement(t, conn, None);
      r := Outcome(t.(cacheStatements := true), o.threw);
      return;
    }
    var t1 := ClearStatementCache(t);
    var t2 := CloseStatement(t1, conn, None);
    AddedSplit(o.sql, t1, t2);
    assert Added(o.sql, t1) == Added(t, t1);
    var t3 := if t2.hasDataSource && !t2.cacheConnection then t2.(useConnection := None) else t2;
    r := Outcome(t3, o.threw);
  }

  /** After the corrected scope the next `cacheStatements` scope on a fresh
      data-source facade opens a new connection instead of reusing the
      closed one. */
  method CacheStatementsFixedExample() returns (r: Sql)
    ensures r.useConnection.None? && r.statementCache == map[]
    ensures StmtClosed(1) in r.log && ConnClosed(0) in r.log
    ensures HoldForStatements(r).1 == Some(r.next) && r.next != 0
  {
    var o := CacheStatementsScopeFixed(OfDataSource(), PrepareOne);
    r := o.sql;
    var s1 := HoldForStatements(OfDataSource()).0;
    assert HoldForStatements(OfDataSource()).1 == Some(0);
    assert s1.log == [ConnOpened(0)] && s1.next == 1;
    var t := PrepareOne(s1, Some(0)).sql;
    assert t.statementCache == map["select 1" := 1] && t.next == 2;
    assert "select 1" in t.statementCache;
  }
}

=== FILE: text.dfy ===
/** Character classes and views of SQL text shared by the scanners. */
module Text {

  const Quote: char := '\''

  /** Java's `\d` without UNICODE_CHARACTER_CLASS. */
  predicate IsDigit(c: char) {
    '0' <= c <= '9'
  }

  /** Java's `\w` without UNICODE_CHARACTER_CLASS: `[A-Za-z0-9_]`. */
  predicate IsWordChar(c: char) {
    'a' <= c <= 'z' || 'A' <= c <= 'Z' || IsDigit(c) || c == '_'
  }

  /** The two characters that open a named placeholder. */
  predicate IsMarker(c: char) {
    c == ':' || c == '?'
  }

  predicate AllWordChars(s: string) {
    forall k :: 0 <= k < |s| ==> IsWordChar(s[k])
  }

  predicate NoMarker(s: string) {
    forall k :: 0 <= k < |s| ==> !IsMarker(s[k])
  }

  predicate QuoteFree(s: string) {
    forall k :: 0 <= k < |s| ==> s[k] != Quote
  }

  /** Number of occurrences of `c` in `s`. */
  function Count(s: string, c: char): nat
  {
    if |s| == 0 then 0 else (if s[0] == c then 1 else 0) + Count(s[1..], c)
  }

  lemma {:induction false} CountAppend(a: string, b: string, c: char)
    ensures Count(a + b, c) == Count(a, c) + Count(b, c)
  {
    if |a| == 0 {
      assert a + b == b;
    } else {
      assert (a + b)[1..] == a[1..] + b;
      CountAppend(a[1..], b, c);
    }
  }

  lemma {:induction false} CountAbsent(s: string, c: char)
    ensures Count(s, c) == 0 <==> forall k :: 0 <= k < |s| ==> s[k] != c
  {
    if |s| > 0 {
      CountAbsent(s[1..], c);
      assert forall k :: 1 <= k < |s| ==> s[k] == s[1..][k - 1];
    }
  }

  /** Index of the first quote in `s`, or `|s|` when there is none. */
  function QuoteIndex(s: string): (q: nat)
    ensures q <= |s|
    ensures QuoteFree(s[..q])
    ensures q < |s| ==> s[q] == Quote
  {
    if |s| == 0 then 0
    else if s[0] == Quote then 0
    else
      var q := 1 + QuoteIndex(s[1..]);
      assert s[..q] == [s[0]] + s[1..][..q - 1];
      q
  }

  /** The characters of `s` that lie outside single-quoted literals, when the
      scan starts inside a literal iff `inLiteral`; every quote toggles the
      state and is itself dropped. */
  function Unquoted(s: string, inLiteral: bool): string
  {
    if |s| == 0 then []
    else if s[0] == Quote then Unquoted(s[1..], !inLiteral)
    else (if inLiteral then [] else [s[0]]) + Unquoted(s[1..], inLiteral)
  }

  /** True iff `s` holds an odd number of quotes (kept free of arithmetic so
      that proofs about it stay cheap; see OddQuotesCount). */
  function OddQuotes(s: string): bool
  {
    if |s| == 0 then false else (s[0] == Quote) != OddQuotes(s[1..])
  }

  lemma {:induction false} OddQuotesCount(s: string)
    ensures OddQuotes(s) <==> Count(s, Quote) % 2 == 1
  {
    if |s| > 0 {
      OddQuotesCount(s[1..]);
    }
  }

  lemma {:induction false} OddQuotesAppend(a: string, b: string)
    ensures OddQuotes(a + b) == (OddQuotes(a) != OddQuotes(b))
  {
    if |a| == 0 {
      assert a + b == b;
    } else {
      assert (a + b)[1..] == a[1..] + b;
      OddQuotesAppend(a[1..], b);
    }
  }

  lemma {:induction false} OddQuotesQuoteFree(s: string)
    requires QuoteFree(s)
    ensures !OddQuotes(s)
  {
    if |s| > 0 {
      OddQuotesQuoteFree(s[1..]);
    }
  }

  lemma {:induction false} UnquotedAppend(a: string, b: string, inLiteral: bool)
    ensures Unquoted(a + b, inLiteral)
         == Unquoted(a, inLiteral) + Unquoted(b, inLiteral != OddQuotes(a))
  {
    if |a| == 0 {
      assert a + b == b;
    } else {
      assert (a + b)[1..] == a[1..] + b;
      if a[0] == Quote {
        UnquotedAppend(a[1..], b, !inLiteral);
      } else {
        UnquotedAppend(a[1..], b, inLiteral);
      }
    }
  }

  lemma {:induction false} UnquotedQuoteFree(s: string, inLiteral: bool)
    requires QuoteFree(s)
    ensures Unquoted(s, inLiteral) == if inLiteral then [] else s
  {
    if |s| > 0 {
      UnquotedQuoteFree(s[1..], inLiteral);
    }
  }

  /** ASCII lower-casing of one character. */
  function LowerChar(c: char): char
  {
    if 'A' <= c <= 'Z' then (c as int + 32) as char else c
  }

  function Lower(s: string): (r: string)
    ensures |r| == |s|
    ensures forall k :: 0 <= k < |s| ==> r[k] == LowerChar(s[k])
  {
    seq(|s|, k requires 0 <= k < |s| => LowerChar(s[k]))
  }
}

=== FILE: values.dfy ===
/** The arguments a caller hands to the facade: plain objects, `null`, and
    the parameter wrappers `InParameter`, `OutParameter`,
    `InOutParameter`, `ResultSetOutParameter` and `ExpandedVariable`. */
module Values {

  /** A JDBC type code as carried by the parameter wrappers. */
  type SqlType = int

  datatype Value =
    | Null
    | Obj(id: nat)                            // any other object, by identity
    | Expanded(inner: Value)                  // ExpandedVariable: inlined into the SQL text
    | In(sqlType: SqlType, inner: Value)      // InParameter
    | Out(sqlType: SqlType)                   // OutParameter
    | InOut(sqlType: SqlType, inner: Value)   // InOutParameter: both an In and an Out
    | ResultSetOut(sqlType: SqlType)          // ResultSetOutParameter: an Out whose value is a cursor

  /** `value instanceof InParameter` */
  predicate IsIn(v: Value) {
    v.In? || v.InOut?
  }

  /** `value instanceof OutParameter` */
  predicate IsOut(v: Value) {
    v.Out? || v.InOut? || v.ResultSetOut?
  }
}

=== FILE: where_keyword.dfy ===
/** `findWhereKeyword`, used by `nullify` to find where the WHERE clause
    starts. It lower-cases the SQL, skips single-quoted literals, and matches
    the letters of `where` one after another without ever starting over, so
    it finds `where` as a subsequence of the text outside literals, not as a
    word. */
module WhereKeyword {
  import opened Text

  const Where: string := "where"

  /** `w` is a subsequence of `t` (matching the last letter of `w` as late
      as possible, which loses no embedding). */
  predicate IsSubseq(w: string, t: string)
    decreases |t|
  {
    if |w| == 0 then true
    else if |t| == 0 then false
    else if t[|t| - 1] == w[|w| - 1] then IsSubseq(w[..|w| - 1], t[..|t| - 1])
    else IsSubseq(w, t[..|t| - 1])
  }

  /** How many letters of `where` a left-to-right scan that never starts
      over has matched after reading `t`. */
  function Matched(t: string): (m: nat)
    ensures m <= |Where|
    decreases |t|
  {
    if |t| == 0 then 0
    else
      var m := Matched(t[..|t| - 1]);
      if m < |Where| && t[|t| - 1] == Where[m] then m + 1 else m
  }

  /** The scan is optimal: it has matched at least `k` letters exactly when
      the first `k` letters of `where` occur in order in `t`. */
  lemma {:induction false} MatchedIffSubseq(t: string, k: nat)
    requires k <= |Where|
    ensures IsSubseq(Where[..k], t) <==> Matched(t) >= k
    decreases |t|
  {
    if k == 0 || |t| == 0 {
    } else {
      var t' := t[..|t| - 1];
      var c := t[|t| - 1];
      assert Where[..k][..k - 1] == Where[..k - 1];
      if c == Where[k - 1] {
        MatchedIffSubseq(t', k - 1);
        MatchedIffSubseq(t', k);
      } else {
        MatchedIffSubseq(t', k);
      }
    }
  }

  /** Reading more text never undoes a match. */
  lemma {:induction false} MatchedGrows(a: string, b: string)
    ensures Matched(a + b) >= Matched(a)
    decreases |b|
  {
    if |b| > 0 {
      var b' := b[..|b| - 1];
      assert (a + b)[..|a + b| - 1] == a + b';
      assert Matched(a + b) >= Matched(a + b');
      MatchedGrows(a, b');
    } else {
      assert a + b == a;
    }
  }

  /** Reading one more character outside a literal. */
  lemma UnquotedSnoc(a: string, c: char)
    ensures Unquoted(a + [c], false)
         == if c == Quote || OddQuotes(a) then Unquoted(a, false) else Unquoted(a, false) + [c]
    ensures OddQuotes(a + [c]) == (OddQuotes(a) != (c == Quote))
  {
    UnquotedAppend(a, [c], false);
    OddQuotesAppend(a, [c]);
    assert [c][1..] == [];
  }

  /** `findWhereKeyword`: the index of the character that completes `where`
      outside literals in the lower-cased SQL, or -1 when it is never
      completed. The returned index is the first at which it is complete. */
  method FindWhereKeyword(sql: string) returns (r: int)
    ensures -1 <= r < |sql|
    ensures r == -1 <==> !IsSubseq(Where, Unquoted(Lower(sql), false))
    ensures r >= 0 ==> IsSubseq(Where, Unquoted(Lower(sql)[..r + 1], false))
    ensures r >= 0 ==> !IsSubseq(Where, Unquoted(Lower(sql)[..r], false))
    ensures r >= 0 ==> Lower(sql)[r] == 'e'
  {
    var chars := Lower(sql);
    var i := 0;
    var inString := false;
    var inWhere := 0;
    while i < |chars|
      invariant 0 <= i <= |chars|
      invariant inString == OddQuotes(chars[..i])
      invariant inWhere == Matched(Unquoted(chars[..i], false)) && inWhere < |Where|
    {
      var u := Unquoted(chars[..i], false);
      assert chars[..i + 1] == chars[..i] + [chars[i]];
      UnquotedSnoc(chars[..i], chars[i]);
      if chars[i] == Quote {
        inString := !inString;
      } else {
        assert (u + [chars[i]])[..|u|] == u;
        if !inString && chars[i] == Where[inWhere] {
          inWhere := inWhere + 1;
          if inWhere == |Where| {
            MatchedIffSubseq(u, |Where|);
            MatchedIffSubseq(u + [chars[i]], |Where|);
            assert Where[..|Where|] == Where;
            assert chars == chars[..i + 1] + chars[i + 1..];
            UnquotedAppend(chars[..i + 1], chars[i + 1..], false);
            MatchedGrows(Unquoted(chars[..i + 1], false), Unquoted(chars[i + 1..], OddQuotes(chars[..i + 1])));
            MatchedIffSubseq(Unquoted(chars, false), |Where|);
            return i;
          }
        }
      }
      i := i + 1;
    }
    assert chars[..i] == chars;
    MatchedIffSubseq(Unquoted(chars, false), |Where|);
    assert Where[..|Where|] == Where;
    return -1;
  }

  /** One more character for the scan of a prefix. */
  lemma MatchedPrefixStep(t: string, k: nat)
    requires 0 < k <= |t|
    ensures Matched(t[..k]) == (var m := Matched(t[..k - 1]);
                                if m < |Where| && t[k - 1] == Where[m] then m + 1 else m)
  {
    assert t[..k][..k - 1] == t[..k - 1];
  }

  /** `where` inside a literal does not count. */
  lemma QuotedWhereIgnored()
    ensures !IsSubseq(Where, Unquoted("'where'", false))
  {
    assert Unquoted("'where'", false) == [] by {
      assert "'where'"[1..] == "where'";
      UnquotedAppend("where", "'", true);
      assert "where" + "'" == "where'";
      UnquotedQuoteFree("where", true);
      assert "'"[1..] == [];
    }
  }

  /** The letters need not be adjacent: `w-here` completes `where`, and so
      would `w...here` with anything in between. */
  lemma ScatteredWhereFound()
    ensures IsSubseq(Where, "w-here")
  {
    var t := "w-here";
    assert Matched(t[..1]) == 1 by { MatchedPrefixStep(t, 1); assert t[..0] == []; }
    assert Matched(t[..2]) == 1 by { MatchedPrefixStep(t, 2); }
    assert Matched(t[..3]) == 2 by { MatchedPrefixStep(t, 3); }
    assert Matched(t[..4]) == 3 by { MatchedPrefixStep(t, 4); }
    assert Matched(t[..5]) == 4 by { MatchedPrefixStep(t, 5); }
    assert Matched(t[..6]) == 5 by { MatchedPrefixStep(t, 6); }
    assert t[..6] == t;
    MatchedIffSubseq(t, 5);
    assert Where[..5] == Where;
  }
}

=== FILE: wrappers.dfy ===
/** Failure-compatible wrappers shared by every module of the model, and the
    closed set of failures the facade raises by itself (as opposed to failures
    surfaced by the database driver, which are not modelled). */
module Wrappers {

  /** A value or nothing; stands for a Java reference that may be null. */
  datatype Option<+T> = None | Some(value: T)

  /** The outcome of an operation that may throw. */
  datatype Result<+T, +E> = Ok(value: T) | Err(error: E) {
    predicate IsFailure() {
      Err?
    }

    function PropagateFailure<U>(): Result<U, E>
      requires Err?
    {
      Err(error)
    }

    function Extract(): T
      requires Ok?
    {
      value
    }
  }

  /** Exceptions the facade itself throws. */
  datatype Failure =
    | UnterminatedLiteral                  // IllegalStateException from the placeholder scanner
    | InvalidIndex(index: int, size: nat)  // IllegalArgumentException from the binder
    | MissingProperty(prop: string)        // the property lookup on an argument failed
    | NoSqlInGString                       // IllegalArgumentException from asSql
    | CannotRegisterOutParameter(pos: nat) // out parameter bound to a non-callable statement
    | InvalidArgument(message: string)     // IllegalArgumentException from newInstance(Map)
    | NotProperties                        // ClassCastException of the 'properties' argument
    | NoConnection                         // NullPointerException: no connection was given
}
